=== FILE: README.md ===
# Build-Ticket-Automation in Dafny

Build-Ticket-Automation reads a build-ticket workbook and turns it into
Terraform. This project models the data path under the pandas, openpyxl and
file plumbing. That path is a chain of pure transformations over strings,
sequences and insertion-ordered dictionaries:

- **Grid structure inference.** A sheet is read as a cell grid
  (`seq<seq<string>>`, with `""` for NaN or an empty cell). Tables and
  key/value pairs are found in it by two detectors:
  - the current one in `comprehensive_excel_extractor.py` (`TableInference`);
  - the older one in `read_build_data.py` (`LegacyInference`).
- **Field resolution and record synthesis** (`data_accessor.py`).
  - `FieldResolver` covers the keyword lookups, the "actual value"
    extraction and the `wab:` reference resolution.
  - `RecordSynthesizer` covers the records of `get_terraform_ready_data`:
    project info, VM instances, the VM fallback, NSG rules and naming
    patterns.
- **Emitter helpers.** These are the per-field fallback chains, sanitizers
  and small renderers of:
  - the JSON generator (`TerraformJson`);
  - the first Terraform generator (`EmitterV1`);
  - the second Terraform generator (`EmitterV2`).
- **Pipeline helpers** (`Pipeline`). These are the recursive config merge,
  the directory-name sanitizer, the subscription search and the choice of
  the output folder.

Python dictionaries keep insertion order, and overwriting a key keeps its
position. `OrderedMaps.OMap` models them as association lists with exactly
that update rule. Lookups that return the first match in iteration order
are therefore modelled faithfully.

Strings are ASCII:
- `str.strip`, `str.isspace` and `str.lower` act on ASCII characters;
- the regular-expression class `\w` is `[A-Za-z0-9_]`.

## Model

| member | source | states |
|---|---|---|
| Grid.Text | comprehensive_excel_extractor.py:201-204 | a cell's text is non-empty exactly when the cell is filled (not NaN and not blank after trimming) |
| Grid.RawRecordGet | comprehensive_excel_extractor.py:123 | a `raw_data` record has one distinct key per frame column, and each reads the untrimmed cell text, empty for NaN; any other column key is absent |
| TableInference.HeadersShape | comprehensive_excel_extractor.py:198-204 | there is one header per grid column; each is non-empty, and it is the trimmed cell text exactly when the cell is filled (otherwise `Column_<c>`) |
| TableInference.BuildRow | comprehensive_excel_extractor.py:210-219 | the column loop builds the row's `row_data` and sets `has_data` exactly when some header column is filled |
| TableInference.ScanDataRows | comprehensive_excel_extractor.py:207-223 | the data-row loop with its `break` returns the rows below the header, up to the window end or the first row without data |
| TableInference.ScanFacts | comprehensive_excel_extractor.py:207-223 | the scan keeps consecutive rows that have data, in order; it ends at the window end or at a row without data |
| TableInference.EmptyRowEndsTable | comprehensive_excel_extractor.py:220-223 | a row without data below a header is outside that table, and so is every row after it |
| TableInference.RowDataShape | comprehensive_excel_extractor.py:213-221 | every emitted data row is non-empty, and each entry maps a header to the trimmed text of a filled cell in that row |
| TableInference.TableAtShape | comprehensive_excel_extractor.py:192-232 | a reported table has a header row below 20 with at least 3 filled cells, one header per column, and 1 to 99 data rows from the rows just below; `row_count` equals the number of rows |
| TableInference.ExtractTablesSpec | comprehensive_excel_extractor.py:184-234 | a table starts at row x exactly when x is a qualifying candidate among the first 20 rows; tables come in row order, overlapping tables included |
| TableInference.KvEmpty | comprehensive_excel_extractor.py:240-256 | a sheet has no key/value pairs exactly when it has fewer than two columns or no row passes the filter |
| TableInference.KvPresent | comprehensive_excel_extractor.py:243-254 | on a sheet with at least two columns, the key of every row that passes the filter is stored |
| TableInference.KvSound | comprehensive_excel_extractor.py:243-254 | every stored pair has a colon-free, trimmed, non-empty key and a non-empty value, and neither side lowercases to `nan` or `none` |
| TableInference.KvLookup | comprehensive_excel_extractor.py:243-254 | a key reads as the value of the last surviving row that carries it |
| TableInference.KvAbsent | comprehensive_excel_extractor.py:243-254 | a key that no surviving row carries is absent |
| TableInference.ExtractSheetsIndependent | comprehensive_excel_extractor.py:97-150 | each sheet gets the record of its own read, whatever happened to the other sheets: a failed read gives its error message, no tables, no pairs and 0x0 dimensions, and a successful read has no error |
| LegacyInference.LegacyKeyValuePairs | read_build_data.py:144-167 | the older key/value loop computes exactly the pairs of the current extractor: the same column, colon, `nan`/`none` and last-write rules |
| LegacyInference.LegacyHeadersSpec | read_build_data.py:191 | the compacted headers are the trimmed texts of the filled cells, one per filled cell, in column order, with none skipped and no placeholders |
| LegacyInference.LegacyHeaderTestRedundant | read_build_data.py:182-193 | a candidate row (at least 3 filled cells) always has at least 3 compacted headers, so the second test never rejects it |
| LegacyInference.LegacyTableShape | read_build_data.py:187-220 | a table's header row has at least 3 filled cells; the i-th header pairs with grid column i; there are 1 to 49 data rows scanned from the next row inside the 50-row window, stopping at the first row with nothing in the first `len(headers)` columns; `row_count` equals the number of rows |
| LegacyInference.LegacyTablesSpec | read_build_data.py:169-225 | any row of the sheet, not only the first 20, heads a table exactly when it qualifies; tables come in row order |
| LegacyInference.CellContextEmpty | read_build_data.py:267-291 | the context is empty exactly when none of the left, above and top-left neighbours is filled |
| LegacyInference.CellContextLeftFirst | read_build_data.py:273-277 | a filled left neighbour is the first part of the context |
| LegacyInference.CellContextOrder | read_build_data.py:267-291 | the context lists, separated by a vertical bar between two blanks, the filled left neighbour, then the filled one above, then the filled top-left one, each labelled `Left: `, `Above: ` or `TopLeft: ` before its trimmed text |
| LegacyInference.CellContextAllFilled | read_build_data.py:267-291 | with all three neighbours filled the context is `Left: <l>`, then `Above: <a>`, then `TopLeft: <t>`, with a blank, a vertical bar and a blank between them |
| LegacyInference.MergedOverviewGet | read_build_data.py:332-339 | a merged key reads as its value in the last sheet that writes it |
| LegacyInference.VmRowsOfSpec | read_build_data.py:341-350 | a row is collected exactly when it belongs to a non-empty table whose lowercased headers contain host, vm, server, machine or instance |
| LegacyInference.VmRowsSpec | read_build_data.py:332-350 | the VM rows of the workbook are the VM rows of its sheets |
| LegacyInference.MappedFieldsGet | read_build_data.py:356-360 | a mapped field takes its label's value when the merged pairs have the label, else its default |
| LegacyInference.EnsureRequiredGet | read_build_data.py:366-369 | a required field that is missing or empty takes its default; every other field keeps its value |
| LegacyInference.ProcessSetsEveryField | read_build_data.py:354-360 | every field of the mapping is set in the build data |
| LegacyInference.ProcessRequiredNonEmpty | read_build_data.py:365-369 | `project_name`, `application_name` and `app_owner` are never empty in the build data |
| Config.MappingHasDefaults | config.py:38-60 | every target field of the spreadsheet mapping has a non-empty default |
| Config.RequiredAreMapped | config.py:38-67 | every required overview field is a target of the mapping and has a default |
| Config.NormalizeResourceName | config.py:79-103 | the result is 1 to 60 characters of `[a-z0-9-]`, with no `--` and no hyphen at either end; empty input gives `default-resource` |
| Config.NormalizeIdempotent | config.py:79-103 | normalizing twice is normalizing once |
| Config.NormalizeShortCore | config.py:82-103 | a name whose cleaned core is non-empty and at most 60 characters normalizes to exactly that core |
| Config.NormalizeLongCore | config.py:98-101 | a core longer than 60 characters gives its first 60 characters with at most one trailing hyphen dropped, so 59 or 60 characters of the core |
| Config.NormalFormFixed | config.py:79-103 | a name already in normal form is returned unchanged |
| Config.NormalizeSymbolsOnly | config.py:83-99 | a name with no ASCII letter or digit normalizes to `default-resource` |
| FieldResolver.TableByHeadersSpec | data_accessor.py:55-64 | the result is the first stored table with a header that contains a keyword (both lowercased); there is none exactly when no table has such a header |
| FieldResolver.ColumnDataSpec | data_accessor.py:66-79 | the column's values come in row order, one from each row that has the column, and no such row is skipped |
| FieldResolver.ColumnByKeywordsSpec | data_accessor.py:81-91 | no table at the index gives none; otherwise the result is the first header, in header order, that contains a keyword |
| FieldResolver.FindKeyByKeywordsSpec | data_accessor.py:99-107 | the result is the first key, in insertion order, whose lowercase contains a lowercased keyword; there is none exactly when no key qualifies |
| FieldResolver.ValueByKeywordsSpec | data_accessor.py:93-114 | a value is returned exactly when the first key, in insertion order, containing a keyword is non-empty, and then it is that key's value |
| FieldResolver.FindKeyAt | data_accessor.py:99-107 | the first key containing a keyword is the key found |
| FieldResolver.FindKeyIndex | data_accessor.py:99-107 | a key found sits at a position where it contains a keyword and no earlier key does |
| FieldResolver.ValueByKeywordsFound | data_accessor.py:109-114 | a non-empty key that was found always has its value returned |
| FieldResolver.ActualValuesSound | data_accessor.py:200-231 | every extracted pair has a non-empty field and a non-blank value, neither in the skip list, and the value starts with neither `wab:` nor `vm_list` |
| FieldResolver.ActualValuesLastWins | data_accessor.py:212-231 | a field reads as the value of the last row that names it and passes the filter; the value sits at the value-column position among the row's populated entries |
| FieldResolver.ResolveSpec | data_accessor.py:235-256 | a falsy value or a non-reference comes back unchanged; a reference resolves to the value of the first entry whose key contains the whole name, else to the first entry whose key contains a lower-cased word of the name, else stays as it is |
| FieldResolver.ResolveAsWrittenCapitalized | data_accessor.py:244-256 | as written, a reference whose words all start with a capital and that has no whole-name hit is never resolved, whatever the actual values |
| FieldResolver.ResolveAsWrittenMisses | data_accessor.py:244-256 | as written, `wab:Node-Size` against the single pair `Size = Standard_D4s_v3` comes back unresolved |
| FieldResolver.ResolveHitsWord | data_accessor.py:244-256 | with the words lower-cased, the same reference resolves to `Standard_D4s_v3` |
| RecordSynthesizer.ProjectTargetSpec | data_accessor.py:315-339 | a field name is mapped by the first search key, in mapping order, that its lowercase contains, and is not mapped when it contains none |
| RecordSynthesizer.ProjectInfoFields | data_accessor.py:333-339 | project info holds only the fifteen project fields, each set to one of the actual values |
| RecordSynthesizer.ProjectInfoLastWins | data_accessor.py:333-339 | a project field holds the last actual value mapped to it |
| RecordSynthesizer.NonBlankShape | data_accessor.py:378-382 | a VM record keeps only entries of its row, and only those whose value is not blank |
| RecordSynthesizer.NonBlankGet | data_accessor.py:378-382 | a non-blank entry of the row is kept as it is; a blank or missing key is absent |
| RecordSynthesizer.RichRowsMember | data_accessor.py:377-385 | a record is collected from a table exactly when it is the non-blank part of one of its rows and has at least three entries |
| RecordSynthesizer.VmRowsOfMember | data_accessor.py:350-385 | a table yields records exactly when a header or a first-row field mentions a VM keyword, it has at least five headers and some data; the records are its rich rows |
| RecordSynthesizer.VmInstancesMember | data_accessor.py:346-387 | a VM instance comes from one of the Resources tables, and every record a table yields is an instance |
| RecordSynthesizer.VmCountSpec | data_accessor.py:595-603 | the count is the value of the first VM-count field whose value parses as an integer; fields that do not parse are passed over; with none the count is 2 |
| RecordSynthesizer.FallbackVmsShape | data_accessor.py:605-642 | every synthesised instance has the same seventeen keys in order, the host name `<app>-NN` for its position, and host names are pairwise different |
| RecordSynthesizer.FallbackVmsDefault | data_accessor.py:595-603 | with no parsable count field there are two instances |
| RecordSynthesizer.NonEmptyMember | data_accessor.py:415-417 | a rule is kept exactly when it is a non-empty row |
| RecordSynthesizer.NonEmptyNoop | data_accessor.py:415-417 | without empty rows nothing is dropped |
| RecordSynthesizer.TableRowsNonEmptyMember | data_accessor.py:404-421 | a collected NSG rule or resource option is a non-empty row of one of the tables, and every such row is collected |
| RecordSynthesizer.TableRowsNonEmptyAll | data_accessor.py:490-497 | without empty rows the collection is every table's data, concatenated in table order |
| RecordSynthesizer.CombineConfigGet | data_accessor.py:436-447 | the key/value pairs win; a key they lack reads as the last non-blank table value written under it |
| RecordSynthesizer.NamingPatternsShape | data_accessor.py:531-566 | naming patterns hold only the six categories, each with a non-blank value |
| RecordSynthesizer.NamingPatternsKvWins | data_accessor.py:550-564 | the last key/value pair of a category gives its pattern, whatever the tables hold |
| RecordSynthesizer.NamingPatternsFromRows | data_accessor.py:533-548 | a category that no key/value pair names keeps the value of the last resource-option field of that category |
| RecordSynthesizer.TerraformReadyVms | data_accessor.py:389-396 | the VM list is the table VMs when there are any, else the synthesised ones; it is empty exactly when no table yields a VM and the count is not positive |
| SortedStrings.InsertSpec | terraform_json_generator.py:288-303 | adding a value to a sorted, duplicate-free list keeps it so and adds exactly that value |
| SortedStrings.SortedUnique | terraform_json_generator.py:305-309 | a strictly sorted list is determined by its members, so `sorted(set(...))` has one answer |
| TerraformJson.PrimaryEnvironmentPlain | terraform_json_generator.py:121-140 | the primary environment has no blank, comma or capital letter |
| TerraformJson.PrimaryEnvironmentIdempotent | terraform_json_generator.py:121-140 | parsing a non-empty primary environment again gives it back |
| TerraformJson.PrimaryEnvironmentFirstToken | terraform_json_generator.py:126-140 | only the first comma-separated token decides the primary environment |
| TerraformJson.PrimaryAlias | terraform_json_generator.py:129-140 | a single lower-case token without blanks or commas goes through the alias table: `development`, `testing`, `staging`, `production`, `qa` and `uat` give their targets, any other token stays as it is |
| TerraformJson.PrimaryEnvironmentCaseBlind | terraform_json_generator.py:126 | capital letters make no difference to the primary environment |
| TerraformJson.PrimaryEnvironmentBlankBlind | terraform_json_generator.py:126 | blanks make no difference to the primary environment, unless the text is nothing but blanks |
| TerraformJson.AliasTargetFixed | terraform_json_generator.py:128-140 | every alias leads to a name the alias table maps to itself |
| TerraformJson.ParseEnvironmentsShape | terraform_json_generator.py:142-147 | every parsed environment is non-empty, trimmed, lower-case and comma-free |
| TerraformJson.ParseEnvironmentsJoin | terraform_json_generator.py:142-147 | clean environment names joined with commas parse back to the same list |
| TerraformJson.ParseDiskSize | terraform_json_generator.py:213-228 | there is no size exactly when the text is missing, empty or has no digit |
| TerraformJson.ParseDiskSizeGb | terraform_json_generator.py:213-228 | `<n> GB` reads as n |
| TerraformJson.ParseDiskSizeTb | terraform_json_generator.py:213-228 | `<n>TB` reads as n times 1024 |
| TerraformJson.ClassifySpec | terraform_json_generator.py:271-286 | the category chosen is the first, in order, one of whose keywords occurs, and there is none exactly when no keyword occurs |
| TerraformJson.InferVmRoleSpec | terraform_json_generator.py:271-286 | the role is one of the six; it is a given role exactly when that role's keyword occurs in the lower-cased hostname and no earlier role's does; `compute` exactly when no keyword occurs |
| TerraformJson.VmEnvironmentSpec | terraform_json_generator.py:192-211 | the VM's own environment wins; else the first hostname hint in priority order; else the primary environment of the build record |
| TerraformJson.VmEnvironmentLower | terraform_json_generator.py:192-211 | the VM environment is lower-case |
| TerraformJson.ResourceGroupNameShape | terraform_json_generator.py:109-119 | the group name is `rg-`, then the normal form of the application name, then `-` and the primary environment of the `environments` text; it has no blank, comma or capital |
| TerraformJson.ResourceTagsClean | terraform_json_generator.py:230-252 | no resource tag is empty or `TBD` |
| TerraformJson.ResourceTagsWritten | terraform_json_generator.py:230-252 | each dynamic tag holds its value from the build record, or is absent when that value is empty or `TBD` |
| TerraformJson.ResourceTagsDefaults | terraform_json_generator.py:230-252 | a default tag that no dynamic tag overrides keeps its default value |
| TerraformJson.VmTagsSpec | terraform_json_generator.py:254-269 | VM tags set Name, Role, Environment and, for a VM with a subscription, Subscription; every other key reads as the resource tags |
| TerraformJson.CollectSpec | terraform_json_generator.py:288-309 | a collected list is sorted without duplicates and holds exactly the non-empty values some VM has under the key |
| TerraformJson.CollectCanonical | terraform_json_generator.py:288-309 | the collected list is the one sorted list with those members |
| TerraformJson.NetworkingConfigSpec | terraform_json_generator.py:288-309 | each of the three networking lists is sorted, duplicate-free, and holds exactly the values present on the VMs |
| TerraformJson.ProcessVmSpec | terraform_json_generator.py:155-188 | a processed VM is well formed, is named by the normal form of its own hostname, and takes its network fields from its own row |
| TerraformJson.ProcessVmOptionalKeys | terraform_json_generator.py:173-182 | each optional key of a kept VM is present exactly when the row's value is non-empty, and then holds it; the disk size is present exactly when the row's size parses to a positive number |
| TerraformJson.ProcessVmInstancesShape | terraform_json_generator.py:149-190 | there are no more entries than rows, each is well formed, and there are none exactly when every row is skipped |
| TerraformJson.ProcessVmInstancesAllNamed | terraform_json_generator.py:149-190 | with no blank hostname every row gives its entry, in order |
| TerraformJson.MissingFieldErrorsEmpty | terraform_json_generator.py:316-319 | there is no missing-field error exactly when every required field is present |
| TerraformJson.ValidateTerraformJsonSpec | terraform_json_generator.py:312-331 | a document passes exactly when it has every required field and each VM entry has a non-empty name and size |
| TerraformJson.ValidateDocument | terraform_json_generator.py:312-331 | a document of well-formed entries fails only through an empty VM size |
| TerraformJson.ValidateGenerated | terraform_json_generator.py:27-64 | the document generated from any build record passes validation exactly when every generated VM has a size |
| TerraformJson.MetadataNames | terraform_json_generator.py:29-39 | the `metadata` block carries generator version `1.0.0` and the names as read, and the top-level names are their normal forms; a missing name reads `Unknown Project` or `Unknown Application` in the metadata while the top level falls back to the normalised defaults |
| EmitterV2.CacheOfSheet | enhanced_terraform_generator_v2.py:37-51 | each sheet of the workbook has exactly the cache built from its own raw rows, and other names have none |
| EmitterV2.RawValueNoSheet | enhanced_terraform_generator_v2.py:53-64 | a lookup in a sheet the workbook lacks gives the default |
| EmitterV2.RawValueLastRow | enhanced_terraform_generator_v2.py:45-51 | a name reads as column "2" of the last row of its sheet whose column "1" is that name, `None` included |
| EmitterV2.RawValueNoRow | enhanced_terraform_generator_v2.py:47-51 | a name that no row carries, the empty name in particular, gives the default |
| EmitterV2.Ranked | enhanced_terraform_generator_v2.py:1403-1405 | a ranked result is a non-empty text that passes the field's test |
| EmitterV2.RankedSpec | enhanced_terraform_generator_v2.py:1403-1405 | the first field, in rank order, that holds a non-blank acceptable value decides, trimmed; there is none exactly when no field offers one |
| EmitterV2.SanitizeNameShape | enhanced_terraform_generator_v2.py:1407-1410 | the substitution keeps the length, leaves only `[\w-]`, and changes exactly the other characters |
| EmitterV2.SanitizeNameIdempotent | enhanced_terraform_generator_v2.py:1407-1410 | a `[\w-]` name is unchanged, so sanitizing twice is sanitizing once |
| EmitterV2.ExtractVmNameSpec | enhanced_terraform_generator_v2.py:1399-1415 | the first name field with a non-blank value gives the name, trimmed and sanitized; with none the name is `<application_name>-NN` for the VM's position |
| EmitterV2.FallbackNamesDistinct | enhanced_terraform_generator_v2.py:1413-1415 | two unnamed VMs at different positions get different names |
| EmitterV2.ExtractVmSize | enhanced_terraform_generator_v2.py:1417-1434 | the size is never empty |
| EmitterV2.ExtractVmSizeSpec | enhanced_terraform_generator_v2.py:1417-1434 | the first size field holding an Azure SKU decides, values that are not SKUs are skipped; without one the project's trimmed `vm_size`, else `Standard_B2s_v2` |
| EmitterV2.ExtractOsType | enhanced_terraform_generator_v2.py:1436-1458 | the OS type is `windows` or `linux` |
| EmitterV2.WindowsHintIsWin | enhanced_terraform_generator_v2.py:1444 | the Windows test holds exactly when the text contains `win` |
| EmitterV2.ExtractOsTypeSpec | enhanced_terraform_generator_v2.py:1436-1458 | the type is Linux exactly when the deciding text (the first field naming a family, else the project's `os_image`) does not contain `win` and names Linux |
| EmitterV2.ExtractVmDiskSizeSpec | enhanced_terraform_generator_v2.py:1460-1476 | the first disk-size field with a digit gives the value of its first digit run; fields without digits are passed over; with none the size is 30 |
| EmitterV2.ExtractVmDiskSizeOf | enhanced_terraform_generator_v2.py:1460-1476 | a VM whose `OS disk size` is the decimal text of n gets n |
| EmitterV2.ExtractVmDiskTypeSpec | enhanced_terraform_generator_v2.py:1478-1488 | the disk type always looks like a managed-disk SKU: the first ranked value that does, else `Standard_LRS` |
| EmitterV2.VmKeyInjective | enhanced_terraform_generator_v2.py:748 | different positions get different `vm<i+1>` keys |
| EmitterV2.RawVmSettingOwn | enhanced_terraform_generator_v2.py:749-757 | a non-empty raw value for the VM's own key in the Resources sheet is used |
| EmitterV2.RawVmSettingFallsThrough | enhanced_terraform_generator_v2.py:749-757 | an empty raw value for the VM's own key falls through to the `vm1` key and then to the extracted value |
| EmitterV2.RawVmSettingNoSheet | enhanced_terraform_generator_v2.py:749-757 | without a Resources sheet every setting is its extracted or default value |
| EmitterV2.VmListEntriesSpec | enhanced_terraform_generator_v2.py:740-792 | one entry per VM, in order, keyed `vm1`, `vm2`, ... without repetition; each has the VM's OS type and the URN of that type |
| EmitterV2.VmListShape | enhanced_terraform_generator_v2.py:730-796 | the list is `{}` exactly when there are no VMs; otherwise it opens with the `vm1` entry |
| EmitterV2.NsgRuleDefaultNames | enhanced_terraform_generator_v2.py:890 | unnamed rules at different positions get different names |
| EmitterV2.NsgRuleDefaultPriority | enhanced_terraform_generator_v2.py:891 | a rule without a priority gets one that reads back as 100 + 10 i |
| EmitterV2.PortRanges | enhanced_terraform_generator_v2.py:896-901 | the ports of a rule are a one-element list holding the rule's own port text, or `443` when the rule has none |
| EmitterV2.PortsTextOfRule | enhanced_terraform_generator_v2.py:896-904 | a single port text renders as `["<port>"]`, and a rule without ports as `["443"]` |
| EmitterV2.PortsTextQuotes | enhanced_terraform_generator_v2.py:904 | the rendered port list has two quotes per port |
| EmitterV2.NsgRulesEmpty | enhanced_terraform_generator_v2.py:867-929 | the rule list renders as `rules = []` exactly when there are no security rules |
| EmitterV2.SummaryCountsDependOnLengths | enhanced_terraform_generator_v2.py:1490-1518 | resource counts and the file layout depend only on how many VMs and rules there are |
| EmitterV2.SummariesAgree | enhanced_terraform_generator_v2.py:1490-1518 | both generators' summaries of the same data report the same project and application names and the same numbers of VMs and rules |
| EmitterV1.FirstTruthySpec | enhanced_terraform_generator.py:1601-1603 | the first field, in rank order, with a truthy value decides, trimmed; there is none exactly when no field has one |
| EmitterV1.ExtractorSpec | enhanced_terraform_generator.py:1608-1646 | each extractor returns the first truthy ranked field, trimmed, else its own default |
| EmitterV1.BlankHostnameGivesEmptyName | enhanced_terraform_generator.py:1601-1603 | a blank but non-empty `Hostname` is truthy, so the name is the empty text and no fallback is used |
| EmitterV1.FallbackVmNamesDistinct | enhanced_terraform_generator.py:1606 | the fallback names `vm-NNN` of different positions differ |
| EmitterV1.SanitizeResourceName | enhanced_terraform_generator.py:1648-1656 | the sanitized name is empty exactly when the input is |
| EmitterV1.SanitizeResourceNameShape | enhanced_terraform_generator.py:1648-1656 | every character is in `[a-zA-Z0-9_-]`, a non-empty result starts with a letter, and a name already of that shape is unchanged |
| EmitterV1.SanitizeResourceNameIdempotent | enhanced_terraform_generator.py:1648-1656 | sanitizing twice is sanitizing once |
| EmitterV1.SanitizeResourceNameChars | enhanced_terraform_generator.py:1652-1655 | each character is kept when it is in `[a-zA-Z0-9_-]` and otherwise becomes `_`; exactly the non-empty names that do not start with a letter get `vm_` in front (`1 web` becomes `vm_1_web`) |
| EmitterV1.VmNamesListQuotes | enhanced_terraform_generator.py:1658-1667 | with names free of double quotes, the list holds exactly two quotes per VM |
| EmitterV1.DefaultRuleNamesDistinct | enhanced_terraform_generator.py:1677 | the default names `rule_<i>` of different positions differ |
| EmitterV1.DefaultPriorityValue | enhanced_terraform_generator.py:1678 | the default priority reads back as the number 100 + 10 i |
| EmitterV1.NsgRuleObjectsSpec | enhanced_terraform_generator.py:1669-1689 | the list holds one object per rule with a truthy name and direction, in order, built from the rule at its original position; every kept rule has an object |
| EmitterV1.RuleResourcesAsWrittenIndex | enhanced_terraform_generator.py:172-191 | as written, the resource of the j-th kept rule reads `var.nsg_rules` at the rule's position among all rules, not among the kept ones |
| EmitterV1.RuleResourcesAsWrittenOutOfRange | enhanced_terraform_generator.py:172-191 | an unnamed rule followed by a named one gives a one-object list whose only resource reads index 1 |
| EmitterV1.RuleResourcesReadOwnRule | enhanced_terraform_generator.py:172-191 | every kept rule has a resource named after it whose index reads the object built from that same rule |
| EmitterV1.RuleResourcesAgreeWhenAllKept | enhanced_terraform_generator.py:172-191 | when no rule is filtered out, the written index is the corrected one |
| EmitterV1.ProjectValues | enhanced_terraform_generator.py:543-560 | with VMs, each of the seven values is the first VM's field (`Project Name`, `Application Name`, `Environment`, `Recommended SKU`, `Application Owner`, `Business Owner`, `Service Now Ticket`) or its default; without VMs, the matching `project_info` field or the same default |
| EmitterV1.AppGatewayPort | enhanced_terraform_generator.py:568 | the port is never `False`: an absent port or the text `False` gives `80`, and any other configured port is used as it is |
| EmitterV1.SelectTfvars | enhanced_terraform_generator.py:533-568 | the VM count is the number of VMs; a first VM lacking the looked-up fields gives the defaults, whatever the project info says |
| EmitterV1.SelectTfvarsSources | enhanced_terraform_generator.py:543-568 | with VMs only the first VM matters and the project info is ignored; without VMs only the project info matters |
| EmitterV1.SummaryCountsAllRules | enhanced_terraform_generator.py:913-951 | the summary counts every rule, so it never reports fewer rules than `main.tf` creates |
| Pipeline.MergeFromOther | automation_pipeline.py:96-105 | a key that no remaining user entry names keeps its default value |
| Pipeline.MergeFromHit | automation_pipeline.py:96-105 | with distinct user keys, each user key holds the user's value, or the recursive merge when both sides are dicts |
| Pipeline.MergeFromHasKey | automation_pipeline.py:96-105 | a key is in the merged configuration exactly when the defaults or a remaining user entry have it |
| Pipeline.MergeFromKeys | automation_pipeline.py:96-105 | the default keys keep their order at the front; new user keys are added after them |
| Pipeline.MergeConfigSpec | automation_pipeline.py:96-105 | every user key ends up in the configuration; a key only the defaults have keeps its value; the default keys keep their order; with distinct user keys each holds the user's value or the merge of two dicts |
| Pipeline.MergeIntoNothing | automation_pipeline.py:96-105 | merging into empty defaults gives back the user's configuration |
| Pipeline.MergeNothing | automation_pipeline.py:96-105 | merging an empty user configuration changes nothing |
| Pipeline.DirNameCoreShape | automation_pipeline.py:526-536 | after trimming, replacing, collapsing and stripping, the name has only `[\w-]`, no `__`, and no `_` at either end |
| Pipeline.TruncateDirName | automation_pipeline.py:538-540 | cutting a well-shaped name to 50 characters and dropping trailing underscores leaves a clean name |
| Pipeline.SanitizeDirectoryName | automation_pipeline.py:520-547 | the result is always a clean directory name of 1 to 50 characters; an empty name gives `unknown` |
| Pipeline.SanitizeDirectoryNameShortCore | automation_pipeline.py:526-547 | a name whose cleaned core is non-empty and at most 50 characters gives exactly that core |
| Pipeline.SanitizeDirectoryNameLongCore | automation_pipeline.py:538-540 | a core longer than 50 characters gives its first 50 characters with at most one trailing underscore dropped, so 49 or 50 characters of the core |
| Pipeline.DirNameCoreFixed | automation_pipeline.py:526-536 | each step before the length rule leaves a clean name as it is |
| Pipeline.SanitizeDirectoryNameKeepsClean | automation_pipeline.py:520-547 | a name is returned unchanged exactly when it is already clean |
| Pipeline.SanitizeDirectoryNameIdempotent | automation_pipeline.py:520-547 | sanitizing twice is sanitizing once |
| Pipeline.SubscriptionInSpec | automation_pipeline.py:477-482 | a map yields the trimmed value of its first entry whose key names the subscription and whose value is not blank, and nothing when it has none |
| Pipeline.SearchMapsSpec | automation_pipeline.py:466-513 | nothing is found exactly when no map has a subscription entry; otherwise the result is the trimmed value of the first entry in search order |
| Pipeline.ExtractSubscription | automation_pipeline.py:466-513 | the nested loops over build environment, Resources, every sheet and every VM return the search result, which is non-empty and trimmed |
| Pipeline.LastIndexOf | automation_pipeline.py:431 | the position found holds the character and none follows it; no position means the character does not occur |
| Pipeline.BaseName | automation_pipeline.py:431 | the base name is the part of the path after its last `/`: the path is some prefix, empty or ending in `/`, followed by the base name, which has no `/` |
| Pipeline.StemOf | automation_pipeline.py:431 | the stem is a prefix of the name; what is cut off is the last `.` and what follows it, and it is cut exactly when some `.` has a non-dot character before it |
| Pipeline.Format | automation_pipeline.py:447-456 | formatting fails with `KeyError` exactly when the pattern has a field that is not bound |
| Pipeline.OutputDirectoryLegacy | automation_pipeline.py:426-434 | with dynamic naming off, the folder is `<terraform_dir>/<stem>_terraform` whatever the subscription and the clock say |
| Pipeline.FormatTwoFields | automation_pipeline.py:447-456 | a two-field pattern with both fields bound fills them in around the separator |
| Pipeline.NoSlash | automation_pipeline.py:443-456 | a sanitized name, `_` and a timestamp form one directory name, with no `/` |
| Pipeline.OutputDirectoryDefaults | automation_pipeline.py:423-464 | with the default patterns the folder is `<terraform_dir>/<sanitized subscription>_<timestamp>`, or the sanitized file stem when there is no subscription; the last component is a single directory name |
| Pipeline.PathJoinUnder | automation_pipeline.py:459 | the folder joined onto a directory without a trailing `/` sits directly under it |

## Left out

- File and JSON I/O (`open`, `json.load`, `json.dump`, `makedirs`, `chmod`) is not modelled. The model starts from the parsed values and ends at the generated text.
- Workbook reading through pandas and openpyxl is foreign library code. The model takes the cell grid it produces as input: `""` stands for NaN or an empty cell, and every other cell is the text pandas gives.
- A failed sheet read is an input (`ReadFailed(message)`). The exception it stands for is not modelled.
- Formulas, calculated values, workbook properties, named ranges, comments and the macro blob (`vba_macro_extractor.py`, `_extract_macros`) are not modelled. They are opaque or numeric side data that the Terraform path does not read.
- Cell values are strings only. Integers, floats, lists and dictionaries inside records (an `int` disk size, a list destination port, a `tags` dictionary) are not modelled. The only exception is a string destination port, which the NSG renderer wraps into a one-element list.
- Strings are ASCII: `strip`, `isspace`, `lower`, `isalpha` and the `\w` class act on ASCII characters only. There is no Unicode case folding.
- `str.format` is modelled only for the two output-folder patterns. A pattern is given already split into literal text and field names. Format specs, conversions and positional fields are not modelled.
- Paths are POSIX paths; `os.path.join`, `os.path.basename` and `os.path.splitext` are modelled for `/` only.
- The clock (`datetime.now`) is a parameter. It is the timestamp string of the output folder, and the `today` date from which the `GeneratedAt` tag of the resource tags is written. The timestamps in generated file headers and scripts are not modelled.
- TerraformJson.MetadataNames: the `metadata` block is modelled without `generated_at`, a clock reading, and without `source_file`, the configured workbook path. Both are outside the data the model starts from.
- Subscription lookup: an exception raised while reading the JSON file counts as "no subscription" (the `None` input).
- Output settings are given with the `.get` defaults already applied.
- JSON numbers in the configuration file are integers. Floating-point values are not modelled.
- The constant Terraform templates (`variables.tf`, `versions.tf`, `data.tf`, `locals.tf`, the `r-*.tf` bodies, README, deployment guide and scripts) and the surrounding text of `main.tf` are not modelled. Only the fragments that depend on data are: the VM list, the NSG rule list and rule resources, and the name lists.
- CLI and orchestration are not modelled. This covers `main.py`, `convert_excel.py`, `excel_to_terraform.py`, `excel_to_json_converter.py`, `demo_column_referencing.py`, and `run`, backup, cleanup, logging, notifications and report writing in `automation_pipeline.py`. They compose the modelled functions with file-system effects.
- `print` and logging output is left out throughout.
- `networking` in `get_terraform_ready_data` is always an empty dictionary and is not represented.
- `ExcelDataAccessor.get_summary`, `get_table_as_dataframe` and the `export_*` functions are not modelled. They report on or re-serialise loaded data.
- RecordSynthesizer.VmInstancesMember: states which records are instances, not their order. Their order is fixed by the definition: table by table, row by row.
- LegacyInference.VmRowsOfSpec: states which rows are collected, not their order. Their order is table order, then row order.
- LegacyInference.VmRowsSpec: relates the whole workbook to its sheets by membership, not order.
- EmitterV1.RuleResources: a rule resource of `main.tf` is modelled by its resource name and the list index it reads. The rest of its text only repeats that index and constant names, and it is not rendered.

## Findings

| source | as written | input that shows it | evidently intended | confidence | as-written member | corrected member |
|---|---|---|---|---|---|---|
| data_accessor.py:252-254 | the second pass of `_resolve_variable_reference` splits the reference name into words in their original case and looks for each in `key.lower()`, so a word with any capital letter can never match | `wab:Node-Size` with the single actual value `Size = Standard_D4s_v3` stays unresolved: `Node Size` is not a substring of `size`, and neither `Node` nor `Size` occurs in `size` | compare lower-cased words, as the first pass does, so the reference resolves to `Standard_D4s_v3` | not executed; the behaviour follows directly from the code | FieldResolver.ResolveAsWrittenMisses | FieldResolver.ResolveHitsWord |
| enhanced_terraform_generator.py:172-191 | each rule resource in `main.tf` reads `var.nsg_rules[i]` with `i` the rule's position in `security_groups`, but the list in `variables.tf` (enhanced_terraform_generator.py:1669-1689) holds only the rules with a name and a direction | security groups `[{direction: Inbound}, {name: web, direction: Inbound}]` give a one-element list and a resource that reads `var.nsg_rules[1]`, out of range | index each resource by the rule's position among the kept rules, so it reads the object built from its own rule | not executed; the behaviour follows directly from the code | EmitterV1.RuleResourcesAsWrittenOutOfRange | EmitterV1.RuleResourcesReadOwnRule |

=== FILE: config.dfy ===
/** The shared configuration: the overview field mapping, its defaults, the
    required fields, the default tags and Azure defaults, and the
    resource-name normaliser every emitter uses. */
module Config {
  import opened Strings
  import opened Optionals
  import opened OrderedMaps

  const DefaultAzureRegion := "East US"
  const DefaultVmSize := "Standard_D2s_v3"
  const DefaultOsImage := "Ubuntu 22.04 LTS"
  const DefaultAdminUsername := "azureuser"

  /** Whether VM rows without a hostname are dropped by default. */
  const SkipEmptyVms := true

  const DefaultTags: OMap<string, string> := [
    ("CreatedBy", "Excel-to-JSON-Converter"),
    ("Environment", "Development"),
    ("Project", "Infrastructure-Automation"),
    ("ManagedBy", "Terraform")
  ]

  /** Spreadsheet label of an overview field to its record field name. */
  const ExcelToTerraformMapping: OMap<string, string> := [
    ("Project Name", "project_name"),
    ("Abbreviated App Name", "application_name"),
    ("Application Description", "app_description"),
    ("Application Tier", "app_tier"),
    ("App Owner", "app_owner"),
    ("Business Owner", "business_owner"),
    ("Service Now Ticket", "service_now_ticket"),
    ("Environments", "environments")
  ]

  const DefaultValues: OMap<string, string> := [
    ("project_name", "Default Project"),
    ("application_name", "default-app"),
    ("app_description", "No description provided"),
    ("app_tier", "Bronze"),
    ("app_owner", "TBD"),
    ("business_owner", "TBD"),
    ("service_now_ticket", "TBD"),
    ("environments", "dev")
  ]

  const RequiredOverviewFields: seq<string> := ["project_name", "application_name", "app_owner"]

  /** Every field the mapping produces has a non-empty default, which
      `process_comprehensive_data` falls back to. */
  lemma MappingHasDefaults()
    ensures forall i :: 0 <= i < |ExcelToTerraformMapping| ==>
      GetOr(DefaultValues, ExcelToTerraformMapping[i].1, "") != ""
  {
    var m := ExcelToTerraformMapping;
    var d := DefaultValues;
    forall i | 0 <= i < |m|
      ensures GetOr(d, m[i].1, "") != ""
    {
      assert m[i].1 == d[i].0;
      assert Get(d, d[i].0).Some?;
    }
  }

  /** No two labels map to the same field. */
  lemma MappingTargetsDistinct()
    ensures forall i, j :: 0 <= i < j < |ExcelToTerraformMapping| ==>
      ExcelToTerraformMapping[i].1 != ExcelToTerraformMapping[j].1
  {
  }

  /** Every required field is one the mapping produces and has a default. */
  lemma RequiredAreMapped()
    ensures forall i :: 0 <= i < |RequiredOverviewFields| ==>
      exists j :: 0 <= j < |ExcelToTerraformMapping| && ExcelToTerraformMapping[j].1 == RequiredOverviewFields[i]
    ensures forall i :: 0 <= i < |RequiredOverviewFields| ==> HasKey(DefaultValues, RequiredOverviewFields[i])
  {
    var m := ExcelToTerraformMapping;
    var d := DefaultValues;
    assert m[0].1 == RequiredOverviewFields[0] == d[0].0;
    assert m[1].1 == RequiredOverviewFields[1] == d[1].0;
    assert m[4].1 == RequiredOverviewFields[2] == d[4].0;
  }

  lemma RequiredDistinct()
    ensures forall x, y :: 0 <= x < y < |RequiredOverviewFields| ==> RequiredOverviewFields[x] != RequiredOverviewFields[y]
  {
  }

  /** Each required field has a non-empty default. */
  lemma RequiredHaveDefaults(k: string)
    requires k in RequiredOverviewFields
    ensures GetOr(DefaultValues, k, "") != ""
  {
    RequiredAreMapped();
    MappingHasDefaults();
    var i :| 0 <= i < |RequiredOverviewFields| && RequiredOverviewFields[i] == k;
    var j :| 0 <= j < |ExcelToTerraformMapping| && ExcelToTerraformMapping[j].1 == k;
  }

  // ------------------------------------------------------ resource names

  predicate IsResourceNameChar(c: char) { IsLowerLetter(c) || IsDigit(c) || c == '-' }

  /** The shape Azure accepts for the names built here: lower-case letters,
      digits and single hyphens, not starting or ending with a hyphen, 1 to 60
      characters. */
  predicate IsNormalResourceName(s: string) {
    && 0 < |s| <= 60
    && AllChars(s, IsResourceNameChar)
    && NoDouble(s, '-')
    && s[0] != '-' && s[|s| - 1] != '-'
  }

  const DefaultResourceName := "default-resource"

  /** `normalize_resource_name`: lower-case, trim, turn blanks and underscores
      into hyphens, drop every other character outside `[a-z0-9-]`, collapse
      hyphen runs, trim hyphens, then fall back to "default-resource" when
      nothing is left or cut to 60 characters. */
  function NormalizeResourceName(name: string): (r: string)
    ensures IsNormalResourceName(r)
    ensures name == "" ==> r == DefaultResourceName
  {
    DefaultIsNormal();
    if name == "" then DefaultResourceName
    else
      var e := NormalizedCore(name);
      NormalizedCoreShape(name);
      if e == "" then DefaultResourceName
      else if |e| > 60 then
        TruncateShape(e);
        RStripChar(e[..60], '-')
      else e
  }

  lemma DefaultIsNormal()
    ensures IsNormalResourceName(DefaultResourceName)
  {
  }

  /** Cutting a well-shaped name to 60 characters and dropping trailing
      hyphens leaves a normal name. */
  lemma TruncateShape(e: string)
    requires |e| > 60 && AllChars(e, IsResourceNameChar) && NoDouble(e, '-') && e[0] != '-'
    ensures IsNormalResourceName(RStripChar(e[..60], '-'))
  {
    var t := RStripChar(e[..60], '-');
    assert t == e[..|t|];
    SliceKeeps(e, 0, |t|, '-', IsResourceNameChar);
  }

  /** The steps before the length rule. */
  function NormalizedCore(name: string): string
  {
    var a := Strip(Lower(name));
    var b := ReplaceChar(ReplaceChar(a, ' ', '-'), '_', '-');
    var c := Filter(b, IsResourceNameChar);
    var d := CollapseRuns(c, '-');
    StripChar(d, '-')
  }

  /** After the steps before the length rule, the name is already a run of
      `[a-z0-9]` groups joined by single hyphens. */
  lemma NormalizedCoreShape(name: string)
    ensures var e := NormalizedCore(name);
      && AllChars(e, IsResourceNameChar) && NoDouble(e, '-')
      && (e == [] || (e[0] != '-' && e[|e| - 1] != '-'))
  {
    var a := Strip(Lower(name));
    var b := ReplaceChar(ReplaceChar(a, ' ', '-'), '_', '-');
    var c := Filter(b, IsResourceNameChar);
    var d := CollapseRuns(c, '-');
    CollapseRunsKeeps(c, '-', IsResourceNameChar);
    StripCharKeeps(d, '-', '-', IsResourceNameChar);
  }

  /** A name already in normal form is left unchanged. */
  lemma NormalFormFixed(s: string)
    requires IsNormalResourceName(s)
    ensures NormalizeResourceName(s) == s
  {
    CoreFixed(s);
    NormalizeShortCore(s);
  }

  /** A name whose core is non-empty and short enough normalises to it. */
  lemma NormalizeShortCore(name: string)
    ensures var e := NormalizedCore(name);
      name != "" && e != "" && |e| <= 60 ==> NormalizeResourceName(name) == e
  {
  }

  lemma NormalizedCoreOfEmpty()
    ensures NormalizedCore("") == ""
  {
    assert Strip(Lower("")) == "";
  }

  /** A core longer than 60 characters is cut to its first 60 characters,
      losing at most one trailing hyphen since the core has no `--`. */
  lemma NormalizeLongCore(name: string)
    ensures var e := NormalizedCore(name); var r := NormalizeResourceName(name);
      |e| > 60 ==> r == e[..|r|] && |r| >= 59
  {
    var e := NormalizedCore(name);
    if name == "" {
      NormalizedCoreOfEmpty();
    } else if |e| > 60 {
      NormalizedCoreShape(name);
      CutCore(e);
    }
  }

  lemma CutCore(e: string)
    requires |e| > 60 && AllChars(e, IsResourceNameChar) && NoDouble(e, '-') && e[0] != '-'
    ensures var t := RStripChar(e[..60], '-'); t == e[..|t|] && |t| >= 59
  {
    SliceKeeps(e, 0, 60, '-', IsResourceNameChar);
    RStripCharSingle(e[..60], '-');
  }

  /** Each step before the length rule leaves a normal name as it is. */
  lemma CoreFixed(s: string)
    requires IsNormalResourceName(s)
    ensures NormalizedCore(s) == s
  {
    assert NoUpper(s);
    LowerNoop(s);
    StripNoop(s);
    assert ' ' !in s;
    ReplaceCharNoop(s, ' ', '-');
    assert '_' !in s;
    ReplaceCharNoop(s, '_', '-');
    FilterNoop(s, IsResourceNameChar);
    CollapseRunsNoop(s, '-');
    StripCharNoop(s, '-');
  }

  /** Normalising twice is normalising once. */
  lemma NormalizeIdempotent(name: string)
    ensures NormalizeResourceName(NormalizeResourceName(name)) == NormalizeResourceName(name)
  {
    NormalFormFixed(NormalizeResourceName(name));
  }

  predicate NoAlnum(s: string) {
    forall i :: 0 <= i < |s| ==> !IsAlpha(s[i]) && !IsDigit(s[i])
  }

  /** A name with no ASCII letter or digit normalises to the fallback name. */
  lemma NormalizeSymbolsOnly(name: string)
    requires NoAlnum(name)
    ensures NormalizeResourceName(name) == DefaultResourceName
  {
    if name != "" {
      CoreSymbolsOnly(name);
    }
  }

  /** The steps before the length rule leave nothing of such a name. */
  lemma CoreSymbolsOnly(name: string)
    requires NoAlnum(name)
    ensures NormalizedCore(name) == ""
  {
    var a := Strip(Lower(name));
    StripLowerNoAlnum(name);
    var b := ReplaceChar(ReplaceChar(a, ' ', '-'), '_', '-');
    ReplaceNoAlnum(a, ' ');
    ReplaceNoAlnum(ReplaceChar(a, ' ', '-'), '_');
    var c := Filter(b, IsResourceNameChar);
    OnlyHyphensLeft(b, c);
    var d := CollapseRuns(c, '-');
    CollapseRunsKeeps(c, '-', x => x == '-');
    StripCharAll(d, '-');
  }

  lemma StripLowerNoAlnum(name: string)
    requires NoAlnum(name)
    ensures NoAlnum(Strip(Lower(name)))
  {
    var l := Lower(name);
    assert NoAlnum(l);
    var a := Strip(l);
    StripShape(l);
    var lo := LeadingBlanks(l);
    forall i | 0 <= i < |a| ensures !IsAlpha(a[i]) && !IsDigit(a[i]) {
      assert a[i] == l[lo + i];
    }
  }

  lemma ReplaceNoAlnum(s: string, x: char)
    requires NoAlnum(s)
    ensures NoAlnum(ReplaceChar(s, x, '-'))
  {
  }

  lemma OnlyHyphensLeft(b: string, c: string)
    requires NoAlnum(b)
    requires c == Filter(b, IsResourceNameChar)
    ensures AllChars(c, x => x == '-')
  {
    forall i | 0 <= i < |c| ensures c[i] == '-' {
      assert c[i] in b;
    }
  }
}

=== FILE: emitter_v1.dfy ===
/** The helpers of the first generator (`enhanced_terraform_generator.py`):
    the field lookups that fill the VM variables, the identifier sanitizer
    of Terraform resource names, the `vm_names` and `nsg_rules` list
    literals, the network-security-rule resources of `main.tf`, the value
    selection of `terraform.tfvars` and the summary. */
module EmitterV1 {
  import opened Optionals
  import opened Strings
  import opened OrderedMaps
  import opened TableInference
  import opened RecordSynthesizer

  // ---------------------------------------------------------- ranked fields

  /** The loop `for field in fields: if field in vm and vm[field]: return
      str(vm[field]).strip()`: the first truthy value, trimmed, which is
      empty when that value is blank. */
  function FirstTruthy(vm: Record, fields: seq<string>): (r: Option<string>) {
    if |fields| == 0 then None
    else if Truthy(Get(vm, fields[0])) then Some(Strip(Get(vm, fields[0]).value))
    else FirstTruthy(vm, fields[1..])
  }

  /** The first field with a truthy value decides, and there is no result
      exactly when no field has one. */
  lemma FirstTruthySpec(vm: Record, fields: seq<string>)
    ensures FirstTruthy(vm, fields).None? <==> forall i :: 0 <= i < |fields| ==> !Truthy(Get(vm, fields[i]))
    ensures forall i ::
      0 <= i < |fields| && Truthy(Get(vm, fields[i])) && (forall j :: 0 <= j < i ==> !Truthy(Get(vm, fields[j])))
      ==> FirstTruthy(vm, fields) == Some(Strip(Get(vm, fields[i]).value))
  {
    FirstTruthyNone(vm, fields);
    forall i | 0 <= i < |fields| && Truthy(Get(vm, fields[i])) && (forall j :: 0 <= j < i ==> !Truthy(Get(vm, fields[j])))
      ensures FirstTruthy(vm, fields) == Some(Strip(Get(vm, fields[i]).value))
    {
      FirstTruthyAt(vm, fields, i);
    }
  }

  lemma {:induction false} FirstTruthyNone(vm: Record, fields: seq<string>)
    ensures FirstTruthy(vm, fields).None? <==> forall i :: 0 <= i < |fields| ==> !Truthy(Get(vm, fields[i]))
  {
    if |fields| > 0 {
      var tail := fields[1..];
      FirstTruthyNone(vm, tail);
      assert forall j :: 0 <= j < |tail| ==> tail[j] == fields[j + 1];
    }
  }

  lemma {:induction false} FirstTruthyAt(vm: Record, fields: seq<string>, i: nat)
    requires i < |fields| && Truthy(Get(vm, fields[i]))
    requires forall j :: 0 <= j < i ==> !Truthy(Get(vm, fields[j]))
    ensures FirstTruthy(vm, fields) == Some(Strip(Get(vm, fields[i]).value))
  {
    if i > 0 {
      var tail := fields[1..];
      assert tail[i - 1] == fields[i];
      forall j | 0 <= j < i - 1 ensures !Truthy(Get(vm, tail[j])) {
        assert tail[j] == fields[j + 1];
      }
      FirstTruthyAt(vm, tail, i - 1);
    }
  }

  const NameFields: seq<string> :=
    ["Hostname", "hostname", "VM Name", "vm_name", "Server Name", "server_name", "Name", "name"]

  const SizeFields: seq<string> :=
    ["Recommended SKU", "SKU", "Size", "size", "VM Size", "vm_size", "Instance Type", "instance_type"]

  const OsImageFields: seq<string> := ["OS Image*", "OS Image", "os_image", "Image", "image", "OS", "os"]

  const OwnerFields: seq<string> :=
    ["Server Owner", "server_owner", "Owner", "owner", "Application Owner", "app_owner"]

  const EnvironmentFields: seq<string> := ["Environment", "environment", "Env", "env", "Stage", "stage"]

  /** `f"vm-{index+1:03d}"` */
  function FallbackVmName(index: nat): string {
    "vm-" + ZeroPad(index + 1, 3)
  }

  /** `_extract_vm_name` */
  function ExtractVmName(vm: Record, index: nat): string {
    FirstTruthy(vm, NameFields).GetOr(FallbackVmName(index))
  }

  /** `_extract_vm_size` */
  function ExtractVmSize(vm: Record): string {
    FirstTruthy(vm, SizeFields).GetOr("Standard_D2s_v3")
  }

  /** `_extract_os_image` */
  function ExtractOsImage(vm: Record): string {
    FirstTruthy(vm, OsImageFields).GetOr("Ubuntu 22.04 LTS")
  }

  /** `_extract_vm_owner` */
  function ExtractVmOwner(vm: Record): string {
    FirstTruthy(vm, OwnerFields).GetOr("TBD")
  }

  /** `_extract_vm_environment` */
  function ExtractVmEnvironment(vm: Record): string {
    FirstTruthy(vm, EnvironmentFields).GetOr("dev")
  }

  /** A lookup takes the first truthy ranked field, trimmed, or else its
      default. */
  lemma ExtractorSpec(vm: Record, fields: seq<string>, default: string)
    ensures (forall i :: 0 <= i < |fields| ==> !Truthy(Get(vm, fields[i]))) ==> FirstTruthy(vm, fields).GetOr(default) == default
    ensures forall i ::
      0 <= i < |fields| && Truthy(Get(vm, fields[i])) && (forall j :: 0 <= j < i ==> !Truthy(Get(vm, fields[j])))
      ==> FirstTruthy(vm, fields).GetOr(default) == Strip(Get(vm, fields[i]).value)
  {
    FirstTruthySpec(vm, fields);
  }

  /** A blank but non-empty `Hostname` is truthy, so it is taken and
      trimmed to the empty name; no later field and no fallback is used. */
  lemma BlankHostnameGivesEmptyName(vm: Record, index: nat, s: string)
    requires Get(vm, "Hostname") == Some(s)
    requires s != "" && forall i :: 0 <= i < |s| ==> IsSpace(s[i])
    ensures ExtractVmName(vm, index) == ""
  {
    StripShape(s);
  }

  /** VMs without a name field get names that differ by position. */
  lemma FallbackVmNamesDistinct(i: nat, j: nat)
    requires i != j
    ensures FallbackVmName(i) != FallbackVmName(j)
  {
    ZeroPadInjective(i + 1, j + 1, 3);
    assert FallbackVmName(i)[3..] == ZeroPad(i + 1, 3);
    assert FallbackVmName(j)[3..] == ZeroPad(j + 1, 3);
  }

  // --------------------------------------------------------- sanitizing

  /** `[a-zA-Z0-9_-]` */
  predicate IsTfNameChar(c: char) { IsAlpha(c) || IsDigit(c) || c == '_' || c == '-' }

  function TfNameChar(c: char): (r: char)
    ensures IsTfNameChar(r)
  {
    if IsTfNameChar(c) then c else '_'
  }

  /** `_sanitize_resource_name`: every other character becomes `_`, and a
      non-empty result that does not start with a letter gets `vm_` in
      front. */
  function SanitizeResourceName(name: string): (r: string)
    ensures |r| == 0 <==> |name| == 0
  {
    var s := MapSeq(name, TfNameChar);
    if |s| > 0 && !IsAlpha(s[0]) then "vm_" + s else s
  }

  /** The result is a Terraform identifier: only `[a-zA-Z0-9_-]`, starting
      with a letter unless empty; a valid name is left alone. */
  lemma SanitizeResourceNameShape(name: string)
    ensures AllChars(SanitizeResourceName(name), IsTfNameChar)
    ensures |name| > 0 ==> IsAlpha(SanitizeResourceName(name)[0])
    ensures (|name| == 0 || IsAlpha(name[0])) && AllChars(name, IsTfNameChar) ==> SanitizeResourceName(name) == name
  {
    var s := MapSeq(name, TfNameChar);
    if |s| > 0 && !IsAlpha(s[0]) {
      var r := "vm_" + s;
      assert r[0] == 'v';
      forall i | 0 <= i < |r| ensures IsTfNameChar(r[i]) {
        if i >= 3 {
          assert r[i] == s[i - 3];
        }
      }
    }
  }

  /** Sanitizing twice is sanitizing once. */
  lemma SanitizeResourceNameIdempotent(name: string)
    ensures SanitizeResourceName(SanitizeResourceName(name)) == SanitizeResourceName(name)
  {
    var r := SanitizeResourceName(name);
    SanitizeResourceNameShape(name);
    SanitizeResourceNameShape(r);
  }

  /** Every character is kept when valid and otherwise replaced by `_`;
      exactly the names that do not start with a letter (`1 web` becomes
      `vm_1_web`) get the three-character prefix `vm_`. */
  lemma SanitizeResourceNameChars(name: string)
    ensures var r := SanitizeResourceName(name);
      var k := if |name| > 0 && !IsAlpha(name[0]) then 3 else 0;
      && |r| == |name| + k
      && r[..k] == "vm_"[..k]
      && forall i :: 0 <= i < |name| ==> r[i + k] == (if IsTfNameChar(name[i]) then name[i] else '_')
  {
  }

  // ------------------------------------------------------------- VM names

  function VmNames(vms: seq<Record>): (ns: seq<string>)
    ensures |ns| == |vms|
    ensures forall i :: 0 <= i < |vms| ==> ns[i] == ExtractVmName(vms[i], i)
  {
    seq(|vms|, i requires 0 <= i < |vms| => ExtractVmName(vms[i], i))
  }

  /** `_generate_vm_names_list` */
  function VmNamesList(vms: seq<Record>): string {
    "[" + Join(QuoteAll(VmNames(vms)), ", ") + "]"
  }

  /** One quoted name per VM: with names free of double quotes, the list
      holds exactly two of them per VM. */
  lemma VmNamesListQuotes(vms: seq<Record>)
    requires forall i :: 0 <= i < |vms| ==> '"' !in ExtractVmName(vms[i], i)
    ensures CountChar(VmNamesList(vms), '"') == 2 * |vms|
  {
    var body := Join(QuoteAll(VmNames(vms)), ", ");
    QuotedJoinCount(VmNames(vms), ", ");
    CountCharAppend("[" + body, "]", '"');
    CountCharAppend("[", body, '"');
  }

  // -------------------------------------------------------------- NSG rules

  /** `rule.get('name') and rule.get('direction')`: the filter both the
      `nsg_rules` list and the `main.tf` rule resources apply. */
  predicate KeepRule(rule: Record) {
    Truthy(Get(rule, "name")) && Truthy(Get(rule, "direction"))
  }

  /** `f'rule_{i}'` */
  function DefaultRuleName(i: nat): string {
    "rule_" + NatToString(i)
  }

  /** `100 + i * 10`, as text. */
  function DefaultPriority(i: nat): string {
    NatToString(100 + i * 10)
  }

  /** The default names of rules at different positions differ. */
  lemma DefaultRuleNamesDistinct(i: nat, j: nat)
    requires i != j
    ensures DefaultRuleName(i) != DefaultRuleName(j)
  {
    NatToStringValue(i);
    NatToStringValue(j);
    assert DefaultRuleName(i)[5..] == NatToString(i);
    assert DefaultRuleName(j)[5..] == NatToString(j);
  }

  /** The default priority reads back as the number `100 + 10 i`. */
  lemma DefaultPriorityValue(i: nat)
    ensures ParseInt(DefaultPriority(i)) == Some(100 + i * 10)
  {
    ParseIntOfNat(100 + i * 10);
  }

  /** The values of one object of the `nsg_rules` list. */
  datatype NsgRuleObject = NsgRuleObject(
    name: string,
    priority: string,
    direction: string,
    access: string,
    protocol: string,
    sourcePortRange: string,
    destinationPortRange: string,
    sourceAddressPrefix: string,
    destinationAddressPrefix: string)

  /** The object of the rule at position `i` of `security_groups`. */
  function RuleObjectOf(i: nat, rule: Record): NsgRuleObject {
    NsgRuleObject(
      GetOr(rule, "name", DefaultRuleName(i)),
      GetOr(rule, "priority", DefaultPriority(i)),
      GetOr(rule, "direction", "Inbound"),
      GetOr(rule, "access", "Allow"),
      GetOr(rule, "protocol", "Tcp"),
      GetOr(rule, "source_port_range", "*"),
      GetOr(rule, "destination_port_range", "*"),
      GetOr(rule, "source_address_prefix", "*"),
      GetOr(rule, "destination_address_prefix", "*"))
  }

  function RuleSteps(rules: seq<Record>): (xs: seq<Option<NsgRuleObject>>)
    ensures |xs| == |rules|
    ensures forall i :: 0 <= i < |rules| ==>
      xs[i] == if KeepRule(rules[i]) then Some(RuleObjectOf(i, rules[i])) else None
  {
    seq(|rules|, i requires 0 <= i < |rules| =>
      if KeepRule(rules[i]) then Some(RuleObjectOf(i, rules[i])) else None)
  }

  /** The objects of `_generate_nsg_rules_list`, in rule order. */
  function NsgRuleObjects(rules: seq<Record>): seq<NsgRuleObject> {
    Somes(RuleSteps(rules))
  }

  /** The positions in `security_groups` of the rules that pass the filter. */
  function KeptPositions(rules: seq<Record>): seq<nat> {
    SomeIndices(RuleSteps(rules))
  }

  /** The `j`-th object is built from the `j`-th kept rule, with its
      original position as the default priority; it has a name and a
      direction. Every kept rule has an object. */
  lemma NsgRuleObjectsSpec(rules: seq<Record>)
    ensures |NsgRuleObjects(rules)| == |KeptPositions(rules)| <= |rules|
    ensures forall j :: 0 <= j < |KeptPositions(rules)| ==>
      && KeptPositions(rules)[j] < |rules|
      && KeepRule(rules[KeptPositions(rules)[j]])
      && NsgRuleObjects(rules)[j] == RuleObjectOf(KeptPositions(rules)[j], rules[KeptPositions(rules)[j]])
    ensures forall j :: 0 <= j < |NsgRuleObjects(rules)| ==>
      NsgRuleObjects(rules)[j].name != "" && NsgRuleObjects(rules)[j].direction != ""
    ensures forall i :: 0 <= i < |rules| && KeepRule(rules[i]) ==> RuleObjectOf(i, rules[i]) in NsgRuleObjects(rules)
  {
    var xs := RuleSteps(rules);
    var ix := KeptPositions(rules);
    var objs := NsgRuleObjects(rules);
    forall i | 0 <= i < |rules| && KeepRule(rules[i]) ensures RuleObjectOf(i, rules[i]) in objs {
      SomeIndicesComplete(xs, i);
      var j :| 0 <= j < |ix| && ix[j] == i;
      assert xs[i] == Some(objs[j]);
    }
    forall j | 0 <= j < |objs| ensures objs[j].name != "" && objs[j].direction != "" {
      assert xs[ix[j]] == Some(objs[j]);
    }
  }

  /** `'{' ... '}'` of one object. */
  function RenderRuleObject(o: NsgRuleObject): string {
    "{\n"
    + "    name                       = " + Quote(o.name) + "\n"
    + "    priority                   = " + o.priority + "\n"
    + "    direction                  = " + Quote(o.direction) + "\n"
    + "    access                     = " + Quote(o.access) + "\n"
    + "    protocol                   = " + Quote(o.protocol) + "\n"
    + "    source_port_range          = " + Quote(o.sourcePortRange) + "\n"
    + "    destination_port_range     = " + Quote(o.destinationPortRange) + "\n"
    + "    source_address_prefix      = " + Quote(o.sourceAddressPrefix) + "\n"
    + "    destination_address_prefix = " + Quote(o.destinationAddressPrefix) + "\n"
    + "  }"
  }

  /** `_generate_nsg_rules_list` */
  function NsgRulesList(rules: seq<Record>): string {
    "[" + Join(MapSeq(NsgRuleObjects(rules), RenderRuleObject), ", ") + "]"
  }

  /** A `azurerm_network_security_rule` resource of `main.tf`: its name and
      the position of `var.nsg_rules` it reads. */
  datatype RuleResource = RuleResource(resourceName: string, varIndex: nat)

  function ResourceSteps(rules: seq<Record>): (xs: seq<Option<RuleResource>>)
    ensures |xs| == |rules|
    ensures forall i :: 0 <= i < |rules| ==>
      xs[i] == if KeepRule(rules[i]) then Some(RuleResource(SanitizeResourceName(GetOr(rules[i], "name", DefaultRuleName(i))), i)) else None
  {
    seq(|rules|, i requires 0 <= i < |rules| =>
      if KeepRule(rules[i]) then Some(RuleResource(SanitizeResourceName(GetOr(rules[i], "name", DefaultRuleName(i))), i)) else None)
  }

  /** The rule resources of `_generate_main_tf` as written: the kept rule
      at position `i` of `security_groups` reads `var.nsg_rules[i]`. */
  function RuleResourcesAsWritten(rules: seq<Record>): seq<RuleResource> {
    Somes(ResourceSteps(rules))
  }

  /** As written, the resource of the `j`-th kept rule reads the rule's
      position in `security_groups`, not in the filtered list. */
  lemma RuleResourcesAsWrittenIndex(rules: seq<Record>)
    ensures |RuleResourcesAsWritten(rules)| == |NsgRuleObjects(rules)|
    ensures forall j :: 0 <= j < |RuleResourcesAsWritten(rules)| ==>
      RuleResourcesAsWritten(rules)[j].varIndex == KeptPositions(rules)[j]
  {
    var xs := ResourceSteps(rules);
    var ys := RuleSteps(rules);
    SomeIndicesSameShape(xs, ys);
    var ix := SomeIndices(xs);
    forall j | 0 <= j < |ix| ensures RuleResourcesAsWritten(rules)[j].varIndex == ix[j] {
      assert xs[ix[j]] == Some(RuleResource(SanitizeResourceName(GetOr(rules[ix[j]], "name", DefaultRuleName(ix[j]))), ix[j]));
    }
  }

  /** An unnamed rule before a named one: the named rule's resource reads
      `var.nsg_rules[1]` while the list has one object. */
  lemma RuleResourcesAsWrittenOutOfRange()
    ensures var rules := [[("direction", "Inbound")], [("name", "web"), ("direction", "Inbound")]];
      && |NsgRuleObjects(rules)| == 1
      && |RuleResourcesAsWritten(rules)| == 1
      && RuleResourcesAsWritten(rules)[0].varIndex == 1
  {
    var rules: seq<Record> := [[("direction", "Inbound")], [("name", "web"), ("direction", "Inbound")]];
    assert !KeepRule(rules[0]);
    assert KeepRule(rules[1]);
    var ys := RuleSteps(rules);
    assert ys == [ys[0]] + [ys[1]];
    SomesSnoc([ys[0]], ys[1]);
    SomesSnoc([], ys[0]);
    assert |Somes(ys)| == 1;
    RuleResourcesAsWrittenIndex(rules);
    var ix := KeptPositions(rules);
    assert ix[0] < 2 && ys[ix[0]].Some?;
  }

  /** The rule resources with the index corrected: the `j`-th kept rule
      reads `var.nsg_rules[j]`, the object built from it. */
  function RuleResources(rules: seq<Record>): (rs: seq<RuleResource>)
    ensures |rs| == |NsgRuleObjects(rules)|
    ensures forall j :: 0 <= j < |rs| ==> rs[j] == RuleResource(SanitizeResourceName(NsgRuleObjects(rules)[j].name), j)
  {
    var objs := NsgRuleObjects(rules);
    seq(|objs|, j requires 0 <= j < |objs| => RuleResource(SanitizeResourceName(objs[j].name), j))
  }

  /** Every kept rule has a resource named after it whose reference reads
      the object built from that same rule. */
  lemma RuleResourcesReadOwnRule(rules: seq<Record>, i: nat)
    requires i < |rules| && KeepRule(rules[i])
    ensures exists j :: (
      && 0 <= j < |RuleResources(rules)|
      && RuleResources(rules)[j].resourceName == SanitizeResourceName(Get(rules[i], "name").value)
      && RuleResources(rules)[j].varIndex < |NsgRuleObjects(rules)|
      && NsgRuleObjects(rules)[RuleResources(rules)[j].varIndex] == RuleObjectOf(i, rules[i]))
  {
    NsgRuleObjectsSpec(rules);
    var xs := RuleSteps(rules);
    SomeIndicesComplete(xs, i);
    var ix := KeptPositions(rules);
    var j :| 0 <= j < |ix| && ix[j] == i;
    assert RuleResources(rules)[j].varIndex == j;
  }

  /** When no rule is filtered out, the written index is the corrected one. */
  lemma RuleResourcesAgreeWhenAllKept(rules: seq<Record>)
    requires forall i :: 0 <= i < |rules| ==> KeepRule(rules[i])
    ensures RuleResourcesAsWritten(rules) == RuleResources(rules)
  {
    var xs := ResourceSteps(rules);
    SomesAllPresent(xs);
    SomeIndicesAllPresent(RuleSteps(rules));
    RuleResourcesAsWrittenIndex(rules);
    NsgRuleObjectsSpec(rules);
  }

  // ------------------------------------------------------------- tfvars

  /** The values `_generate_tfvars` interpolates from the data. */
  datatype TfvarsValues = TfvarsValues(
    projectName: string,
    applicationName: string,
    environment: string,
    vmSize: string,
    appOwner: string,
    businessOwner: string,
    serviceNowTicket: string,
    subscription: string,
    resourceGroupKey: string,
    vmCount: nat,
    appGatewayPort: string)

  /** The fields the project values are read from: of the first VM, and of
      `project_info` when there is no VM. */
  const VmProjectKeys: seq<string> := ["Project Name", "Application Name", "Environment",
    "Recommended SKU", "Application Owner", "Business Owner", "Service Now Ticket"]
  const InfoProjectKeys: seq<string> := ["project_name", "application_name", "environment",
    "vm_size", "app_owner", "business_owner", "service_now_ticket"]
  /** The default of each project value. */
  const ProjectDefaults: seq<string> := ["default-project", "default-app", "dev",
    "Standard_D2s_v3", "TBD", "TBD", "TBD"]

  /** The project values: from the first VM's fields when there are VMs,
      else from `project_info`; each with its default. */
  function ProjectValues(projectInfo: Record, vms: seq<Record>): (v: seq<string>)
    ensures |v| == |ProjectDefaults| == 7
    ensures |vms| > 0 ==> forall i :: 0 <= i < 7 ==>
      v[i] == if HasKey(vms[0], VmProjectKeys[i]) then Get(vms[0], VmProjectKeys[i]).value else ProjectDefaults[i]
    ensures |vms| == 0 ==> forall i :: 0 <= i < 7 ==>
      v[i] == if HasKey(projectInfo, InfoProjectKeys[i]) then Get(projectInfo, InfoProjectKeys[i]).value else ProjectDefaults[i]
  {
    if |vms| > 0 then ValuesFrom(vms[0], VmProjectKeys) else ValuesFrom(projectInfo, InfoProjectKeys)
  }

  /** `record.get(key, default)` for each of the seven keys in turn. */
  function ValuesFrom(record: Record, keys: seq<string>): (v: seq<string>)
    requires |keys| == 7
    ensures |v| == 7
    ensures forall i :: 0 <= i < 7 ==> v[i] == GetOr(record, keys[i], ProjectDefaults[i])
  {
    seq(7, i requires 0 <= i < 7 => GetOr(record, keys[i], ProjectDefaults[i]))
  }

  /** `app_gateway.get('port', 80) if app_gateway.get('port') != 'False' else 80` */
  function AppGatewayPort(appGateway: Record): (r: string)
    ensures r != "False"
    ensures Get(appGateway, "port").Some? && Get(appGateway, "port").value != "False" ==> r == Get(appGateway, "port").value
    ensures Get(appGateway, "port") == None || Get(appGateway, "port") == Some("False") ==> r == "80"
  {
    match Get(appGateway, "port")
    case Some(p) => if p != "False" then p else "80"
    case None => "80"
  }

  /** The value selection of `_generate_tfvars`. A first VM without the
      looked-up fields gives the defaults, whatever `project_info` says. */
  function SelectTfvars(data: TerraformData): (t: TfvarsValues)
    ensures t.vmCount == |data.vmInstances| && t.appGatewayPort != "False"
    ensures |data.vmInstances| > 0 && data.vmInstances[0] == [] ==>
      && t.projectName == "default-project" && t.applicationName == "default-app"
      && t.environment == "dev" && t.vmSize == "Standard_D2s_v3"
      && t.appOwner == "TBD" && t.businessOwner == "TBD" && t.serviceNowTicket == "TBD"
  {
    var v := ProjectValues(data.projectInfo, data.vmInstances);
    var kv := data.buildEnvironment.keyValuePairs;
    TfvarsValues(v[0], v[1], v[2], v[3], v[4], v[5], v[6],
      GetOr(kv, "Subscription", "subscription1"),
      GetOr(kv, "Key", "rsg1"),
      |data.vmInstances|,
      AppGatewayPort(data.applicationGateway))
  }

  /** With VMs, `project_info` is ignored and so is every VM after the
      first; without them, only `project_info` counts. */
  lemma SelectTfvarsSources(d: TerraformData, d': TerraformData)
    requires d.buildEnvironment.keyValuePairs == d'.buildEnvironment.keyValuePairs
    requires d.applicationGateway == d'.applicationGateway
    requires |d.vmInstances| == |d'.vmInstances|
    requires |d.vmInstances| > 0 ==> d.vmInstances[0] == d'.vmInstances[0]
    requires |d.vmInstances| == 0 ==> d.projectInfo == d'.projectInfo
    ensures SelectTfvars(d) == SelectTfvars(d')
  {
  }

  // ---------------------------------------------------------------- summary

  datatype ResourceCounts = ResourceCounts(
    resourceGroups: nat,
    virtualNetworks: nat,
    subnets: nat,
    networkSecurityGroups: nat,
    networkSecurityRules: nat,
    virtualMachines: nat,
    networkInterfaces: nat)

  datatype VmDetail = VmDetail(name: string, size: string, os: string)

  datatype RuleDetail = RuleDetail(name: string, direction: string, access: string, protocol: string)

  datatype Summary = Summary(
    projectName: string,
    applicationName: string,
    resources: ResourceCounts,
    vmDetails: seq<VmDetail>,
    securityRules: seq<RuleDetail>)

  function VmDetailOf(i: nat, vm: Record): VmDetail {
    VmDetail(
      GetOr(vm, "Hostname", "vm-" + NatToString(i + 1)),
      GetOr(vm, "Recommended SKU", "Standard_D2s_v3"),
      GetOr(vm, "OS Image*", "Ubuntu 22.04 LTS"))
  }

  function RuleDetailOf(i: nat, rule: Record): RuleDetail {
    RuleDetail(
      GetOr(rule, "name", "rule-" + NatToString(i)),
      GetOr(rule, "direction", "Inbound"),
      GetOr(rule, "access", "Allow"),
      GetOr(rule, "protocol", "Tcp"))
  }

  /** `generate_summary` */
  function GenerateSummary(data: TerraformData): (s: Summary)
    ensures s.resources.virtualMachines == s.resources.networkInterfaces == |data.vmInstances|
    ensures s.resources.networkSecurityRules == |data.securityGroups|
    ensures |s.vmDetails| == |data.vmInstances| && |s.securityRules| == |data.securityGroups|
    ensures forall i :: 0 <= i < |data.vmInstances| ==> s.vmDetails[i] == VmDetailOf(i, data.vmInstances[i])
    ensures forall i :: 0 <= i < |data.securityGroups| ==> s.securityRules[i] == RuleDetailOf(i, data.securityGroups[i])
  {
    var vms := data.vmInstances;
    var rules := data.securityGroups;
    Summary(
      GetOr(data.projectInfo, "project_name", "default-project"),
      GetOr(data.projectInfo, "application_name", "default-app"),
      ResourceCounts(1, 1, 1, 1, |rules|, |vms|, |vms|),
      seq(|vms|, i requires 0 <= i < |vms| => VmDetailOf(i, vms[i])),
      seq(|rules|, i requires 0 <= i < |rules| => RuleDetailOf(i, rules[i])))
  }

  /** The summary counts every rule, including those the filter leaves out
      of `main.tf`, so it never reports fewer rules than are created. */
  lemma SummaryCountsAllRules(data: TerraformData)
    ensures GenerateSummary(data).resources.networkSecurityRules >= |RuleResources(data.securityGroups)|
  {
    NsgRuleObjectsSpec(data.securityGroups);
  }
}

=== FILE: emitter_v2.dfy ===
/** The helpers of the module-based generator (`enhanced_terraform_generator_v2.py`):
    the cache of the sheets' raw two-column rows, the ranked field lookups
    that pick a VM's name, SKU, OS, disk size and disk type, the `vm_list`
    and network-security-rule fragments of `terraform.tfvars`, and the
    summary. */
module EmitterV2 {
  import opened Optionals
  import opened Strings
  import opened OrderedMaps
  import opened TableInference
  import opened FieldResolver
  import opened RecordSynthesizer
  import EmitterV1

  // ---------------------------------------------------------- raw-data cache

  /** `raw_data_cache`: sheet name to (column "1" text to column "2" value).
      A row without a column "2" stores `None`. */
  type RawCache = OMap<string, OMap<string, Option<string>>>

  /** What one raw row writes into its sheet's cache: nothing unless its
      column "1" is truthy. */
  function RowWrite(row: Record): Option<(string, Option<string>)> {
    var name := Get(row, "1");
    if Truthy(name) then Some((name.value, Get(row, "2"))) else None
  }

  function RowWrites(rows: seq<Record>): (ws: seq<Option<(string, Option<string>)>>)
    ensures |ws| == |rows|
    ensures forall i :: 0 <= i < |rows| ==> ws[i] == RowWrite(rows[i])
  {
    seq(|rows|, i requires 0 <= i < |rows| => RowWrite(rows[i]))
  }

  /** `_build_raw_data_cache`: for each sheet in order, its cache entry is
      created if missing and then receives the writes of its rows. */
  function BuildRawCache(sheets: Sheets): RawCache {
    if |sheets| == 0 then []
    else
      var cache := BuildRawCache(sheets[..|sheets| - 1]);
      var name := sheets[|sheets| - 1].0;
      var rows := sheets[|sheets| - 1].1.rawData;
      Set(cache, name, Update(GetOr(cache, name, []), Somes(RowWrites(rows))))
  }

  /** `_get_raw_value(var_name, sheet_name, default)`: a stored `None` is
      returned as it is; only a missing sheet or name gives the default. */
  function GetRawValue(cache: RawCache, varName: string, sheet: string, default: Option<string>): (r: Option<string>)
    ensures !HasKey(cache, sheet) ==> r == default
  {
    match Get(cache, sheet)
    case None => default
    case Some(m) =>
      match Get(m, varName)
      case None => default
      case Some(v) => v
  }

  /** In a dictionary, the entry of a key is what looking it up returns. */
  lemma GetEntry<K, V>(m: OMap<K, V>, k: K, v: V)
    requires UniqueKeys(m) && (k, v) in m
    ensures Get(m, k) == Some(v)
  {
    var i :| 0 <= i < |m| && m[i] == (k, v);
    FindSpec(m, k);
    var j := Find(m, k).value;
    assert m[j].0 == k;
  }

  /** Each sheet of the workbook has exactly the cache of its own rows. */
  lemma {:induction false} CacheOfSheet(sheets: Sheets, sheet: string)
    requires UniqueKeys(sheets)
    ensures Get(BuildRawCache(sheets), sheet) ==
      match Get(sheets, sheet)
      case None => None
      case Some(d) => Some(Update([], Somes(RowWrites(d.rawData))))
  {
    if |sheets| > 0 {
      var init := sheets[..|sheets| - 1];
      var last := sheets[|sheets| - 1];
      assert sheets == init + [last];
      CacheOfSheet(init, sheet);
      CacheOfSheet(init, last.0);
      FindSpec(init, last.0);
      FindSnoc(init, last, sheet);
      var cache := BuildRawCache(init);
      SetGet(cache, last.0, Update(GetOr(cache, last.0, []), Somes(RowWrites(last.1.rawData))), sheet);
    }
  }

  /** A name looked up in a sheet that is not in the workbook reads as the
      default. */
  lemma RawValueNoSheet(sheets: Sheets, varName: string, sheet: string, default: Option<string>)
    requires UniqueKeys(sheets) && !HasKey(sheets, sheet)
    ensures GetRawValue(BuildRawCache(sheets), varName, sheet, default) == default
  {
    CacheOfSheet(sheets, sheet);
  }

  /** Last row wins: the value is column "2" of the last row of the sheet
      whose column "1" is the name. */
  lemma RawValueLastRow(sheets: Sheets, sheet: string, d: SheetData, j: nat, default: Option<string>)
    requires UniqueKeys(sheets) && (sheet, d) in sheets
    requires j < |d.rawData| && Truthy(Get(d.rawData[j], "1"))
    requires forall x :: j < x < |d.rawData| ==> Get(d.rawData[x], "1") != Get(d.rawData[j], "1")
    ensures GetRawValue(BuildRawCache(sheets), Get(d.rawData[j], "1").value, sheet, default) == Get(d.rawData[j], "2")
  {
    GetEntry(sheets, sheet, d);
    CacheOfSheet(sheets, sheet);
    var rows := d.rawData;
    var name := Get(rows[j], "1").value;
    var xs := RowWrites(rows);
    forall x | j < x < |xs| ensures xs[x].None? || xs[x].value.0 != name {
      assert xs[x] == RowWrite(rows[x]);
    }
    UpdateSomesGet(xs, j, name, Get(rows[j], "2"));
  }

  /** A name no row of the sheet carries (the empty name in particular)
      reads as the default. */
  lemma RawValueNoRow(sheets: Sheets, sheet: string, d: SheetData, varName: string, default: Option<string>)
    requires UniqueKeys(sheets) && (sheet, d) in sheets
    requires varName == "" || forall x :: 0 <= x < |d.rawData| ==> Get(d.rawData[x], "1") != Some(varName)
    ensures GetRawValue(BuildRawCache(sheets), varName, sheet, default) == default
  {
    GetEntry(sheets, sheet, d);
    CacheOfSheet(sheets, sheet);
    var xs := RowWrites(d.rawData);
    forall x | 0 <= x < |xs| ensures xs[x].None? || xs[x].value.0 != varName {
      assert xs[x] == RowWrite(d.rawData[x]);
    }
    UpdateSomesNone(xs, varName);
  }

  // ---------------------------------------------------------- ranked fields

  /** `field in vm and vm[field] and str(vm[field]).strip()`, and the
      trimmed value passes the extractor's own test. */
  predicate Offers(vm: Record, field: string, accept: string -> bool) {
    var v := Get(vm, field);
    v.Some? && Strip(v.value) != "" && accept(Strip(v.value))
  }

  /** The loop over a ranked field list that returns the first trimmed
      value passing `accept` and skips the others. */
  function Ranked(vm: Record, fields: seq<string>, accept: string -> bool): (r: Option<string>)
    ensures r.Some? ==> r.value != "" && accept(r.value)
  {
    if |fields| == 0 then None
    else if Offers(vm, fields[0], accept) then Some(Strip(Get(vm, fields[0]).value))
    else Ranked(vm, fields[1..], accept)
  }

  /** The first field that offers a value decides, and there is no result
      exactly when no field offers one. */
  lemma {:induction false} RankedSpec(vm: Record, fields: seq<string>, accept: string -> bool)
    ensures Ranked(vm, fields, accept).None? <==> forall i :: 0 <= i < |fields| ==> !Offers(vm, fields[i], accept)
    ensures forall i ::
      0 <= i < |fields| && Offers(vm, fields[i], accept) && (forall j :: 0 <= j < i ==> !Offers(vm, fields[j], accept))
      ==> Ranked(vm, fields, accept) == Some(Strip(Get(vm, fields[i]).value))
  {
    if |fields| > 0 && !Offers(vm, fields[0], accept) {
      var tail := fields[1..];
      RankedSpec(vm, tail, accept);
      assert forall j :: 1 <= j < |fields| ==> fields[j] == tail[j - 1];
      forall i | 0 < i < |fields| && Offers(vm, fields[i], accept) && (forall j :: 0 <= j < i ==> !Offers(vm, fields[j], accept))
        ensures Ranked(vm, tail, accept) == Some(Strip(Get(vm, tail[i - 1]).value))
      {
        assert forall j :: 0 <= j < i - 1 ==> !Offers(vm, tail[j], accept) by {
          forall j | 0 <= j < i - 1 ensures !Offers(vm, tail[j], accept) {
            assert tail[j] == fields[j + 1];
          }
        }
      }
    }
  }

  /** Every non-blank value is acceptable (the name lookup). */
  predicate AnyText(s: string) { true }

  // -------------------------------------------------------------- VM name

  const NameFields: seq<string> :=
    ["Hostname", "hostname", "VM Name", "vm_name", "Server Name", "server_name", "Name", "name"]

  /** `[\w\-]` */
  predicate IsNameChar(c: char) { IsWord(c) || c == '-' }

  function NameChar(c: char): (r: char)
    ensures IsNameChar(r)
  {
    if IsNameChar(c) then c else '-'
  }

  /** `re.sub(r'[^\w\-]', '-', name)` */
  function SanitizeName(s: string): (r: string)
    ensures |r| == |s|
  {
    MapSeq(s, NameChar)
  }

  /** The substitution leaves only word characters and hyphens, keeps those
      that were there, and replaces every other character by a hyphen. */
  lemma SanitizeNameShape(s: string)
    ensures AllChars(SanitizeName(s), IsNameChar)
    ensures forall i :: 0 <= i < |s| ==> (SanitizeName(s)[i] == s[i] <==> IsNameChar(s[i]))
  {
  }

  /** A name made of word characters and hyphens is left alone, so the
      substitution is idempotent. */
  lemma SanitizeNameIdempotent(s: string)
    ensures AllChars(s, IsNameChar) ==> SanitizeName(s) == s
    ensures SanitizeName(SanitizeName(s)) == SanitizeName(s)
  {
    SanitizeNameShape(s);
  }

  /** `_extract_vm_name`: the first ranked non-blank value, trimmed and
      sanitized, else `<application_name|vm>-NN`. */
  function ExtractVmName(vm: Record, projectInfo: Record, index: nat): string {
    match Ranked(vm, NameFields, AnyText)
    case Some(n) => SanitizeName(n)
    case None => FallbackHostname(GetOr(projectInfo, "application_name", "vm"), index)
  }

  /** The first name field with a non-blank value gives the name, with its
      length kept and only `[\w-]` characters; with none, the name is the
      numbered fallback. */
  lemma ExtractVmNameSpec(vm: Record, projectInfo: Record, index: nat)
    ensures (forall i :: 0 <= i < |NameFields| ==> !Offers(vm, NameFields[i], AnyText)) ==>
      ExtractVmName(vm, projectInfo, index) == FallbackHostname(GetOr(projectInfo, "application_name", "vm"), index)
    ensures forall i ::
      0 <= i < |NameFields| && Offers(vm, NameFields[i], AnyText) && (forall j :: 0 <= j < i ==> !Offers(vm, NameFields[j], AnyText))
      ==> && ExtractVmName(vm, projectInfo, index) == SanitizeName(Strip(Get(vm, NameFields[i]).value))
          && |ExtractVmName(vm, projectInfo, index)| == |Strip(Get(vm, NameFields[i]).value)|
          && AllChars(ExtractVmName(vm, projectInfo, index), IsNameChar)
  {
    RankedSpec(vm, NameFields, AnyText);
    match Ranked(vm, NameFields, AnyText)
    case Some(n) => SanitizeNameShape(n);
    case None =>
  }

  /** Two VMs without a name field, at different positions, get different
      fallback names. */
  lemma FallbackNamesDistinct(vm: Record, vm': Record, projectInfo: Record, i: nat, j: nat)
    requires i != j
    requires Ranked(vm, NameFields, AnyText).None? && Ranked(vm', NameFields, AnyText).None?
    ensures ExtractVmName(vm, projectInfo, i) != ExtractVmName(vm', projectInfo, j)
  {
    var app := GetOr(projectInfo, "application_name", "vm");
    ZeroPadInjective(i + 1, j + 1, 2);
    var a := FallbackHostname(app, i);
    var b := FallbackHostname(app, j);
    assert a[|app| + 1..] == ZeroPad(i + 1, 2);
    assert b[|app| + 1..] == ZeroPad(j + 1, 2);
  }

  // --------------------------------------------------------------- VM size

  const SizeFields: seq<string> :=
    ["Recommended SKU", "SKU", "Size", "size", "VM Size", "vm_size", "Instance Type", "instance_type", "Choose Node Size"]

  const DefaultSize := "Standard_B2s_v2"

  /** Looks like an Azure SKU: `'Standard_' in size or 'Basic_' in size`. */
  predicate IsAzureSku(s: string) {
    Contains(s, "Standard_") || Contains(s, "Basic_")
  }

  /** `if vm_size and str(vm_size).strip()` on an optional text, giving the
      trimmed text. */
  function NonBlank(o: Option<string>): (r: Option<string>)
    ensures r.Some? <==> o.Some? && Strip(o.value) != ""
    ensures r.Some? ==> r.value == Strip(o.value)
  {
    if o.Some? && Strip(o.value) != "" then Some(Strip(o.value)) else None
  }

  /** `_extract_vm_size`: the first ranked value that looks like a SKU, else
      the trimmed `project_info['vm_size']`, else `Standard_B2s_v2`. */
  function ExtractVmSize(vm: Record, projectInfo: Record): (r: string)
    ensures r != ""
  {
    match Ranked(vm, SizeFields, IsAzureSku)
    case Some(s) => s
    case None => NonBlank(Get(projectInfo, "vm_size")).GetOr(DefaultSize)
  }

  /** A value that does not look like a SKU is skipped in favour of a later
      field; when no field has a SKU, the project's size or the default is
      used. */
  lemma ExtractVmSizeSpec(vm: Record, projectInfo: Record)
    ensures forall i ::
      0 <= i < |SizeFields| && Offers(vm, SizeFields[i], IsAzureSku) && (forall j :: 0 <= j < i ==> !Offers(vm, SizeFields[j], IsAzureSku))
      ==> ExtractVmSize(vm, projectInfo) == Strip(Get(vm, SizeFields[i]).value)
    ensures (forall i :: 0 <= i < |SizeFields| ==> !Offers(vm, SizeFields[i], IsAzureSku)) ==>
      ExtractVmSize(vm, projectInfo) == NonBlank(Get(projectInfo, "vm_size")).GetOr(DefaultSize)
    ensures HasKey(projectInfo, "vm_size") || IsAzureSku(ExtractVmSize(vm, projectInfo)) || ExtractVmSize(vm, projectInfo) == DefaultSize
  {
    RankedSpec(vm, SizeFields, IsAzureSku);
  }

  // ---------------------------------------------------------------- OS type

  const OsFields: seq<string> :=
    ["OS Image*", "OS Image", "os_image", "Image", "image", "OS", "os", "Operating System"]

  /** `'windows' in os_value or 'win' in os_value` */
  predicate WindowsHint(l: string) {
    Contains(l, "windows") || Contains(l, "win")
  }

  /** The Linux test of the ranked loop. */
  predicate LinuxHint(l: string) {
    Contains(l, "linux") || Contains(l, "ubuntu") || Contains(l, "rhel") || Contains(l, "centos")
  }

  /** A ranked value the loop does not skip: it names either family. */
  predicate OsHint(s: string) {
    WindowsHint(Lower(s)) || LinuxHint(Lower(s))
  }

  /** The Linux test of the `project_info` fallback, which knows fewer
      distributions. */
  predicate FallbackLinuxHint(l: string) {
    Contains(l, "linux") || Contains(l, "ubuntu")
  }

  /** `_extract_os_type`: the first ranked value naming a family decides,
      Windows tested first; then `project_info['os_image']`; then Windows. */
  function ExtractOsType(vm: Record, projectInfo: Record): (r: string)
    ensures r == "windows" || r == "linux"
  {
    match Ranked(vm, OsFields, OsHint)
    case Some(v) => if WindowsHint(Lower(v)) then "windows" else "linux"
    case None =>
      match NonBlank(Get(projectInfo, "os_image"))
      case Some(v) =>
        if WindowsHint(Lower(v)) then "windows"
        else if FallbackLinuxHint(Lower(v)) then "linux"
        else "windows"
      case None => "windows"
  }

  /** `"windows" in s` implies `"win" in s`, so the first half of the
      Windows test is subsumed by the second. */
  lemma WindowsHintIsWin(l: string)
    ensures WindowsHint(l) <==> Contains(l, "win")
  {
    if Contains(l, "windows") {
      var i :| 0 <= i <= |l| && IsPrefix("windows", l[i..]);
      assert IsPrefix("win", l[i..]);
    }
  }

  /** The OS is Linux exactly when the deciding text mentions a Linux
      keyword and not "win"; a text mentioning both is Windows. */
  lemma ExtractOsTypeSpec(vm: Record, projectInfo: Record)
    ensures forall i ::
      0 <= i < |OsFields| && Offers(vm, OsFields[i], OsHint) && (forall j :: 0 <= j < i ==> !Offers(vm, OsFields[j], OsHint))
      ==> (ExtractOsType(vm, projectInfo) == "linux" <==> !Contains(Lower(Strip(Get(vm, OsFields[i]).value)), "win"))
    ensures (forall i :: 0 <= i < |OsFields| ==> !Offers(vm, OsFields[i], OsHint)) ==>
      (ExtractOsType(vm, projectInfo) == "linux" <==>
        var p := NonBlank(Get(projectInfo, "os_image"));
        p.Some? && !Contains(Lower(p.value), "win") && FallbackLinuxHint(Lower(p.value)))
  {
    RankedSpec(vm, OsFields, OsHint);
    match Ranked(vm, OsFields, OsHint)
    case Some(v) => WindowsHintIsWin(Lower(v));
    case None =>
      match NonBlank(Get(projectInfo, "os_image"))
      case Some(v) => WindowsHintIsWin(Lower(v));
      case None =>
  }

  // ------------------------------------------------------------- OS disk

  const DiskSizeFields: seq<string> := ["OS disk size", "os_disk_size", "Disk Size", "disk_size"]

  const DiskTypeFields: seq<string> := ["OS disk type", "os_disk_type", "Disk Type", "disk_type"]

  const DefaultDiskSizeGb: nat := 30

  const DefaultDiskType := "Standard_LRS"

  /** `re.search(r'(\d+)', size)` matches. */
  predicate HasDigit(s: string) {
    exists i :: 0 <= i < |s| && IsDigit(s[i])
  }

  /** `_extract_vm_disk_size`: the first digit run of the first ranked
      value that has one, else 30. */
  function ExtractVmDiskSize(vm: Record): nat {
    match Ranked(vm, DiskSizeFields, HasDigit)
    case Some(v) => DigitsValue(FirstDigitRun(v).value)
    case None => DefaultDiskSizeGb
  }

  /** Fields without digits are passed over; without any, the size is 30. */
  lemma ExtractVmDiskSizeSpec(vm: Record)
    ensures forall i ::
      0 <= i < |DiskSizeFields| && Offers(vm, DiskSizeFields[i], HasDigit) && (forall j :: 0 <= j < i ==> !Offers(vm, DiskSizeFields[j], HasDigit))
      ==> ExtractVmDiskSize(vm) == DigitsValue(FirstDigitRun(Strip(Get(vm, DiskSizeFields[i]).value)).value)
    ensures (forall i :: 0 <= i < |DiskSizeFields| ==> !Offers(vm, DiskSizeFields[i], HasDigit)) ==>
      ExtractVmDiskSize(vm) == DefaultDiskSizeGb
  {
    RankedSpec(vm, DiskSizeFields, HasDigit);
  }

  /** A VM whose "OS disk size" is the decimal text of `n` gets `n`. */
  lemma ExtractVmDiskSizeOf(vm: Record, n: nat)
    requires Get(vm, "OS disk size") == Some(NatToString(n))
    ensures ExtractVmDiskSize(vm) == n
  {
    var d := NatToString(n);
    assert !IsSpace(d[0]) && !IsSpace(d[|d| - 1]);
    StripNoop(d);
    assert Offers(vm, DiskSizeFields[0], HasDigit);
    assert d + [] == d;
    FirstDigitRunOf(d, []);
    NatToStringValue(n);
  }

  /** Looks like a managed-disk SKU: `'_LRS' in t or '_ZRS' in t`. */
  predicate IsDiskSku(s: string) {
    Contains(s, "_LRS") || Contains(s, "_ZRS")
  }

  /** `_extract_vm_disk_type`: the first ranked value that looks like a disk
      SKU, else `Standard_LRS`. */
  function ExtractVmDiskType(vm: Record): string {
    match Ranked(vm, DiskTypeFields, IsDiskSku)
    case Some(t) => t
    case None => DefaultDiskType
  }

  /** The default itself passes the SKU test; a step of
      `ExtractVmDiskTypeSpec`. */
  lemma DefaultDiskTypeIsSku()
    ensures IsDiskSku(DefaultDiskType)
  {
    assert IsPrefix("_LRS", DefaultDiskType[8..]);
  }

  /** The disk type always looks like a disk SKU; it is the first such
      ranked value, or the default when there is none. */
  lemma ExtractVmDiskTypeSpec(vm: Record)
    ensures IsDiskSku(ExtractVmDiskType(vm))
    ensures forall i ::
      0 <= i < |DiskTypeFields| && Offers(vm, DiskTypeFields[i], IsDiskSku) && (forall j :: 0 <= j < i ==> !Offers(vm, DiskTypeFields[j], IsDiskSku))
      ==> ExtractVmDiskType(vm) == Strip(Get(vm, DiskTypeFields[i]).value)
    ensures (forall i :: 0 <= i < |DiskTypeFields| ==> !Offers(vm, DiskTypeFields[i], IsDiskSku)) ==>
      ExtractVmDiskType(vm) == DefaultDiskType
  {
    RankedSpec(vm, DiskTypeFields, IsDiskSku);
    DefaultDiskTypeIsSku();
  }

  // ---------------------------------------------------------------- vm_list

  /** Python's `a or b` where `a` is an optional text. */
  function OrElse(a: Option<string>, b: string): (r: string)
    ensures Truthy(a) ==> r == a.value
    ensures !Truthy(a) ==> r == b
  {
    if Truthy(a) then a.value else b
  }

  /** `f"vm{i+1}"` */
  function VmKey(i: nat): string {
    "vm" + NatToString(i + 1)
  }

  /** Different positions have different keys. */
  lemma VmKeyInjective(i: nat, j: nat)
    requires i != j
    ensures VmKey(i) != VmKey(j)
  {
    NatToStringValue(i + 1);
    NatToStringValue(j + 1);
    assert VmKey(i)[2..] == NatToString(i + 1);
    assert VmKey(j)[2..] == NatToString(j + 1);
  }

  /** The fall-through chain of one VM setting: the VM's own raw key in the
      Resources sheet, then the `vm1` raw key, then `fallback`; a falsy
      value (missing, `None` or empty) falls through. */
  function RawVmSetting(cache: RawCache, i: nat, setting: string, fallback: string): string {
    OrElse(GetRawValue(cache, "vm_list." + VmKey(i) + "." + setting, "Resources", None),
      OrElse(GetRawValue(cache, "vm_list.vm1." + setting, "Resources", None), fallback))
  }

  /** A non-empty row for the VM's own key in the Resources sheet is used. */
  lemma RawVmSettingOwn(sheets: Sheets, d: SheetData, j: nat, i: nat, setting: string, fallback: string)
    requires UniqueKeys(sheets) && ("Resources", d) in sheets
    requires j < |d.rawData| && Get(d.rawData[j], "1") == Some("vm_list." + VmKey(i) + "." + setting)
    requires forall x :: j < x < |d.rawData| ==> Get(d.rawData[x], "1") != Get(d.rawData[j], "1")
    requires Truthy(Get(d.rawData[j], "2"))
    ensures RawVmSetting(BuildRawCache(sheets), i, setting, fallback) == Get(d.rawData[j], "2").value
  {
    RawValueLastRow(sheets, "Resources", d, j, None);
  }

  /** The VM's own key, written with an empty value, falls through to the
      `vm1` key and then to `fallback`, as `or` does. */
  lemma RawVmSettingFallsThrough(sheets: Sheets, d: SheetData, j: nat, i: nat, setting: string, fallback: string)
    requires UniqueKeys(sheets) && ("Resources", d) in sheets
    requires j < |d.rawData| && Get(d.rawData[j], "1") == Some("vm_list." + VmKey(i) + "." + setting)
    requires forall x :: j < x < |d.rawData| ==> Get(d.rawData[x], "1") != Get(d.rawData[j], "1")
    requires Get(d.rawData[j], "2") == Some("")
    requires forall x :: 0 <= x < |d.rawData| ==> Get(d.rawData[x], "1") != Some("vm_list.vm1." + setting)
    ensures RawVmSetting(BuildRawCache(sheets), i, setting, fallback) == fallback
  {
    RawValueLastRow(sheets, "Resources", d, j, None);
    RawValueNoRow(sheets, "Resources", d, "vm_list.vm1." + setting, None);
  }

  /** A workbook without a Resources sheet leaves every setting at its
      fallback. */
  lemma RawVmSettingNoSheet(sheets: Sheets, i: nat, setting: string, fallback: string)
    requires UniqueKeys(sheets) && !HasKey(sheets, "Resources")
    ensures RawVmSetting(BuildRawCache(sheets), i, setting, fallback) == fallback
  {
    RawValueNoSheet(sheets, "vm_list." + VmKey(i) + "." + setting, "Resources", None);
    RawValueNoSheet(sheets, "vm_list.vm1." + setting, "Resources", None);
  }

  const WindowsUrn := "MicrosoftWindowsServer:WindowsServer:2022-datacenter-g2:latest"

  const LinuxUrn := "Canonical:0001-com-ubuntu-server-jammy:22_04-lts-gen2:latest"

  /** The two image URNs differ; a step of `ImageUrn`'s contract. */
  lemma UrnsDiffer()
    ensures WindowsUrn != LinuxUrn
  {
    assert |WindowsUrn| == 62 && |LinuxUrn| == 60;
  }

  function ImageUrn(osType: string): (r: string)
    ensures r == WindowsUrn <==> osType == "windows"
  {
    UrnsDiffer();
    if osType == "windows" then WindowsUrn else LinuxUrn
  }

  /** The values one `vm<i+1> = {...}` entry interpolates. */
  datatype VmListEntry = VmListEntry(
    key: string,
    name: string,
    size: string,
    imageOs: string,
    imageUrn: string,
    ipAllocation: string,
    osDiskSize: string,
    osDiskType: string,
    role: string,
    patchOptin: string,
    snowItem: string)

  /** The entry of the `i`-th VM. */
  function VmListEntryOf(projectInfo: Record, cache: RawCache, i: nat, vm: Record): VmListEntry {
    var osType := ExtractOsType(vm, projectInfo);
    VmListEntry(
      VmKey(i),
      ExtractVmName(vm, projectInfo, i),
      ExtractVmSize(vm, projectInfo),
      osType,
      ImageUrn(osType),
      RawVmSetting(cache, i, "ip_allocation", "Dynamic"),
      RawVmSetting(cache, i, "os_disk_size", NatToString(ExtractVmDiskSize(vm))),
      RawVmSetting(cache, i, "os_disk_type", ExtractVmDiskType(vm)),
      GetOr(vm, "Role", GetOr(projectInfo, "role", "Application")),
      GetOr(vm, "Patch Optin", GetOr(projectInfo, "patch_optin", "NO")),
      GetOr(vm, "Service Now Ticket", GetOr(projectInfo, "service_now_ticket", "RITM000000")))
  }

  function VmListEntries(data: TerraformData): (es: seq<VmListEntry>)
    ensures |es| == |data.vmInstances|
    ensures forall i :: 0 <= i < |es| ==>
      es[i] == VmListEntryOf(data.projectInfo, BuildRawCache(data.comprehensiveData), i, data.vmInstances[i])
  {
    var cache := BuildRawCache(data.comprehensiveData);
    seq(|data.vmInstances|, i requires 0 <= i < |data.vmInstances| =>
      VmListEntryOf(data.projectInfo, cache, i, data.vmInstances[i]))
  }

  /** One entry per VM, in order, keyed `vm1`, `vm2`, ... without
      repetition; each has a Windows or Linux image whose URN is the Windows
      one exactly when the OS is Windows. */
  lemma VmListEntriesSpec(data: TerraformData)
    ensures |VmListEntries(data)| == |data.vmInstances|
    ensures forall i :: 0 <= i < |VmListEntries(data)| ==>
      && VmListEntries(data)[i].key == "vm" + NatToString(i + 1)
      && (VmListEntries(data)[i].imageOs == "windows" || VmListEntries(data)[i].imageOs == "linux")
      && (VmListEntries(data)[i].imageUrn == WindowsUrn <==> VmListEntries(data)[i].imageOs == "windows")
      && VmListEntries(data)[i].imageOs == ExtractOsType(data.vmInstances[i], data.projectInfo)
    ensures forall i, j :: 0 <= i < j < |VmListEntries(data)| ==> VmListEntries(data)[i].key != VmListEntries(data)[j].key
  {
    var es := VmListEntries(data);
    forall i, j | 0 <= i < j < |es| ensures es[i].key != es[j].key {
      VmKeyInjective(i, j);
    }
  }

  /** The text of one entry: its key line, then its fields. */
  function RenderVmEntry(e: VmListEntry): string {
    VmEntryHead(e.key) + VmEntryFields(e)
  }

  function VmEntryHead(key: string): string {
    "  " + key + " = {\n"
  }

  function VmEntryFields(e: VmListEntry): string {
    "    name              = " + Quote(e.name) + "\n"
    + "    size              = " + Quote(e.size) + "\n"
    + "    zone              = null\n"
    + "    image_os          = " + Quote(e.imageOs) + "\n"
    + "    marketplace_image = false\n"
    + "    image_urn         = " + Quote(e.imageUrn) + "\n"
    + "    ip_allocation     = " + Quote(e.ipAllocation) + "\n"
    + "    identity_type     = \"SystemAssigned, UserAssigned\"\n"
    + "    os_disk_size      = " + e.osDiskSize + "\n"
    + "    os_disk_type      = " + Quote(e.osDiskType) + "\n"
    + "    os_disk_tier      = null\n"
    + "    data_disk_sizes   = [50, 50]\n"
    + "    data_disk_type    = \"Standard_LRS\"\n"
    + "    snet_key          = \"snet1\"\n"
    + "    asg_key           = \"asg_nic\"\n"
    + "    tags = {\n"
    + "      \"role\"        = " + Quote(e.role) + ",\n"
    + "      \"patch-optin\" = " + Quote(e.patchOptin) + ",\n"
    + "      \"snow-item\"   = " + Quote(e.snowItem) + "\n"
    + "    }\n"
    + "  }"
  }

  /** The `{...}` map literal around the entries, `{}` for none. */
  function VmListText(es: seq<VmListEntry>): string {
    if |es| == 0 then "{}" else Braced(MapSeq(es, RenderVmEntry))
  }

  /** `f"{{\n{chr(10).join(parts)}\n}}"` */
  function Braced(parts: seq<string>): string {
    "{\n" + Join(parts, "\n") + "\n}"
  }

  /** A braced list opens with the head of its first part, and is longer
      than `{}`. */
  lemma BracedPrefix(parts: seq<string>, head: string)
    requires |parts| > 0 && IsPrefix(head, parts[0])
    ensures IsPrefix("{\n" + head, Braced(parts))
    ensures |Braced(parts)| > 2
  {
    JoinPrefix(parts, "\n");
    var body := Join(parts, "\n");
    assert IsPrefix(head, body);
    assert Braced(parts) == "{\n" + body + "\n}";
  }

  lemma RenderVmEntryHead(e: VmListEntry)
    ensures IsPrefix(VmEntryHead(e.key), RenderVmEntry(e))
  {
  }

  /** `_generate_vm_list_for_tfvars` */
  function VmList(data: TerraformData): string {
    VmListText(VmListEntries(data))
  }

  /** The list is `{}` exactly when there are no VMs; otherwise it opens
      with the entry of the first VM, keyed `vm1`. */
  lemma VmListShape(data: TerraformData)
    ensures VmList(data) == "{}" <==> |data.vmInstances| == 0
    ensures |data.vmInstances| > 0 ==> IsPrefix("{\n" + VmEntryHead(VmKey(0)), VmList(data))
  {
    var es := VmListEntries(data);
    VmListTextEmpty(es);
    if |es| > 0 {
      VmListTextHead(es);
      assert es[0].key == VmKey(0);
    }
  }

  lemma VmListTextEmpty(es: seq<VmListEntry>)
    ensures VmListText(es) == "{}" <==> |es| == 0
  {
    if |es| > 0 {
      var parts := MapSeq(es, RenderVmEntry);
      assert |Braced(parts)| > 2;
    }
  }

  lemma VmListTextHead(es: seq<VmListEntry>)
    requires |es| > 0
    ensures IsPrefix("{\n" + VmEntryHead(es[0].key), VmListText(es))
  {
    var parts := MapSeq(es, RenderVmEntry);
    RenderVmEntryHead(es[0]);
    BracedPrefix(parts, VmEntryHead(es[0].key));
  }

  // -------------------------------------------------------------- NSG rules

  /** The values one rule block interpolates. */
  datatype NsgRuleEntry = NsgRuleEntry(
    name: string,
    sourceName: string,
    destinationName: string,
    priority: string,
    direction: string,
    access: string,
    protocol: string,
    sourcePortRange: string,
    destinationPortRanges: seq<string>,
    description: string)

  /** `destination_port_ranges`, a single text wrapped as a one-element
      list, `['443']` when absent. */
  function PortRanges(rule: Record): (ps: seq<string>)
    ensures |ps| == 1
    ensures HasKey(rule, "destination_port_ranges") ==> ps[0] == Get(rule, "destination_port_ranges").value
    ensures !HasKey(rule, "destination_port_ranges") ==> ps[0] == "443"
  {
    match Get(rule, "destination_port_ranges")
    case Some(p) => [p]
    case None => ["443"]
  }

  /** The block of the `i`-th rule, each field read from the rule or
      defaulted. */
  function NsgRuleEntryOf(projectName: string, i: nat, rule: Record): NsgRuleEntry {
    NsgRuleEntry(
      GetOr(rule, "name", EmitterV1.DefaultRuleName(i)),
      GetOr(rule, "source_name", "Source"),
      GetOr(rule, "destination_name", "Destination"),
      GetOr(rule, "priority", EmitterV1.DefaultPriority(i)),
      GetOr(rule, "direction", "Inbound"),
      GetOr(rule, "access", "Allow"),
      GetOr(rule, "protocol", "Tcp"),
      GetOr(rule, "source_port_range", "*"),
      PortRanges(rule),
      GetOr(rule, "description", "Security rule for " + projectName))
  }

  function ProjectNameOf(projectInfo: Record): string {
    GetOr(projectInfo, "project_name", "project")
  }

  function NsgRuleEntries(data: TerraformData): (es: seq<NsgRuleEntry>)
    ensures |es| == |data.securityGroups|
    ensures forall i :: 0 <= i < |es| ==>
      es[i] == NsgRuleEntryOf(ProjectNameOf(data.projectInfo), i, data.securityGroups[i])
  {
    var project := ProjectNameOf(data.projectInfo);
    seq(|data.securityGroups|, i requires 0 <= i < |data.securityGroups| =>
      NsgRuleEntryOf(project, i, data.securityGroups[i]))
  }

  /** Rules without a name, at different positions, get different names. */
  lemma NsgRuleDefaultNames(project: string, i: nat, j: nat, rule: Record, rule': Record)
    requires i != j
    requires !HasKey(rule, "name") && !HasKey(rule', "name")
    ensures NsgRuleEntryOf(project, i, rule).name != NsgRuleEntryOf(project, j, rule').name
  {
    EmitterV1.DefaultRuleNamesDistinct(i, j);
  }

  /** A rule without a priority gets one that reads back as `100 + 10 i`,
      so defaulted priorities grow by ten in rule order. */
  lemma NsgRuleDefaultPriority(project: string, i: nat, rule: Record)
    requires !HasKey(rule, "priority")
    ensures ParseInt(NsgRuleEntryOf(project, i, rule).priority) == Some(100 + i * 10)
  {
    assert NsgRuleEntryOf(project, i, rule).priority == EmitterV1.DefaultPriority(i);
    EmitterV1.DefaultPriorityValue(i);
  }

  /** `'[' + ', '.join(f'"{port}"' for port in ports) + ']'` */
  function PortsText(ports: seq<string>): string {
    "[" + Join(QuoteAll(ports), ", ") + "]"
  }

  /** A single port renders as a one-element list of one quoted text; the
      default is `["443"]`. */
  lemma PortsTextOfRule(rule: Record, p: string)
    ensures Get(rule, "destination_port_ranges") == Some(p) ==> PortsText(PortRanges(rule)) == "[\"" + p + "\"]"
    ensures !HasKey(rule, "destination_port_ranges") ==> PortsText(PortRanges(rule)) == "[\"443\"]"
  {
  }

  /** The rendered list holds one quoted text per port. */
  lemma PortsTextQuotes(ports: seq<string>)
    requires forall i :: 0 <= i < |ports| ==> '"' !in ports[i]
    ensures CountChar(PortsText(ports), '"') == 2 * |ports|
  {
    var body := Join(QuoteAll(ports), ", ");
    QuotedJoinCount(ports, ", ");
    CountCharAppend("[" + body, "]", '"');
    CountCharAppend("[", body, '"');
  }

  function RenderNsgRule(e: NsgRuleEntry): string {
    "    {\n"
    + "      name                       = " + Quote(e.name) + "\n"
    + "      source_name                = " + Quote(e.sourceName) + "\n"
    + "      destination_name           = " + Quote(e.destinationName) + "\n"
    + "      priority                   = " + e.priority + "\n"
    + "      direction                  = " + Quote(e.direction) + "\n"
    + "      access                     = " + Quote(e.access) + "\n"
    + "      protocol                   = " + Quote(e.protocol) + "\n"
    + "      source_port_range          = " + Quote(e.sourcePortRange) + "\n"
    + "      destination_port_ranges    = " + PortsText(e.destinationPortRanges) + "\n"
    + "      source_asg_keys            = [\"asg_nic\"]\n"
    + "      destination_asg_keys       = [\"asg_pe\"]\n"
    + "      description                = " + Quote(e.description) + "\n"
    + "    }"
  }

  /** The two header lines: the project's networking resource group and
      its security group, named from the lower-cased project and
      environment. */
  function NsgHead(projectInfo: Record): string {
    var project := Lower(ProjectNameOf(projectInfo));
    var env := Lower(GetOr(projectInfo, "environment", "dev"));
    "{\n"
    + "  resource_group_name         = " + Quote("rg-" + project + "-networking") + "\n"
    + "  network_security_group_name = " + Quote("nsg-" + project + "-" + env) + "\n"
  }

  const NoRules := "  rules = []\n}"

  function RulesBlock(parts: seq<string>): string {
    "  rules = [\n" + Join(parts, "\n") + "\n  ]\n}"
  }

  /** A rules block with entries is never the empty one. */
  lemma RulesBlockNotEmpty(head: string, parts: seq<string>)
    ensures head + RulesBlock(parts) != head + NoRules
  {
    var t := head + RulesBlock(parts);
    assert t[|head| + 11] == '\n';
    assert (head + NoRules)[|head| + 11] == ']';
  }

  /** `_generate_nsg_rules_for_tfvars` */
  function NsgRulesText(data: TerraformData): string {
    var es := NsgRuleEntries(data);
    if |es| == 0 then NsgHead(data.projectInfo) + NoRules
    else NsgHead(data.projectInfo) + RulesBlock(MapSeq(es, RenderNsgRule))
  }

  /** The rule list renders as `rules = []` exactly when there are no
      rules. */
  lemma NsgRulesEmpty(data: TerraformData)
    ensures NsgRulesText(data) == NsgHead(data.projectInfo) + NoRules <==> |data.securityGroups| == 0
  {
    RulesBlockNotEmpty(NsgHead(data.projectInfo), MapSeq(NsgRuleEntries(data), RenderNsgRule));
  }

  // ---------------------------------------------------------------- summary

  datatype ResourceCounts = ResourceCounts(
    virtualMachines: nat,
    networkSecurityRules: nat,
    applicationSecurityGroups: nat,
    subnets: nat,
    privateEndpoints: nat,
    keyVaults: nat,
    userAssignedIdentities: nat,
    diskEncryptionSets: nat)

  datatype FileOrganization = FileOrganization(moduleFiles: nat, resourceFiles: nat, configurationFiles: nat)

  datatype Summary = Summary(
    projectName: string,
    applicationName: string,
    architecture: string,
    resources: ResourceCounts,
    fileOrganization: FileOrganization)

  /** `generate_summary` */
  function GenerateSummary(data: TerraformData): (s: Summary)
    ensures s.resources.virtualMachines == |data.vmInstances|
    ensures s.resources.networkSecurityRules == |data.securityGroups|
    ensures HasKey(data.projectInfo, "project_name") ==> s.projectName == Get(data.projectInfo, "project_name").value
    ensures HasKey(data.projectInfo, "application_name") ==> s.applicationName == Get(data.projectInfo, "application_name").value
  {
    Summary(
      GetOr(data.projectInfo, "project_name", "default-project"),
      GetOr(data.projectInfo, "application_name", "default-app"),
      "Module-based (base-vm module)",
      ResourceCounts(|data.vmInstances|, |data.securityGroups|, 2, 1, 1, 1, 1, 1),
      FileOrganization(1, 8, 6))
  }

  /** Only the two counts follow the data: two projects with as many VMs and
      rules have the same resource counts. */
  lemma SummaryCountsDependOnLengths(d: TerraformData, d': TerraformData)
    requires |d.vmInstances| == |d'.vmInstances| && |d.securityGroups| == |d'.securityGroups|
    ensures GenerateSummary(d).resources == GenerateSummary(d').resources
    ensures GenerateSummary(d).fileOrganization == GenerateSummary(d').fileOrganization
  {
  }

  /** The two generators' summaries of the same data agree on the project's
      names and on how many VMs and rules there are. */
  lemma SummariesAgree(data: TerraformData)
    ensures var s1 := EmitterV1.GenerateSummary(data);
      var s2 := GenerateSummary(data);
      && s1.projectName == s2.projectName && s1.applicationName == s2.applicationName
      && s1.resources.virtualMachines == s2.resources.virtualMachines
      && s1.resources.networkSecurityRules == s2.resources.networkSecurityRules
  {
  }
}

=== FILE: field_resolver.dfy ===
/** The lookups of `ExcelDataAccessor` (`data_accessor.py`) over the stored
    extraction: tables by index or by header keyword, columns, keyword
    search over the key/value pairs, the "actual value" scan of a sheet's
    tables, and the resolution of `wab:` references. */
module FieldResolver {
  import opened Optionals
  import opened Strings
  import opened OrderedMaps
  import opened TableInference

  /** The part of a stored sheet the accessor and the generators read: the
      tables, the key/value pairs and the `raw_data` records. */
  datatype SheetData = SheetData(tables: seq<Table>, keyValuePairs: Record, rawData: seq<Record>)

  /** The `sheets` dictionary of the loaded extraction. */
  type Sheets = OMap<string, SheetData>

  /** `self.sheets.get(sheet_name, {})` */
  function SheetOf(sheets: Sheets, name: string): SheetData {
    GetOr(sheets, name, SheetData([], [], []))
  }

  // ------------------------------------------------------------ keywords

  /** `keyword.lower() in text.lower()` */
  predicate KeywordIn(text: string, keyword: string) {
    Contains(Lower(text), Lower(keyword))
  }

  /** `any(keyword.lower() in text.lower() for keyword in keywords)` */
  predicate AnyKeywordIn(text: string, keywords: seq<string>) {
    exists k :: 0 <= k < |keywords| && KeywordIn(text, keywords[k])
  }

  predicate HeadersMatch(headers: seq<string>, keywords: seq<string>) {
    exists h :: 0 <= h < |headers| && AnyKeywordIn(headers[h], keywords)
  }

  // -------------------------------------------------------------- tables

  /** `get_table_by_index` */
  function TableByIndex(sheets: Sheets, name: string, index: int): (r: Option<Table>)
    ensures r.Some? <==> 0 <= index < |SheetOf(sheets, name).tables|
    ensures r.Some? ==> r.value == SheetOf(sheets, name).tables[index]
  {
    var tables := SheetOf(sheets, name).tables;
    if 0 <= index < |tables| then Some(tables[index]) else None
  }

  /** `get_table_by_headers` */
  function TableByHeaders(sheets: Sheets, name: string, keywords: seq<string>): Option<Table> {
    First(SheetOf(sheets, name).tables, (t: Table) => HeadersMatch(t.headers, keywords))
  }

  /** The table found is the first stored table with a header containing a
      keyword, and none is found exactly when no table has one. */
  lemma TableByHeadersSpec(sheets: Sheets, name: string, keywords: seq<string>)
    ensures var tables := SheetOf(sheets, name).tables;
      var r := TableByHeaders(sheets, name, keywords);
      && (r.None? <==> forall i :: 0 <= i < |tables| ==> !HeadersMatch(tables[i].headers, keywords))
      && (r.Some? ==> exists i :: (
            0 <= i < |tables| && tables[i] == r.value && HeadersMatch(r.value.headers, keywords)
            && forall j :: 0 <= j < i ==> !HeadersMatch(tables[j].headers, keywords)))
  {
    var tables := SheetOf(sheets, name).tables;
    FirstIndexSpec(tables, (t: Table) => HeadersMatch(t.headers, keywords));
  }

  /** The values one column takes over the rows of a table that have it. */
  function ColumnCells(t: Table, column: string): (xs: seq<Option<string>>)
    ensures |xs| == |t.data|
  {
    seq(|t.data|, j requires 0 <= j < |t.data| => Get(t.data[j], column))
  }

  /** `get_column_data` */
  function ColumnData(sheets: Sheets, name: string, column: string, index: int): seq<string> {
    match TableByIndex(sheets, name, index)
    case None => []
    case Some(t) => Somes(ColumnCells(t, column))
  }

  /** The column's values in row order: the i-th comes from an increasing
      row position, and every row that has the column contributes. */
  lemma ColumnDataSpec(sheets: Sheets, name: string, column: string, index: int)
    requires TableByIndex(sheets, name, index).Some?
    ensures var t := TableByIndex(sheets, name, index).value;
      var vs := ColumnData(sheets, name, column, index);
      var ix := SomeIndices(ColumnCells(t, column));
      && |vs| == |ix| <= |t.data|
      && (forall i :: 0 <= i < |vs| ==> ix[i] < |t.data| && Get(t.data[ix[i]], column) == Some(vs[i]))
      && (forall i, j :: 0 <= i < j < |ix| ==> ix[i] < ix[j])
      && (forall j :: 0 <= j < |t.data| && HasKey(t.data[j], column) ==> exists i :: 0 <= i < |ix| && ix[i] == j)
  {
    var t := TableByIndex(sheets, name, index).value;
    var xs := ColumnCells(t, column);
    var ix := SomeIndices(xs);
    forall i | 0 <= i < |ix|
      ensures Get(t.data[ix[i]], column) == Some(Somes(xs)[i])
    {
      assert xs[ix[i]] == Get(t.data[ix[i]], column);
    }
    forall j | 0 <= j < |t.data| && HasKey(t.data[j], column)
      ensures exists i :: 0 <= i < |ix| && ix[i] == j
    {
      assert xs[j] == Get(t.data[j], column);
      SomeIndicesComplete(xs, j);
    }
  }

  /** `get_column_by_keywords` */
  function ColumnByKeywords(sheets: Sheets, name: string, keywords: seq<string>, index: int): Option<string> {
    match TableByIndex(sheets, name, index)
    case None => None
    case Some(t) => First(t.headers, h => AnyKeywordIn(h, keywords))
  }

  /** No table at that index gives nothing; otherwise the result is the
      first header, in header order, containing a keyword. */
  lemma ColumnByKeywordsSpec(sheets: Sheets, name: string, keywords: seq<string>, index: int)
    ensures TableByIndex(sheets, name, index).None? ==> ColumnByKeywords(sheets, name, keywords, index).None?
    ensures TableByIndex(sheets, name, index).Some? ==>
      var hs := TableByIndex(sheets, name, index).value.headers;
      var r := ColumnByKeywords(sheets, name, keywords, index);
      && (r.None? <==> forall i :: 0 <= i < |hs| ==> !AnyKeywordIn(hs[i], keywords))
      && (r.Some? ==> exists i :: (
            0 <= i < |hs| && hs[i] == r.value && AnyKeywordIn(r.value, keywords)
            && forall j :: 0 <= j < i ==> !AnyKeywordIn(hs[j], keywords)))
  {
    if TableByIndex(sheets, name, index).Some? {
      var hs := TableByIndex(sheets, name, index).value.headers;
      FirstIndexSpec(hs, h => AnyKeywordIn(h, keywords));
    }
  }

  // ---------------------------------------------------- key/value lookups

  /** `get_key_value` */
  function KeyValue(sheets: Sheets, name: string, key: string): Option<string> {
    Get(SheetOf(sheets, name).keyValuePairs, key)
  }

  /** `find_key_by_keywords` */
  function FindKeyByKeywords(sheets: Sheets, name: string, keywords: seq<string>): Option<string> {
    First(Keys(SheetOf(sheets, name).keyValuePairs), k => AnyKeywordIn(k, keywords))
  }

  /** The key found is the first key in insertion order containing a
      keyword, and none is found exactly when no key has one. */
  lemma FindKeyByKeywordsSpec(sheets: Sheets, name: string, keywords: seq<string>)
    ensures var ks := Keys(SheetOf(sheets, name).keyValuePairs);
      var r := FindKeyByKeywords(sheets, name, keywords);
      && (r.None? <==> forall i :: 0 <= i < |ks| ==> !AnyKeywordIn(ks[i], keywords))
      && (r.Some? ==> exists i :: (
            0 <= i < |ks| && ks[i] == r.value && AnyKeywordIn(r.value, keywords)
            && forall j :: 0 <= j < i ==> !AnyKeywordIn(ks[j], keywords)))
  {
    var ks := Keys(SheetOf(sheets, name).keyValuePairs);
    FirstIndexSpec(ks, k => AnyKeywordIn(k, keywords));
  }

  /** `get_value_by_keywords`: the value of the key found, when that key is
      truthy. */
  function ValueByKeywords(sheets: Sheets, name: string, keywords: seq<string>): (r: Option<string>)
    ensures r.Some? ==> exists k :: FindKeyByKeywords(sheets, name, keywords) == Some(k) && k != "" && KeyValue(sheets, name, k) == r
    ensures FindKeyByKeywords(sheets, name, keywords).None? ==> r.None?
  {
    match FindKeyByKeywords(sheets, name, keywords)
    case Some(k) => if k != "" then KeyValue(sheets, name, k) else None
    case None => None
  }

  /** A key found is one of the pairs' keys, so its value is there. */
  lemma ValueByKeywordsFound(sheets: Sheets, name: string, keywords: seq<string>)
    requires FindKeyByKeywords(sheets, name, keywords).Some? && FindKeyByKeywords(sheets, name, keywords).value != ""
    ensures ValueByKeywords(sheets, name, keywords).Some?
  {
    var kv := SheetOf(sheets, name).keyValuePairs;
    var k := FindKeyByKeywords(sheets, name, keywords).value;
    assert k in Keys(kv);
    var i :| 0 <= i < |Keys(kv)| && Keys(kv)[i] == k;
    FindSpec(kv, k);
  }

  /** A value is returned exactly when the first key containing a keyword is
      non-empty, and then it is that key's value in the pairs. */
  lemma ValueByKeywordsSpec(sheets: Sheets, name: string, keywords: seq<string>)
    ensures var kv := SheetOf(sheets, name).keyValuePairs;
      var r := ValueByKeywords(sheets, name, keywords);
      && (r.Some? <==> exists i :: FirstKeywordKey(kv, keywords, i) && kv[i].0 != "")
      && (forall i :: FirstKeywordKey(kv, keywords, i) && kv[i].0 != "" ==> r == Get(kv, kv[i].0))
  {
    var kv := SheetOf(sheets, name).keyValuePairs;
    forall i | FirstKeywordKey(kv, keywords, i) && kv[i].0 != ""
      ensures ValueByKeywords(sheets, name, keywords) == Get(kv, kv[i].0)
      ensures ValueByKeywords(sheets, name, keywords).Some?
    {
      FindKeyAt(sheets, name, keywords, i);
      ValueByKeywordsFound(sheets, name, keywords);
    }
    if ValueByKeywords(sheets, name, keywords).Some? {
      var i := FindKeyIndex(sheets, name, keywords);
      assert FirstKeywordKey(kv, keywords, i) && kv[i].0 != "";
    }
  }

  /** The first key containing a keyword is the one found. */
  lemma FindKeyAt(sheets: Sheets, name: string, keywords: seq<string>, i: int)
    requires FirstKeywordKey(SheetOf(sheets, name).keyValuePairs, keywords, i)
    ensures FindKeyByKeywords(sheets, name, keywords) == Some(SheetOf(sheets, name).keyValuePairs[i].0)
  {
    var kv := SheetOf(sheets, name).keyValuePairs;
    var ks := Keys(kv);
    var p := k => AnyKeywordIn(k, keywords);
    assert p(ks[i]);
    assert forall j :: 0 <= j < i ==> !p(ks[j]);
    FirstAt(ks, p, i);
  }

  /** A key found is the first key containing a keyword. */
  lemma FindKeyIndex(sheets: Sheets, name: string, keywords: seq<string>) returns (i: int)
    requires FindKeyByKeywords(sheets, name, keywords).Some?
    ensures FirstKeywordKey(SheetOf(sheets, name).keyValuePairs, keywords, i)
    ensures FindKeyByKeywords(sheets, name, keywords) == Some(SheetOf(sheets, name).keyValuePairs[i].0)
  {
    var kv := SheetOf(sheets, name).keyValuePairs;
    var ks := Keys(kv);
    var p := k => AnyKeywordIn(k, keywords);
    FirstIndexSpec(ks, p);
    i := FirstIndex(ks, p).value;
    assert forall j :: 0 <= j < i ==> ks[j] == kv[j].0;
  }

  /** Position i holds the first key of the pairs containing a keyword. */
  predicate FirstKeywordKey(kv: Record, keywords: seq<string>, i: int) {
    && 0 <= i < |kv| && AnyKeywordIn(kv[i].0, keywords)
    && forall j :: 0 <= j < i ==> !AnyKeywordIn(kv[j].0, keywords)
  }

  // -------------------------------------------------------- actual values

  /** Header labels and placeholders that are never taken as a field name or
      a value. */
  const SkipValues: set<string> := {
    "Value", "Existing", "Validation", "Terraform Variable", "SNOW form",
    "User", "EA", "CMDB", "Cloud Engineering", "Azure Client Managed",
    "Azure CMS Managed", "OnPrem", "AWS Client Managed", "YES", "NO",
    "ASR", "GRS Backup/Restore", "Warm/Standby", "Cold Rebuild",
    "User/CMDB", "CMDB APP NAME", "SNOW team after request is complete?",
    "User/EA", "DEV", "UAT", "QA", "PROD", "DR", "Platinum", "Gold",
    "Silver", "Bronze", "Iron", "CMDB?", "MUST BE A NUMBER",
    "Commercial", "Consumer Related", "Corporate", "Corporate Support",
    "Overview"
  }

  /** The filter a (field, value) pair must pass. */
  predicate ActualKept(field: string, value: string) {
    && field != "" && value != "" && Strip(value) != ""
    && field !in SkipValues && value !in SkipValues
    && !StartsWith(value, "wab:") && !StartsWith(value, "vm_list")
  }

  /** What one row contributes: its first entry's value as the field name and
      the entry at `valueColumn` as the value, when the row is long enough
      and the pair passes the filter. */
  function ActualStep(row: Record, valueColumn: nat): Option<(string, string)> {
    if |row| >= valueColumn + 1 && ActualKept(row[0].1, row[valueColumn].1) then
      Some((row[0].1, row[valueColumn].1))
    else None
  }

  /** The rows of the tables, table by table. */
  function TableRows(tables: seq<Table>): seq<Record> {
    if |tables| == 0 then [] else TableRows(tables[..|tables| - 1]) + tables[|tables| - 1].data
  }

  function ActualSteps(rows: seq<Record>, valueColumn: nat): (xs: seq<Option<(string, string)>>)
    ensures |xs| == |rows|
  {
    seq(|rows|, j requires 0 <= j < |rows| => ActualStep(rows[j], valueColumn))
  }

  /** `_extract_actual_values_from_tables` */
  function ActualValues(sheets: Sheets, name: string, valueColumn: nat): Record {
    Update([], Somes(ActualSteps(TableRows(SheetOf(sheets, name).tables), valueColumn)))
  }

  /** Every actual value passed the filter: neither side empty or a skip
      value, the value not blank and not starting with `wab:` or `vm_list`. */
  lemma ActualValuesSound(sheets: Sheets, name: string, valueColumn: nat)
    ensures var av := ActualValues(sheets, name, valueColumn);
      forall i :: 0 <= i < |av| ==> ActualKept(av[i].0, av[i].1)
  {
    var xs := ActualSteps(TableRows(SheetOf(sheets, name).tables), valueColumn);
    forall j | 0 <= j < |xs| && xs[j].Some?
      ensures ActualKept(xs[j].value.0, xs[j].value.1)
    {
    }
    UpdateSomesAll(xs, (e: (string, string)) => ActualKept(e.0, e.1));
  }

  /** The last row wins: a field reads as the value of the last row that
      names it and passes the filter. */
  lemma ActualValuesLastWins(sheets: Sheets, name: string, valueColumn: nat, j: nat, field: string, value: string)
    requires var rows := TableRows(SheetOf(sheets, name).tables);
      && j < |rows| && ActualStep(rows[j], valueColumn) == Some((field, value))
      && forall x :: j < x < |rows| ==> ActualStep(rows[x], valueColumn).None? || ActualStep(rows[x], valueColumn).value.0 != field
    ensures Get(ActualValues(sheets, name, valueColumn), field) == Some(value)
  {
    var xs := ActualSteps(TableRows(SheetOf(sheets, name).tables), valueColumn);
    SomesLastWrite(xs, j, field, value);
    UpdateGet([], Somes(xs), field);
  }

  // ------------------------------------------------------ wab: references

  const RefPrefix := "wab:"

  /** The variable name of a reference: every `wab:` removed, hyphens turned
      into blanks. */
  function VarName(value: string): string {
    ReplaceChar(RemoveAll(value, RefPrefix), '-', ' ')
  }

  predicate ExactHit(name: string, e: (string, string)) {
    Contains(Lower(e.0), Lower(name))
  }

  predicate WordHit(words: seq<string>, e: (string, string)) {
    exists w :: 0 <= w < |words| && Contains(Lower(e.0), words[w])
  }

  /** The two passes of the lookup, with the words of the second pass given:
      an entry whose key contains the whole name wins, else one whose key
      contains one of the words, else the reference stays as it is. */
  function ResolveWith(value: string, words: seq<string>, actual: Record): string {
    match First(actual, e => ExactHit(VarName(value), e))
    case Some(e) => e.1
    case None =>
      match First(actual, e => WordHit(words, e))
      case Some(e) => e.1
      case None => value
  }

  /** `_resolve_variable_reference` as written: the words of the second pass
      keep their case and are looked up in the lower-cased key. */
  function ResolveAsWritten(value: string, actual: Record): string {
    if value == "" || !StartsWith(value, RefPrefix) then value
    else ResolveWith(value, Words(VarName(value)), actual)
  }

  /** `_resolve_variable_reference` with the second pass lower-casing the
      words as the first pass lower-cases the name. */
  function Resolve(value: string, actual: Record): string {
    if value == "" || !StartsWith(value, RefPrefix) then value
    else ResolveWith(value, Words(Lower(VarName(value))), actual)
  }

  /** What resolution returns: a value that is not a reference unchanged;
      otherwise the reference itself or one of the actual values: the first
      whole-name hit, else the first entry whose key contains a lower-cased
      word of the name, else the reference unchanged. */
  lemma ResolveSpec(value: string, actual: Record)
    ensures value == "" || !StartsWith(value, RefPrefix) ==> Resolve(value, actual) == value
    ensures Resolve(value, actual) == value || exists i :: 0 <= i < |actual| && actual[i].1 == Resolve(value, actual)
    ensures StartsWith(value, RefPrefix) ==>
      match FirstIndex(actual, e => ExactHit(VarName(value), e))
      case Some(i) => Resolve(value, actual) == actual[i].1
      case None =>
        match FirstIndex(actual, e => WordHit(Words(Lower(VarName(value))), e))
        case Some(i) => Resolve(value, actual) == actual[i].1
        case None => Resolve(value, actual) == value
  {
    if value != "" && StartsWith(value, RefPrefix) {
      var words := Words(Lower(VarName(value)));
      match FirstIndex(actual, e => ExactHit(VarName(value), e))
      case Some(i) =>
      case None =>
        match FirstIndex(actual, e => WordHit(words, e))
        case Some(i) =>
        case None =>
    }
  }

  /** Against a single pair, resolution takes that pair's value on a
      whole-name or word hit and keeps the reference otherwise. */
  lemma ResolveWithSingle(value: string, words: seq<string>, e: (string, string))
    ensures ResolveWith(value, words, [e]) ==
      if ExactHit(VarName(value), e) || WordHit(words, e) then e.1 else value
  {
    assert [e][1..] == [];
  }

  /** A lower-case text never contains a needle that starts with an
      upper-case letter. */
  lemma NoUpperMisses(hay: string, needle: string)
    requires NoUpper(hay) && |needle| > 0 && IsUpper(needle[0])
    ensures !Contains(hay, needle)
  {
  }

  // The lemmas from here to `NodeSizeWordHit` are steps about the single
  // reference `wab:Node-Size`; they serve only the worked example
  // `ResolveAsWrittenMisses` and its corrected counterpart `ResolveHitsWord`.

  lemma NodeSizeIsRef()
    ensures StartsWith("wab:Node-Size", RefPrefix)
  {
    assert "wab:Node-Size"[..4] == RefPrefix;
  }

  lemma NodeSizeRemove()
    ensures RemoveAll("wab:Node-Size", RefPrefix) == "Node-Size"
  {
    var value := "wab:Node-Size";
    assert value[..4] == RefPrefix && value[4..] == "Node-Size";
    RemoveAllMissing("Node-Size", RefPrefix);
  }

  lemma NodeSizeName()
    ensures VarName("wab:Node-Size") == "Node Size"
  {
    NodeSizeRemove();
  }

  lemma NodeSizeWords()
    ensures Words("Node Size") == ["Node", "Size"]
  {
    assert "Node Size" == "Node" + [' '] + "Size";
    WordsPair("Node", "Size");
  }

  lemma NodeSizeLowerWords()
    ensures Words(Lower("Node Size")) == ["node", "size"]
  {
    NodeSizeLowerName();
    assert "node size" == "node" + [' '] + "size";
    WordsPair("node", "size");
  }

  lemma NodeSizeLowerName()
    ensures Lower("Node Size") == "node size"
  {
  }

  lemma SizeLower()
    ensures Lower("Size") == "size"
  {
  }

  lemma NodeSizeAsIs(value: string)
    requires value == "wab:Node-Size"
    ensures StartsWith(value, RefPrefix) && Words(VarName(value)) == ["Node", "Size"]
  {
    NodeSizeIsRef();
    NodeSizeName();
    NodeSizeWords();
  }

  lemma NodeSizeLowered(value: string)
    requires value == "wab:Node-Size"
    ensures StartsWith(value, RefPrefix) && Words(Lower(VarName(value))) == ["node", "size"]
  {
    NodeSizeIsRef();
    NodeSizeName();
    NodeSizeLowerWords();
  }

  /** The whole name `Node Size` is longer than the key `Size`. */
  lemma NodeSizeNoExactHit(e: (string, string))
    requires e.0 == "Size"
    ensures !ExactHit(VarName("wab:Node-Size"), e)
  {
    NodeSizeName();
    assert |Lower(VarName("wab:Node-Size"))| > |Lower(e.0)|;
  }

  /** Neither capitalised word occurs in the lower-cased key. */
  lemma NodeSizeNoWordHit(e: (string, string))
    requires e.0 == "Size"
    ensures !WordHit(["Node", "Size"], e)
  {
    SizeLower();
    NoUpperMisses("size", "Node");
    NoUpperMisses("size", "Size");
  }

  /** The lower-cased word `size` is the lower-cased key. */
  lemma NodeSizeWordHit(e: (string, string))
    requires e.0 == "Size"
    ensures WordHit(["node", "size"], e)
  {
    SizeLower();
    assert IsPrefix("size", "size"[0..]);
    assert Contains(Lower(e.0), ["node", "size"][1]);
  }

  /** The reference `wab:Node-Size` against a single pair keyed `Size`: the
      whole name is longer than the key, and the words `Node` and `Size`,
      kept in their case, never occur in the lower-cased key `size`, so the
      reference comes back unresolved. */
  lemma ResolveAsWrittenMisses(value: string, e: (string, string))
    requires value == "wab:Node-Size" && e == ("Size", "Standard_D4s_v3")
    ensures ResolveAsWritten(value, [e]) == value
  {
    NodeSizeAsIs(value);
    NodeSizeNoExactHit(e);
    NodeSizeNoWordHit(e);
    ResolveWithSingle(value, ["Node", "Size"], e);
  }

  /** As written, the second pass never matches when every word of the
      name starts with a capital: the lower-cased keys cannot contain such a
      word, so without a whole-name hit the reference stays unresolved,
      whatever the actual values are. */
  lemma ResolveAsWrittenCapitalized(value: string, actual: Record)
    requires StartsWith(value, RefPrefix)
    requires forall i :: 0 <= i < |actual| ==> !ExactHit(VarName(value), actual[i])
    requires forall w :: 0 <= w < |Words(VarName(value))| ==>
      |Words(VarName(value))[w]| > 0 && IsUpper(Words(VarName(value))[w][0])
    ensures ResolveAsWritten(value, actual) == value
  {
    var name := VarName(value);
    var words := Words(name);
    forall i | 0 <= i < |actual| ensures !WordHit(words, actual[i]) {
      forall w | 0 <= w < |words| ensures !Contains(Lower(actual[i].0), words[w]) {
        NoUpperMisses(Lower(actual[i].0), words[w]);
      }
    }
    FirstIndexSpec(actual, e => ExactHit(name, e));
    FirstIndexSpec(actual, e => WordHit(words, e));
  }

  /** The same reference resolves once the words are lower-cased: `size`
      occurs in the key. */
  lemma ResolveHitsWord(value: string, e: (string, string))
    requires value == "wab:Node-Size" && e == ("Size", "Standard_D4s_v3")
    ensures Resolve(value, [e]) == e.1
  {
    NodeSizeLowered(value);
    NodeSizeWordHit(e);
    ResolveWithSingle(value, ["node", "size"], e);
  }
}

=== FILE: grid.dfy ===
/** A worksheet as the extractors see it after reading: rows of cell texts,
    with "" standing for an empty (NaN) cell. Rows may be ragged; the sheet
    is as wide as its longest row and the missing cells read as empty. */
module Grid {
  import opened Optionals
  import opened Strings
  import opened OrderedMaps

  type Row = seq<string>
  type Sheet = seq<Row>

  /** The number of columns of the frame: the longest row. */
  function Width(g: Sheet): nat
  {
    if |g| == 0 then 0
    else
      var w0 := Width(g[..|g| - 1]);
      if |g[|g| - 1]| > w0 then |g[|g| - 1]| else w0
  }

  /** No row is longer than the width, and some row is as long as it. */
  lemma {:induction false} WidthSpec(g: Sheet)
    ensures forall r :: 0 <= r < |g| ==> |g[r]| <= Width(g)
    ensures Width(g) == 0 || exists r :: 0 <= r < |g| && |g[r]| == Width(g)
  {
    if |g| > 0 {
      var init := g[..|g| - 1];
      WidthSpec(init);
      assert forall r :: 0 <= r < |g| - 1 ==> g[r] == init[r];
      if Width(g) > 0 && |g[|g| - 1]| != Width(g) {
        var r :| 0 <= r < |init| && |init[r]| == Width(init);
        assert |g[r]| == Width(g);
      }
    }
  }

  /** `df.iloc[r, c]` with NaN read as "". */
  function Cell(g: Sheet, r: nat, c: nat): string {
    if r < |g| && c < |g[r]| then g[r][c] else ""
  }

  /** `pd.notna(val) and str(val).strip()`: the cell holds a non-blank
      character. */
  predicate Filled(g: Sheet, r: nat, c: nat) {
    LeadingBlanks(Cell(g, r, c)) < |Cell(g, r, c)|
  }

  /** `str(val).strip() if pd.notna(val) else ""` */
  function Text(g: Sheet, r: nat, c: nat): (t: string)
    ensures t != "" <==> Filled(g, r, c)
  {
    Strip(Cell(g, r, c))
  }

  /** How many of the first `n` cells of row `r` are filled. */
  function FilledUpTo(g: Sheet, r: nat, n: nat): (k: nat)
    ensures k <= n
  {
    if n == 0 then 0 else FilledUpTo(g, r, n - 1) + (if Filled(g, r, n - 1) then 1 else 0)
  }

  /** None of the first `n` cells is filled exactly when the count is zero. */
  lemma {:induction false} FilledUpToZero(g: Sheet, r: nat, n: nat)
    ensures FilledUpTo(g, r, n) == 0 <==> forall c :: 0 <= c < n ==> !Filled(g, r, c)
  {
    if n > 0 {
      FilledUpToZero(g, r, n - 1);
    }
  }

  /** `sum(1 for val in row if pd.notna(val) and str(val).strip())` */
  function FilledCount(g: Sheet, r: nat): (k: nat)
    ensures k <= Width(g)
  {
    FilledUpTo(g, r, Width(g))
  }

  /** The key the records of `to_dict('records')` use for column `c` once
      written as JSON: its decimal index. */
  function ColumnKey(c: nat): string {
    NatToString(c)
  }

  /** One row of `df.fillna('').to_dict('records')`: every column of the
      frame, keyed by its index, holding the untrimmed cell text. */
  function RawRecord(g: Sheet, r: nat): (rec: seq<(string, string)>)
    ensures |rec| == Width(g)
    ensures forall c :: 0 <= c < |rec| ==> rec[c] == (ColumnKey(c), Cell(g, r, c))
  {
    seq(Width(g), c requires 0 <= c => (ColumnKey(c), Cell(g, r, c)))
  }

  /** Distinct columns have distinct keys. */
  lemma ColumnKeyInjective(a: nat, b: nat)
    requires a != b
    ensures ColumnKey(a) != ColumnKey(b)
  {
    NatToStringValue(a);
    NatToStringValue(b);
  }

  /** A raw record is a well-formed dict in which the key of every column of
      the frame reads as that column's cell, and any other column key is
      absent. */
  lemma RawRecordGet(g: Sheet, r: nat, c: nat)
    ensures UniqueKeys(RawRecord(g, r))
    ensures Get(RawRecord(g, r), ColumnKey(c)) == if c < Width(g) then Some(Cell(g, r, c)) else None
  {
    var rec := RawRecord(g, r);
    forall i, j | 0 <= i < j < |rec| ensures rec[i].0 != rec[j].0 {
      ColumnKeyInjective(i, j);
    }
    FindSpec(rec, ColumnKey(c));
    forall j | 0 <= j < |rec| && j != c ensures rec[j].0 != ColumnKey(c) {
      ColumnKeyInjective(j, c);
    }
    if c < Width(g) {
      assert rec[c].0 == ColumnKey(c);
    }
  }

  /** `df.fillna('').to_dict('records')` */
  function RawRecords(g: Sheet): (rs: seq<seq<(string, string)>>)
    ensures |rs| == |g|
    ensures forall r :: 0 <= r < |g| ==> rs[r] == RawRecord(g, r)
  {
    seq(|g|, r requires 0 <= r => RawRecord(g, r))
  }

  /** `df.empty`: no rows or no columns. */
  predicate IsEmptyFrame(g: Sheet) {
    |g| == 0 || Width(g) == 0
  }
}

=== FILE: legacy_inference.dfy ===
/** The older extractor in `read_build_data.py`: its key/value loop, its
    table detection (every row may head a table, headers are compacted, a
    50-row window), the neighbour context of a cell, and the merge of all
    sheets into the build data. */
module LegacyInference {
  import opened Optionals
  import opened Strings
  import opened OrderedMaps
  import opened Grid
  import opened TableInference
  import Config

  // ------------------------------------------------------ key/value pairs

  /** `extract_key_value_pairs`: the row loop, assigning each surviving pair. */
  method LegacyKeyValuePairs(g: Sheet) returns (kv: Record)
    ensures kv == ExtractKeyValuePairs(g)
  {
    kv := [];
    if Width(g) < 2 {
      return;
    }
    ghost var steps := KvSteps(g);
    var r := 0;
    while r < |g|
      invariant 0 <= r <= |g|
      invariant kv == Update([], Somes(steps[..r]))
    {
      var key := Text(g, r, 0);
      var value := Text(g, r, 1);
      var keyClean := Strip(RemoveChar(key, ':'));
      assert steps[r] == KvEntry(g, r);
      assert steps[r].Some? <==> KvKept(keyClean, value);
      assert steps[r].Some? ==> steps[r].value == (keyClean, value);
      UpdateSomesPrefix(steps, r);
      if KvKept(keyClean, value) {
        kv := Set(kv, keyClean, value);
      }
      r := r + 1;
    }
    assert steps[..r] == steps;
  }

  // ------------------------------------------------------------- tables

  /** Only rows with this many filled cells head a table. */
  const LegacyMinHeaderCells: nat := 3
  /** The data window after a header row. */
  const LegacyDataWindow: nat := 50

  /** The trimmed text of column `c` of row `r`, if it is filled. */
  function HeaderCell(g: Sheet, r: nat, c: nat): Option<string> {
    if Filled(g, r, c) then Some(Text(g, r, c)) else None
  }

  /** The candidate headers of row `r`, one per column. */
  function HeaderCells(g: Sheet, r: nat): (xs: seq<Option<string>>)
    ensures |xs| == Width(g)
  {
    seq(Width(g), c requires 0 <= c => HeaderCell(g, r, c))
  }

  /** The compacted header list: the filled cells' texts, with no placeholder
      for an empty cell. */
  function LegacyHeaders(g: Sheet, r: nat): seq<string> {
    Somes(HeaderCells(g, r))
  }

  /** Somes over a prefix counts exactly the filled cells of that prefix. */
  lemma {:induction false} HeaderCellsCount(g: Sheet, r: nat, n: nat)
    requires n <= Width(g)
    ensures |Somes(HeaderCells(g, r)[..n])| == FilledUpTo(g, r, n)
  {
    if n > 0 {
      var xs := HeaderCells(g, r);
      HeaderCellsCount(g, r, n - 1);
      SomesPrefixSnoc(xs, n - 1);
      assert xs[n - 1] == HeaderCell(g, r, n - 1);
      assert xs[n - 1].Some? <==> Filled(g, r, n - 1);
    }
  }

  /** The compacted headers are the filled cells' trimmed texts in column
      order: there is one per filled cell, each sits at an increasing column,
      and no filled cell is skipped. */
  lemma LegacyHeadersSpec(g: Sheet, r: nat)
    ensures var hs := LegacyHeaders(g, r);
      var ix := SomeIndices(HeaderCells(g, r));
      && |hs| == FilledCount(g, r) == |ix|
      && (forall i :: 0 <= i < |hs| ==> ix[i] < Width(g) && Filled(g, r, ix[i]) && hs[i] == Text(g, r, ix[i]))
      && (forall i, j :: 0 <= i < j < |ix| ==> ix[i] < ix[j])
      && (forall c :: 0 <= c < Width(g) && Filled(g, r, c) ==> exists i :: 0 <= i < |ix| && ix[i] == c)
  {
    var xs := HeaderCells(g, r);
    HeaderCellsCount(g, r, Width(g));
    assert xs[..Width(g)] == xs;
    var ix := SomeIndices(xs);
    forall i | 0 <= i < |ix|
      ensures Filled(g, r, ix[i]) && LegacyHeaders(g, r)[i] == Text(g, r, ix[i])
    {
      assert xs[ix[i]] == HeaderCell(g, r, ix[i]);
    }
    forall c | 0 <= c < Width(g) && Filled(g, r, c)
      ensures exists i :: 0 <= i < |ix| && ix[i] == c
    {
      assert xs[c] == HeaderCell(g, r, c);
      SomeIndicesComplete(xs, c);
    }
  }

  /** The table headed by row `r`, if any: its data rows pair the i-th
      compacted header with grid column i. */
  function LegacyTableAt(g: Sheet, r: nat): Option<Table> {
    if r < |g| && FilledCount(g, r) >= LegacyMinHeaderCells then
      var hs := LegacyHeaders(g, r);
      if |hs| >= 3 then
        var data := ScanRows(g, r + 1, Min(r + LegacyDataWindow, |g|), hs);
        if |data| > 0 then Some(Table(r, hs, data, |data|)) else None
      else None
    else None
  }

  /** What the header loop finds at each row of the sheet. */
  function LegacyCandidates(g: Sheet): (cs: seq<Option<Table>>)
    ensures |cs| == |g|
  {
    seq(|g|, r requires 0 <= r => LegacyTableAt(g, r))
  }

  /** `detect_and_extract_tables` */
  function LegacyTables(g: Sheet): seq<Table> {
    if IsEmptyFrame(g) then [] else Somes(LegacyCandidates(g))
  }

  /** The "at least 3 headers" test never rejects a candidate: a row with
      three filled cells has three compacted headers. */
  lemma LegacyHeaderTestRedundant(g: Sheet, r: nat)
    requires FilledCount(g, r) >= LegacyMinHeaderCells
    ensures |LegacyHeaders(g, r)| >= 3
  {
    LegacyHeadersSpec(g, r);
  }

  /** Which tables the older detector reports: any row of the sheet, not
      just the first 20, heads one exactly when it has at least three filled
      cells and the row below it has data; tables come in row order. */
  lemma LegacyTablesSpec(g: Sheet)
    ensures var ts := LegacyTables(g);
      && (forall i :: 0 <= i < |ts| ==> ts[i].headerRowIndex < |g| && LegacyTableAt(g, ts[i].headerRowIndex) == Some(ts[i]))
      && (forall i, j :: 0 <= i < j < |ts| ==> ts[i].headerRowIndex < ts[j].headerRowIndex)
      && (forall x :: 0 <= x < |g| && LegacyTableAt(g, x).Some? ==> exists i :: 0 <= i < |ts| && ts[i].headerRowIndex == x)
  {
    if !IsEmptyFrame(g) {
      var cs := LegacyCandidates(g);
      forall r | 0 <= r < |cs| && cs[r].Some?
        ensures cs[r].value.headerRowIndex == r
      {
        assert cs[r] == LegacyTableAt(g, r);
      }
      TablesByRow(cs);
      forall x | 0 <= x < |g| && LegacyTableAt(g, x).Some?
        ensures cs[x].Some?
      {
        assert cs[x] == LegacyTableAt(g, x);
      }
    } else {
      forall x | 0 <= x < |g|
        ensures LegacyTableAt(g, x).None?
      {
        assert FilledCount(g, x) == 0;
      }
    }
  }

  /** What every table of the older detector holds: a header row with at
      least three filled cells, its compacted headers, between 1 and 49 data
      rows scanned from the row below it within the 50-row window, and a row
      count equal to the number of rows. */
  lemma LegacyTableShape(g: Sheet, x: nat)
    requires LegacyTableAt(g, x).Some?
    ensures var t := LegacyTableAt(g, x).value;
      && t.headerRowIndex == x && x < |g|
      && FilledCount(g, x) >= LegacyMinHeaderCells
      && t.headers == LegacyHeaders(g, x) && |t.headers| == FilledCount(g, x)
      && 1 <= |t.data| == t.rowCount < LegacyDataWindow
      && x + |t.data| < |g|
      && t.data == ScanRows(g, x + 1, Min(x + LegacyDataWindow, |g|), t.headers)
      && (forall d :: x < d <= x + |t.data| ==> HasData(g, d, t.headers))
      && (x + 1 + |t.data| == Min(x + LegacyDataWindow, |g|) || !HasData(g, x + 1 + |t.data|, t.headers))
  {
    LegacyHeadersSpec(g, x);
    ScanFacts(g, x + 1, Min(x + LegacyDataWindow, |g|), LegacyHeaders(g, x));
  }

  // ---------------------------------------------------------- cell context

  /** The labelled text of a neighbour, as a part list of zero or one
      element. */
  function Neighbour(tag: string, g: Sheet, r: nat, c: nat): (p: seq<string>)
    ensures |p| <= 1
  {
    if Filled(g, r, c) then [tag + ": " + Text(g, r, c)] else []
  }

  /** The parts `find_cell_context` collects, in its order: left, above,
      top-left; neighbours beyond the sheet's first row or column are
      skipped. */
  function ContextParts(g: Sheet, r: nat, c: nat): seq<string> {
    (if c > 0 then Neighbour("Left", g, r, c - 1) else [])
      + (if r > 0 then Neighbour("Above", g, r - 1, c) else [])
      + (if r > 0 && c > 0 then Neighbour("TopLeft", g, r - 1, c - 1) else [])
  }

  /** `find_cell_context` */
  function CellContext(g: Sheet, r: nat, c: nat): string {
    Join(ContextParts(g, r, c), " | ")
  }

  /** The context is empty exactly when no neighbour is filled. */
  lemma CellContextEmpty(g: Sheet, r: nat, c: nat)
    ensures CellContext(g, r, c) == "" <==>
      !(c > 0 && Filled(g, r, c - 1)) && !(r > 0 && Filled(g, r - 1, c)) && !(r > 0 && c > 0 && Filled(g, r - 1, c - 1))
  {
    var ps := ContextParts(g, r, c);
    forall i | 0 <= i < |ps| ensures |ps[i]| > 0 { }
    JoinNonEmpty(ps, " | ");
  }

  /** A filled left neighbour comes first. */
  lemma CellContextLeftFirst(g: Sheet, r: nat, c: nat)
    requires c > 0 && Filled(g, r, c - 1)
    ensures IsPrefix("Left: " + Text(g, r, c - 1), CellContext(g, r, c))
  {
    var ps := ContextParts(g, r, c);
    assert ps[0] == "Left: " + Text(g, r, c - 1);
    JoinPrefix(ps, " | ");
  }

  /** The context lists, joined by ` | `, the filled left neighbour, then
      the filled neighbour above, then the filled top-left one, each
      labelled with its direction. */
  lemma CellContextOrder(g: Sheet, r: nat, c: nat)
    ensures CellContext(g, r, c) == Join(
        (if c > 0 && Filled(g, r, c - 1) then ["Left: " + Text(g, r, c - 1)] else [])
      + (if r > 0 && Filled(g, r - 1, c) then ["Above: " + Text(g, r - 1, c)] else [])
      + (if r > 0 && c > 0 && Filled(g, r - 1, c - 1) then ["TopLeft: " + Text(g, r - 1, c - 1)] else []),
      " | ")
  {
    assert "Left" + ": " == "Left: " && "Above" + ": " == "Above: " && "TopLeft" + ": " == "TopLeft: ";
  }

  /** With all three neighbours filled, the context names all three in the
      order left, above, top-left. */
  lemma CellContextAllFilled(g: Sheet, r: nat, c: nat)
    requires r > 0 && c > 0
    requires Filled(g, r, c - 1) && Filled(g, r - 1, c) && Filled(g, r - 1, c - 1)
    ensures CellContext(g, r, c) ==
      "Left: " + Text(g, r, c - 1) + " | Above: " + Text(g, r - 1, c) + " | TopLeft: " + Text(g, r - 1, c - 1)
  {
    var x, y, z := "Left: " + Text(g, r, c - 1), "Above: " + Text(g, r - 1, c), "TopLeft: " + Text(g, r - 1, c - 1);
    CellContextOrder(g, r, c);
    assert [x] + [y] + [z] == [x, y, z];
    LabelledParts(Text(g, r, c - 1), Text(g, r - 1, c), Text(g, r - 1, c - 1));
  }

  lemma LabelledParts(t1: string, t2: string, t3: string)
    ensures Join(["Left: " + t1, "Above: " + t2, "TopLeft: " + t3], " | ")
      == "Left: " + t1 + " | Above: " + t2 + " | TopLeft: " + t3
  {
    var x, y, z := "Left: " + t1, "Above: " + t2, "TopLeft: " + t3;
    JoinThree(x, y, z, " | ");
    assert " | " + "Above: " == " | Above: " && " | " + "TopLeft: " == " | TopLeft: ";
    assert x + " | " + y == x + " | Above: " + t2;
    assert x + " | " + y + " | " + z == x + " | Above: " + t2 + " | TopLeft: " + t3;
  }

  /** Joining non-empty parts is empty exactly when there are none. */
  lemma JoinNonEmpty(parts: seq<string>, sep: string)
    requires forall i :: 0 <= i < |parts| ==> |parts[i]| > 0
    ensures Join(parts, sep) == "" <==> |parts| == 0
  {
    if |parts| > 0 {
      assert |parts[0]| > 0;
    }
  }

  // ----------------------------------------------------- build data merge

  /** The part of a sheet's stored record the merge reads. */
  datatype SheetInfo = SheetInfo(keyValuePairs: Record, tables: seq<Table>)

  datatype BuildData = BuildData(
    sheetsFound: seq<string>,
    totalSheets: nat,
    fields: OMap<string, string>,
    vmInstances: seq<Record>)

  const VmHeaderKeywords: seq<string> := ["host", "vm", "server", "machine", "instance"]

  /** Some header, lower-cased, contains a VM keyword. */
  predicate LooksLikeVmTable(t: Table) {
    exists h :: h in t.headers && ContainsAny(Lower(h), VmHeaderKeywords)
  }

  /** The key/value pairs of all sheets, later sheets overriding. */
  function MergedOverview(sheets: seq<(string, SheetInfo)>): (m: Record) {
    if |sheets| == 0 then []
    else Update(MergedOverview(sheets[..|sheets| - 1]), sheets[|sheets| - 1].1.keyValuePairs)
  }

  /** The rows of the tables that look like VM tables, in order. */
  function VmRowsOf(tables: seq<Table>): seq<Record> {
    if |tables| == 0 then []
    else
      var t := tables[|tables| - 1];
      VmRowsOf(tables[..|tables| - 1]) + (if |t.data| > 0 && LooksLikeVmTable(t) then t.data else [])
  }

  function VmRows(sheets: seq<(string, SheetInfo)>): seq<Record> {
    if |sheets| == 0 then []
    else VmRows(sheets[..|sheets| - 1]) + VmRowsOf(sheets[|sheets| - 1].1.tables)
  }

  /** The mapped fields after the label-or-default pass over the first `n`
      mapping entries. */
  function MappedFields(overview: Record, mapping: OMap<string, string>, defaults: OMap<string, string>): (f: OMap<string, string>)
  {
    if |mapping| == 0 then []
    else
      var f0 := MappedFields(overview, mapping[..|mapping| - 1], defaults);
      var (excelLabel, field) := mapping[|mapping| - 1];
      if HasKey(overview, excelLabel) then Set(f0, field, GetOr(overview, excelLabel, ""))
      else if HasKey(defaults, field) then Set(f0, field, GetOr(defaults, field, ""))
      else f0
  }

  /** The required-field pass: an absent or empty required field takes its
      default. */
  function EnsureRequired(f: OMap<string, string>, required: seq<string>, defaults: OMap<string, string>): OMap<string, string>
  {
    if |required| == 0 then f
    else
      var f0 := EnsureRequired(f, required[..|required| - 1], defaults);
      var field := required[|required| - 1];
      if GetOr(f0, field, "") == "" && HasKey(defaults, field) then Set(f0, field, GetOr(defaults, field, ""))
      else f0
  }

  /** `process_comprehensive_data` */
  function ProcessComprehensiveData(sheets: seq<(string, SheetInfo)>): BuildData {
    var overview := MergedOverview(sheets);
    var f := MappedFields(overview, Config.ExcelToTerraformMapping, Config.DefaultValues);
    BuildData(Keys(sheets), |sheets|, EnsureRequired(f, Config.RequiredOverviewFields, Config.DefaultValues), VmRows(sheets))
  }

  /** The value of `k` in the last sheet whose pairs write it. */
  function LastSheetValue(sheets: seq<(string, SheetInfo)>, k: string): Option<string> {
    if |sheets| == 0 then None
    else match LastWrite(sheets[|sheets| - 1].1.keyValuePairs, k)
      case Some(v) => Some(v)
      case None => LastSheetValue(sheets[..|sheets| - 1], k)
  }

  /** Later sheets override: a key of the merged pairs reads as its value in
      the last sheet that has it, and is absent when no sheet has it. */
  lemma {:induction false} MergedOverviewGet(sheets: seq<(string, SheetInfo)>, k: string)
    ensures Get(MergedOverview(sheets), k) == LastSheetValue(sheets, k)
  {
    if |sheets| > 0 {
      MergedOverviewGet(sheets[..|sheets| - 1], k);
      UpdateGet(MergedOverview(sheets[..|sheets| - 1]), sheets[|sheets| - 1].1.keyValuePairs, k);
    }
  }

  /** A mapped field reads as the value of its label when the pairs have the
      label, and as its default otherwise, provided no later entry of the
      mapping targets the same field. */
  lemma {:induction false} MappedFieldsGet(overview: Record, mapping: OMap<string, string>, defaults: OMap<string, string>, i: nat)
    requires i < |mapping|
    requires forall j :: i < j < |mapping| ==> mapping[j].1 != mapping[i].1
    ensures Get(MappedFields(overview, mapping, defaults), mapping[i].1) ==
      if HasKey(overview, mapping[i].0) then Get(overview, mapping[i].0)
      else if HasKey(defaults, mapping[i].1) then Get(defaults, mapping[i].1)
      else Get(MappedFields(overview, mapping[..i], defaults), mapping[i].1)
    decreases |mapping|
  {
    var n := |mapping| - 1;
    var init := mapping[..n];
    var f0 := MappedFields(overview, init, defaults);
    var (excelLabel, field) := mapping[n];
    SetGet(f0, field, GetOr(overview, excelLabel, ""), mapping[i].1);
    SetGet(f0, field, GetOr(defaults, field, ""), mapping[i].1);
    if i < n {
      assert init[..i] == mapping[..i];
      MappedFieldsGet(overview, init, defaults, i);
    } else {
      assert init == mapping[..i];
    }
  }

  /** After the required-field pass a listed field reads as its default when
      it was missing or empty (and has a default); any other field keeps its
      value. */
  lemma {:induction false} EnsureRequiredGet(f: OMap<string, string>, required: seq<string>, defaults: OMap<string, string>, k: string)
    requires forall i, j :: 0 <= i < j < |required| ==> required[i] != required[j]
    ensures Get(EnsureRequired(f, required, defaults), k) ==
      if k in required && GetOr(f, k, "") == "" && HasKey(defaults, k) then Get(defaults, k) else Get(f, k)
  {
    if |required| > 0 {
      var init := required[..|required| - 1];
      var field := required[|required| - 1];
      EnsureRequiredGet(f, init, defaults, k);
      EnsureRequiredGet(f, init, defaults, field);
      var f0 := EnsureRequired(f, init, defaults);
      SetGet(f0, field, GetOr(defaults, field, ""), k);
      assert field !in init;
      assert k in required <==> k in init || k == field;
    }
  }

  /** A mapped field with a non-empty default is set after both passes,
      whatever the pairs and the required list are. */
  lemma FieldsSet(overview: Record, mapping: OMap<string, string>, defaults: OMap<string, string>,
                  required: seq<string>, i: nat)
    requires i < |mapping| && GetOr(defaults, mapping[i].1, "") != ""
    requires forall j :: i < j < |mapping| ==> mapping[j].1 != mapping[i].1
    requires forall x, y :: 0 <= x < y < |required| ==> required[x] != required[y]
    ensures HasKey(EnsureRequired(MappedFields(overview, mapping, defaults), required, defaults), mapping[i].1)
  {
    var field := mapping[i].1;
    MappedFieldsGet(overview, mapping, defaults, i);
    var f := MappedFields(overview, mapping, defaults);
    EnsureRequiredGet(f, required, defaults, field);
  }

  /** A required field with a non-empty default is non-empty after the
      required-field pass. */
  lemma RequiredSet(f: OMap<string, string>, required: seq<string>, defaults: OMap<string, string>, k: string)
    requires k in required && GetOr(defaults, k, "") != ""
    requires forall x, y :: 0 <= x < y < |required| ==> required[x] != required[y]
    ensures GetOr(EnsureRequired(f, required, defaults), k, "") != ""
  {
    EnsureRequiredGet(f, required, defaults, k);
  }

  /** Every field of the mapping is set in the build data, from its label or
      its default. */
  lemma ProcessSetsEveryField(sheets: seq<(string, SheetInfo)>, i: nat)
    requires i < |Config.ExcelToTerraformMapping|
    ensures HasKey(ProcessComprehensiveData(sheets).fields, Config.ExcelToTerraformMapping[i].1)
  {
    Config.MappingTargetsDistinct();
    Config.MappingHasDefaults();
    Config.RequiredDistinct();
    FieldsSet(MergedOverview(sheets), Config.ExcelToTerraformMapping, Config.DefaultValues,
      Config.RequiredOverviewFields, i);
  }

  /** The required fields are never empty in the build data. */
  lemma ProcessRequiredNonEmpty(sheets: seq<(string, SheetInfo)>, k: string)
    requires k in Config.RequiredOverviewFields
    ensures GetOr(ProcessComprehensiveData(sheets).fields, k, "") != ""
  {
    Config.RequiredHaveDefaults(k);
    Config.RequiredDistinct();
    var f := MappedFields(MergedOverview(sheets), Config.ExcelToTerraformMapping, Config.DefaultValues);
    RequiredSet(f, Config.RequiredOverviewFields, Config.DefaultValues, k);
  }

  /** The VM rows are exactly the rows of the non-empty tables that look
      like VM tables, sheet by sheet and table by table. */
  lemma {:induction false} VmRowsOfSpec(tables: seq<Table>, row: Record)
    ensures row in VmRowsOf(tables) <==>
      exists t :: t in tables && |t.data| > 0 && LooksLikeVmTable(t) && row in t.data
  {
    if |tables| > 0 {
      var init := tables[..|tables| - 1];
      var t := tables[|tables| - 1];
      VmRowsOfSpec(init, row);
      assert tables == init + [t];
      if row in VmRowsOf(tables) && row !in VmRowsOf(init) {
        assert row in t.data;
      }
    }
  }

  lemma {:induction false} VmRowsSpec(sheets: seq<(string, SheetInfo)>, row: Record)
    ensures row in VmRows(sheets) <==>
      exists i :: 0 <= i < |sheets| && row in VmRowsOf(sheets[i].1.tables)
  {
    if |sheets| > 0 {
      var init := sheets[..|sheets| - 1];
      VmRowsSpec(init, row);
      if row in VmRows(init) {
        var i :| 0 <= i < |init| && row in VmRowsOf(init[i].1.tables);
        assert sheets[i] == init[i];
      }
      if exists i :: 0 <= i < |sheets| && row in VmRowsOf(sheets[i].1.tables) {
        var i :| 0 <= i < |sheets| && row in VmRowsOf(sheets[i].1.tables);
        if i < |init| {
          assert sheets[i] == init[i];
        }
      }
    }
  }
}

=== FILE: optionals.dfy ===
/** Python's `None`-or-value returns (`dict.get`, `re.search`, the `Optional[...]`
    results of the lookups) and raised exceptions as datatypes. */
module Optionals {

  datatype Option<+T> = None | Some(value: T) {

    /** `value if value is not None else default` */
    function GetOr(default: T): T {
      match this
      case Some(v) => v
      case None => default
    }
  }

  /** A value, or the exception a Python call would raise instead. */
  datatype Result<+T> = Ok(value: T) | Error(message: string)

  /** Python's `a or b` on an optional string: `None` and `""` are falsy. */
  predicate Truthy(o: Option<string>) {
    o.Some? && o.value != ""
  }
}

=== FILE: ordered_maps.dfy ===
/** Python's insertion-ordered `dict`: an association list in which each key
    occurs once, where assigning to a present key keeps its position and
    assigning to a new key appends it. Lookups that return "the first key
    that matches" in the source iterate in this order. */
module OrderedMaps {
  import opened Optionals

  type OMap<K, V> = seq<(K, V)>

  function Keys<K, V>(m: OMap<K, V>): (ks: seq<K>)
    ensures |ks| == |m|
    ensures forall i :: 0 <= i < |m| ==> ks[i] == m[i].0
  {
    if |m| == 0 then [] else [m[0].0] + Keys(m[1..])
  }

  /** Every key occurs once, as in a Python dict. */
  predicate UniqueKeys<K(==), V>(m: OMap<K, V>) {
    forall i, j :: 0 <= i < j < |m| ==> m[i].0 != m[j].0
  }

  /** Position of `k` (the first, which for a well-formed map is the only one). */
  function Find<K(==), V>(m: OMap<K, V>, k: K): (r: Option<nat>)
    ensures r.Some? ==> r.value < |m| && m[r.value].0 == k
  {
    if |m| == 0 then None
    else if m[0].0 == k then Some(0)
    else match Find(m[1..], k)
      case None => None
      case Some(i) => Some(i + 1)
  }

  /** `Find` gives the first position holding `k`, and nothing exactly when
      no position holds it. */
  lemma {:induction false} FindSpec<K, V>(m: OMap<K, V>, k: K)
    ensures Find(m, k).Some? ==> forall j :: 0 <= j < Find(m, k).value ==> m[j].0 != k
    ensures Find(m, k).None? <==> forall j :: 0 <= j < |m| ==> m[j].0 != k
  {
    if |m| > 0 && m[0].0 != k {
      FindSpec(m[1..], k);
      assert forall j :: 1 <= j < |m| ==> m[j] == m[1..][j - 1];
    }
  }

  /** `k in d` */
  predicate HasKey<K(==), V>(m: OMap<K, V>, k: K) {
    Find(m, k).Some?
  }

  /** `d.get(k)` */
  function Get<K(==), V>(m: OMap<K, V>, k: K): (r: Option<V>)
    ensures r.Some? <==> HasKey(m, k)
    ensures r.Some? ==> (k, r.value) in m
  {
    match Find(m, k)
    case None => None
    case Some(i) => Some(m[i].1)
  }

  /** `d.get(k, default)` */
  function GetOr<K(==), V>(m: OMap<K, V>, k: K, default: V): V {
    Get(m, k).GetOr(default)
  }

  /** `d[k] = v` */
  function Set<K(==), V>(m: OMap<K, V>, k: K, v: V): OMap<K, V>
  {
    match Find(m, k)
    case Some(i) => m[i := (k, v)]
    case None => m + [(k, v)]
  }

  /** After an assignment the map is non-empty, and each entry is the new
      one or an old one. */
  lemma SetEntries<K, V>(m: OMap<K, V>, k: K, v: V)
    ensures |Set(m, k, v)| > 0
    ensures forall i :: 0 <= i < |Set(m, k, v)| ==> Set(m, k, v)[i] == (k, v) || Set(m, k, v)[i] in m
  {
    match Find(m, k)
    case Some(j) =>
      var r := m[j := (k, v)];
      forall i | 0 <= i < |r| && i != j ensures r[i] in m {
        assert r[i] == m[i];
      }
    case None =>
  }

  /** Assigning to a present key keeps the key order; assigning to a new key
      appends it. */
  lemma SetKeys<K, V>(m: OMap<K, V>, k: K, v: V)
    ensures HasKey(m, k) ==> Keys(Set(m, k, v)) == Keys(m)
    ensures !HasKey(m, k) ==> Keys(Set(m, k, v)) == Keys(m) + [k]
  {
  }

  /** Looking up in a map with one more entry at the end. */
  lemma {:induction false} FindSnoc<K, V>(m: OMap<K, V>, e: (K, V), k: K)
    ensures Find(m + [e], k) ==
      match Find(m, k)
      case Some(i) => Some(i)
      case None => if e.0 == k then Some(|m|) else None
  {
    if |m| > 0 && m[0].0 != k {
      assert (m + [e])[1..] == m[1..] + [e];
      FindSnoc(m[1..], e, k);
    }
  }

  /** Looking up after replacing the value of the entry at `i`. */
  lemma FindReplace<K, V>(m: OMap<K, V>, i: nat, v: V, k: K)
    requires i < |m|
    ensures Find(m[i := (m[i].0, v)], k) == Find(m, k)
  {
    var r := m[i := (m[i].0, v)];
    assert forall j :: 0 <= j < |m| ==> r[j].0 == m[j].0;
    FindSpec(m, k);
    FindSpec(r, k);
    match Find(m, k)
    case Some(x) =>
      assert r[x].0 == k;
    case None =>
  }

  /** After `d[k] = v`, `d[k]` is `v` and every other key reads as before. */
  lemma SetGet<K, V>(m: OMap<K, V>, k: K, v: V, k': K)
    ensures Get(Set(m, k, v), k') == if k' == k then Some(v) else Get(m, k')
  {
    match Find(m, k)
    case Some(i) =>
      FindReplace(m, i, v, k');
      assert m[i].0 == k;
    case None =>
      FindSnoc(m, (k, v), k');
  }

  /** Assignment keeps every key unique. */
  lemma SetUnique<K, V>(m: OMap<K, V>, k: K, v: V)
    requires UniqueKeys(m)
    ensures UniqueKeys(Set(m, k, v))
  {
    FindSpec(m, k);
  }

  /** `d.update(...)` / a loop of `d[k] = v`: applies the writes in order. */
  function Update<K(==), V>(m: OMap<K, V>, writes: seq<(K, V)>): OMap<K, V>
  {
    if |writes| == 0 then m
    else
      var last := writes[|writes| - 1];
      Set(Update(m, writes[..|writes| - 1]), last.0, last.1)
  }

  /** The value the last write to `k` carries, if any write does. */
  function LastWrite<K(==), V>(writes: seq<(K, V)>, k: K): (r: Option<V>)
    ensures r.Some? ==> (k, r.value) in writes
    ensures r.None? <==> k !in Keys(writes)
  {
    if |writes| == 0 then None
    else if writes[|writes| - 1].0 == k then Some(writes[|writes| - 1].1)
    else
      var r := LastWrite(writes[..|writes| - 1], k);
      assert Keys(writes) == Keys(writes[..|writes| - 1]) + [writes[|writes| - 1].0];
      r
  }

  /** Last write wins: after a sequence of writes, a key reads as the last
      value written to it, or as before when nothing was written to it. */
  lemma {:induction false} UpdateGet<K, V>(m: OMap<K, V>, writes: seq<(K, V)>, k: K)
    ensures Get(Update(m, writes), k) ==
      match LastWrite(writes, k)
      case Some(v) => Some(v)
      case None => Get(m, k)
  {
    if |writes| > 0 {
      var init := writes[..|writes| - 1];
      var last := writes[|writes| - 1];
      UpdateGet(m, init, k);
      SetGet(Update(m, init), last.0, last.1, k);
    }
  }

  /** Writes keep every key unique. */
  lemma {:induction false} UpdateUnique<K, V>(m: OMap<K, V>, writes: seq<(K, V)>)
    requires UniqueKeys(m)
    ensures UniqueKeys(Update(m, writes))
  {
    if |writes| > 0 {
      var last := writes[|writes| - 1];
      UpdateUnique(m, writes[..|writes| - 1]);
      SetUnique(Update(m, writes[..|writes| - 1]), last.0, last.1);
    }
  }

  /** After the writes, the keys are exactly the old keys and the written ones. */
  lemma {:induction false} UpdateHasKey<K, V>(m: OMap<K, V>, writes: seq<(K, V)>, k: K)
    ensures HasKey(Update(m, writes), k) <==> HasKey(m, k) || k in Keys(writes)
  {
    UpdateGet(m, writes, k);
  }

  /** The old keys keep their order and the written keys that were new follow
      them: the old key list is a prefix of the new one. */
  lemma {:induction false} UpdateKeysPrefix<K, V>(m: OMap<K, V>, writes: seq<(K, V)>)
    ensures |Keys(m)| <= |Keys(Update(m, writes))|
    ensures Keys(Update(m, writes))[..|m|] == Keys(m)
  {
    if |writes| > 0 {
      var init := writes[..|writes| - 1];
      var last := writes[|writes| - 1];
      UpdateKeysPrefix(m, init);
      SetKeys(Update(m, init), last.0, last.1);
    }
  }

  /** Every entry after the writes is an old entry or one of the writes. */
  lemma {:induction false} UpdateEntries<K, V>(m: OMap<K, V>, writes: seq<(K, V)>)
    ensures forall i :: 0 <= i < |Update(m, writes)| ==> Update(m, writes)[i] in m || Update(m, writes)[i] in writes
  {
    if |writes| > 0 {
      var init := writes[..|writes| - 1];
      var last := writes[|writes| - 1];
      UpdateEntries(m, init);
      var u := Update(m, init);
      var r := Set(u, last.0, last.1);
      forall i | 0 <= i < |r| ensures r[i] in m || r[i] in writes {
        if r[i] != last {
          assert r[i] in u;
          var j :| 0 <= j < |u| && u[j] == r[i];
          assert u[j] in m || u[j] in init;
          if u[j] in init {
            var k :| 0 <= k < |init| && init[k] == u[j];
            assert writes[k] == init[k];
          }
        }
      }
    }
  }

  /** Writing into an empty map leaves it empty exactly when there were no writes. */
  lemma UpdateEmpty<K, V>(writes: seq<(K, V)>)
    ensures |Update([], writes)| == 0 <==> |writes| == 0
  {
    if |writes| > 0 {
      UpdateHasKey([], writes, writes[0].0);
    }
  }

  /** With distinct keys among the writes, each key reads as its own write. */
  lemma {:induction false} LastWriteUnique<K, V>(writes: seq<(K, V)>, i: nat)
    requires UniqueKeys(writes) && i < |writes|
    ensures LastWrite(writes, writes[i].0) == Some(writes[i].1)
  {
    if i < |writes| - 1 {
      var init := writes[..|writes| - 1];
      assert init[i] == writes[i];
      LastWriteUnique(init, i);
    }
  }

  // ------------------------------------------------ conditional writes

  /** The present values, in order: the writes a loop makes when each step
      may or may not assign. */
  function Somes<T>(xs: seq<Option<T>>): (r: seq<T>)
    ensures |r| <= |xs|
  {
    if |xs| == 0 then []
    else
      var init := Somes(xs[..|xs| - 1]);
      match xs[|xs| - 1]
      case Some(x) => init + [x]
      case None => init
  }

  /** Adding one more step appends its value, if it has one. */
  lemma SomesSnoc<T>(xs: seq<Option<T>>, o: Option<T>)
    ensures Somes(xs + [o]) == Somes(xs) + (if o.Some? then [o.value] else [])
  {
    assert (xs + [o])[..|xs|] == xs;
  }

  /** One more conditional step applies its write, if it has one. */
  lemma UpdateSomesSnoc<K, V>(m: OMap<K, V>, xs: seq<Option<(K, V)>>, o: Option<(K, V)>)
    ensures Update(m, Somes(xs + [o])) ==
      if o.Some? then Set(Update(m, Somes(xs)), o.value.0, o.value.1) else Update(m, Somes(xs))
  {
    SomesSnoc(xs, o);
    var w := Somes(xs + [o]);
    if o.Some? {
      assert w[..|w| - 1] == Somes(xs);
    }
  }

  /** The loop form of the above: stepping from prefix `r` to prefix `r + 1`. */
  lemma UpdateSomesPrefix<K, V>(xs: seq<Option<(K, V)>>, r: nat)
    requires r < |xs|
    ensures Update([], Somes(xs[..r + 1])) ==
      if xs[r].Some? then Set(Update([], Somes(xs[..r])), xs[r].value.0, xs[r].value.1) else Update([], Somes(xs[..r]))
  {
    assert xs[..r + 1] == xs[..r] + [xs[r]];
    UpdateSomesSnoc([], xs[..r], xs[r]);
  }

  /** Stepping from prefix `n` to prefix `n + 1`. */
  lemma SomesPrefixSnoc<T>(xs: seq<Option<T>>, n: nat)
    requires n < |xs|
    ensures Somes(xs[..n + 1]) == Somes(xs[..n]) + (if xs[n].Some? then [xs[n].value] else [])
  {
    assert xs[..n + 1] == xs[..n] + [xs[n]];
    SomesSnoc(xs[..n], xs[n]);
  }

  /** Nothing is written exactly when no step has a value. */
  lemma {:induction false} SomesEmpty<T>(xs: seq<Option<T>>)
    ensures |Somes(xs)| == 0 <==> forall j :: 0 <= j < |xs| ==> xs[j].None?
  {
    if |xs| > 0 {
      SomesEmpty(xs[..|xs| - 1]);
      assert forall j :: 0 <= j < |xs| - 1 ==> xs[..|xs| - 1][j] == xs[j];
    }
  }

  /** The last step that writes `k` decides its value. */
  lemma {:induction false} SomesLastWrite<K, V>(xs: seq<Option<(K, V)>>, r: nat, k: K, v: V)
    requires r < |xs| && xs[r] == Some((k, v))
    requires forall x :: r < x < |xs| ==> xs[x].None? || xs[x].value.0 != k
    ensures LastWrite(Somes(xs), k) == Some(v)
  {
    var init := xs[..|xs| - 1];
    var w := Somes(xs);
    if r < |xs| - 1 {
      assert init[r] == xs[r];
      assert forall x :: r < x < |init| ==> init[x] == xs[x];
      SomesLastWrite(init, r, k, v);
      assert xs == init + [xs[|xs| - 1]];
      SomesSnoc(init, xs[|xs| - 1]);
      if xs[|xs| - 1].Some? {
        assert w[..|w| - 1] == Somes(init);
      }
    } else {
      assert xs == init + [xs[|xs| - 1]];
      SomesSnoc(init, xs[|xs| - 1]);
    }
  }

  /** A key no step writes is not written. */
  lemma SomesNoKey<K, V>(xs: seq<Option<(K, V)>>, k: K)
    requires forall x :: 0 <= x < |xs| ==> xs[x].None? || xs[x].value.0 != k
    ensures k !in Keys(Somes(xs))
  {
    var w := Somes(xs);
    var ix := SomeIndices(xs);
    forall i | 0 <= i < |w| ensures w[i].0 != k {
      assert xs[ix[i]] == Some(w[i]);
    }
  }

  /** The positions of the steps that have a value, in order. */
  function SomeIndices<T>(xs: seq<Option<T>>): (ix: seq<nat>)
    ensures |ix| == |Somes(xs)|
    ensures forall i :: 0 <= i < |ix| ==> ix[i] < |xs| && xs[ix[i]] == Some(Somes(xs)[i])
    ensures forall i, j :: 0 <= i < j < |ix| ==> ix[i] < ix[j]
  {
    if |xs| == 0 then []
    else
      var init := xs[..|xs| - 1];
      var ix0 := SomeIndices(init);
      assert forall i :: 0 <= i < |ix0| ==> xs[ix0[i]] == init[ix0[i]];
      if xs[|xs| - 1].Some? then ix0 + [|xs| - 1] else ix0
  }

  /** Two step lists that have values at the same positions have the same
      value positions. */
  lemma {:induction false} SomeIndicesSameShape<A, B>(xs: seq<Option<A>>, ys: seq<Option<B>>)
    requires |xs| == |ys|
    requires forall i :: 0 <= i < |xs| ==> (xs[i].Some? <==> ys[i].Some?)
    ensures SomeIndices(xs) == SomeIndices(ys)
  {
    if |xs| > 0 {
      SomeIndicesSameShape(xs[..|xs| - 1], ys[..|ys| - 1]);
    }
  }

  /** With every step present, the value positions are all positions. */
  lemma {:induction false} SomeIndicesAllPresent<T>(xs: seq<Option<T>>)
    requires forall j :: 0 <= j < |xs| ==> xs[j].Some?
    ensures |SomeIndices(xs)| == |xs|
    ensures forall i :: 0 <= i < |xs| ==> SomeIndices(xs)[i] == i
  {
    if |xs| > 0 {
      SomeIndicesAllPresent(xs[..|xs| - 1]);
    }
  }

  /** Every step that has a value is at one of those positions. */
  lemma {:induction false} SomeIndicesComplete<T>(xs: seq<Option<T>>, j: nat)
    requires j < |xs| && xs[j].Some?
    ensures exists i :: 0 <= i < |SomeIndices(xs)| && SomeIndices(xs)[i] == j
  {
    var init := xs[..|xs| - 1];
    var ix := SomeIndices(xs);
    assert ix == if xs[|xs| - 1].Some? then SomeIndices(init) + [|xs| - 1] else SomeIndices(init);
    if j < |xs| - 1 {
      assert init[j] == xs[j];
      SomeIndicesComplete(init, j);
      var i :| 0 <= i < |SomeIndices(init)| && SomeIndices(init)[i] == j;
      assert ix[i] == j;
    } else {
      assert ix[|ix| - 1] == j;
    }
  }

  /** Writing only entries with a property leaves only entries with it. */
  lemma UpdateSomesAll<K, V>(xs: seq<Option<(K, V)>>, p: ((K, V)) -> bool)
    requires forall j :: 0 <= j < |xs| && xs[j].Some? ==> p(xs[j].value)
    ensures forall i :: 0 <= i < |Update([], Somes(xs))| ==> p(Update([], Somes(xs))[i])
  {
    var w := Somes(xs);
    var u := Update([], w);
    UpdateEntries([], w);
    var ix := SomeIndices(xs);
    forall i | 0 <= i < |u| ensures p(u[i]) {
      assert u[i] in w;
      var j :| 0 <= j < |w| && w[j] == u[i];
      assert xs[ix[j]] == Some(w[j]);
    }
  }

  /** `[f(x) for x in xs]` */
  function MapSeq<A, B>(xs: seq<A>, f: A -> B): (ys: seq<B>)
    ensures |ys| == |xs|
    ensures forall i :: 0 <= i < |xs| ==> ys[i] == f(xs[i])
  {
    if |xs| == 0 then [] else [f(xs[0])] + MapSeq(xs[1..], f)
  }

  lemma MapSeqAppend<A, B>(xs: seq<A>, ys: seq<A>, f: A -> B)
    ensures MapSeq(xs + ys, f) == MapSeq(xs, f) + MapSeq(ys, f)
  {
    var zs := xs + ys;
    forall i | 0 <= i < |zs| ensures MapSeq(zs, f)[i] == (MapSeq(xs, f) + MapSeq(ys, f))[i] {
      if i < |xs| {
        assert zs[i] == xs[i];
      } else {
        assert zs[i] == ys[i - |xs|];
      }
    }
  }

  // ------------------------------------------------------------- first match

  /** The position of the first element with property `p`: what a `for`
      loop that returns on its first hit finds. */
  function FirstIndex<T>(xs: seq<T>, p: T -> bool): (r: Option<nat>)
    ensures r.Some? ==> r.value < |xs| && p(xs[r.value])
  {
    if |xs| == 0 then None
    else if p(xs[0]) then Some(0)
    else match FirstIndex(xs[1..], p)
      case None => None
      case Some(i) => Some(i + 1)
  }

  /** No element before the first hit has the property, and there is no hit
      exactly when no element has it. */
  lemma {:induction false} FirstIndexSpec<T>(xs: seq<T>, p: T -> bool)
    ensures FirstIndex(xs, p).Some? ==> forall j :: 0 <= j < FirstIndex(xs, p).value ==> !p(xs[j])
    ensures FirstIndex(xs, p).None? <==> forall j :: 0 <= j < |xs| ==> !p(xs[j])
  {
    if |xs| > 0 && !p(xs[0]) {
      FirstIndexSpec(xs[1..], p);
      assert forall j :: 1 <= j < |xs| ==> xs[j] == xs[1..][j - 1];
    }
  }

  /** The first element with property `p`, if any. */
  function First<T>(xs: seq<T>, p: T -> bool): (r: Option<T>)
    ensures r.Some? ==> r.value in xs && p(r.value)
  {
    match FirstIndex(xs, p)
    case Some(i) => Some(xs[i])
    case None => None
  }

  /** A hit with no hit before it is the first one. */
  lemma FirstAt<T>(xs: seq<T>, p: T -> bool, i: nat)
    requires i < |xs| && p(xs[i])
    requires forall j :: 0 <= j < i ==> !p(xs[j])
    ensures FirstIndex(xs, p) == Some(i)
    ensures First(xs, p) == Some(xs[i])
  {
    FirstIndexSpec(xs, p);
  }

  /** A map built from optional writes reads, at `k`, the last write to `k`. */
  lemma UpdateSomesGet<K, V>(xs: seq<Option<(K, V)>>, r: nat, k: K, v: V)
    requires r < |xs| && xs[r] == Some((k, v))
    requires forall x :: r < x < |xs| ==> xs[x].None? || xs[x].value.0 != k
    ensures Get(Update([], Somes(xs)), k) == Some(v)
  {
    SomesLastWrite(xs, r, k, v);
    UpdateGet([], Somes(xs), k);
  }

  /** The last write to `k` in the later writes wins over all earlier ones. */
  lemma UpdateSomesGetSuffix<K, V>(xs: seq<Option<(K, V)>>, ys: seq<Option<(K, V)>>, r: nat, k: K, v: V)
    requires r < |ys| && ys[r] == Some((k, v))
    requires forall x :: r < x < |ys| ==> ys[x].None? || ys[x].value.0 != k
    ensures Get(Update([], Somes(xs + ys)), k) == Some(v)
  {
    var zs := xs + ys;
    assert zs[|xs| + r] == ys[r];
    forall x | |xs| + r < x < |zs| ensures zs[x].None? || zs[x].value.0 != k {
      assert zs[x] == ys[x - |xs|];
    }
    UpdateSomesGet(zs, |xs| + r, k, v);
  }

  /** Optional writes into an empty map leave it empty exactly when none
      of them happens. */
  lemma UpdateSomesEmpty<K, V>(xs: seq<Option<(K, V)>>)
    ensures Update([], Somes(xs)) == [] <==> forall j :: 0 <= j < |xs| ==> xs[j].None?
  {
    UpdateEmpty(Somes(xs));
    SomesEmpty(xs);
  }

  /** Every key some step writes is in the map. */
  lemma UpdateSomesHasKey<K, V>(xs: seq<Option<(K, V)>>, r: nat)
    requires r < |xs| && xs[r].Some?
    ensures HasKey(Update([], Somes(xs)), xs[r].value.0)
  {
    SomeIndicesComplete(xs, r);
    var ix := SomeIndices(xs);
    var i :| 0 <= i < |ix| && ix[i] == r;
    assert Keys(Somes(xs))[i] == xs[r].value.0;
    UpdateHasKey([], Somes(xs), xs[r].value.0);
  }

  /** ... and lacks `k` when nothing writes it. */
  lemma UpdateSomesNone<K, V>(xs: seq<Option<(K, V)>>, k: K)
    requires forall x :: 0 <= x < |xs| ==> xs[x].None? || xs[x].value.0 != k
    ensures Get(Update([], Somes(xs)), k) == None
  {
    SomesNoKey(xs, k);
    UpdateGet([], Somes(xs), k);
  }

  // ------------------------------------------------------------ flattening

  /** The lists one after the other. */
  function Concat<T>(xss: seq<seq<T>>): seq<T> {
    if |xss| == 0 then [] else Concat(xss[..|xss| - 1]) + xss[|xss| - 1]
  }

  /** An element of the concatenation is an element of one of the lists,
      and every element of every list is in it. */
  lemma {:induction false} ConcatMember<T>(xss: seq<seq<T>>, x: T)
    ensures x in Concat(xss) <==> exists i :: 0 <= i < |xss| && x in xss[i]
  {
    if |xss| > 0 {
      var init := xss[..|xss| - 1];
      ConcatMember(init, x);
      assert forall i :: 0 <= i < |init| ==> init[i] == xss[i];
      if x in xss[|xss| - 1] {
        assert x in Concat(xss);
      }
    }
  }

  /** The concatenation is empty exactly when every list is. */
  lemma {:induction false} ConcatEmpty<T>(xss: seq<seq<T>>)
    ensures |Concat(xss)| == 0 <==> forall i :: 0 <= i < |xss| ==> |xss[i]| == 0
  {
    if |xss| > 0 {
      var init := xss[..|xss| - 1];
      ConcatEmpty(init);
      assert forall i :: 0 <= i < |init| ==> init[i] == xss[i];
    }
  }

  lemma ConcatSnoc<T>(xss: seq<seq<T>>, xs: seq<T>)
    ensures Concat(xss + [xs]) == Concat(xss) + xs
  {
    assert (xss + [xs])[..|xss|] == xss;
  }

  /** Keys and values paired up, position by position. */
  function Zip<K, V>(ks: seq<K>, vs: seq<V>): (m: OMap<K, V>)
    requires |ks| == |vs|
    ensures |m| == |ks|
  {
    seq(|ks|, i requires 0 <= i < |ks| => (ks[i], vs[i]))
  }

  lemma ZipKeys<K, V>(ks: seq<K>, vs: seq<V>)
    requires |ks| == |vs|
    ensures Keys(Zip(ks, vs)) == ks
  {
  }

  /** The first key reads its own value. */
  lemma ZipGetFirst<K, V>(ks: seq<K>, vs: seq<V>)
    requires |ks| == |vs| && |ks| > 0
    ensures Get(Zip(ks, vs), ks[0]) == Some(vs[0])
  {
    assert Find(Zip(ks, vs), ks[0]) == Some(0);
  }

  // ------------------------------------------------------------- filtering

  /** `{k: v for k, v in d.items() if p(v)}` */
  function FilterValues<K, V>(m: OMap<K, V>, p: V -> bool): (r: OMap<K, V>)
    ensures |r| <= |m|
  {
    if |m| == 0 then []
    else
      var init := FilterValues(m[..|m| - 1], p);
      if p(m[|m| - 1].1) then init + [m[|m| - 1]] else init
  }

  /** Every entry kept has the property and is an entry of the map. */
  lemma {:induction false} FilterValuesAll<K, V>(m: OMap<K, V>, p: V -> bool)
    ensures forall i :: 0 <= i < |FilterValues(m, p)| ==> p(FilterValues(m, p)[i].1) && FilterValues(m, p)[i] in m
  {
    if |m| > 0 {
      var init := m[..|m| - 1];
      FilterValuesAll(init, p);
      assert forall e :: e in init ==> e in m;
    }
  }

  /** In a well-formed map, a key keeps its value when the value has the
      property and disappears otherwise. */
  lemma {:induction false} FilterValuesGet<K, V>(m: OMap<K, V>, p: V -> bool, k: K)
    requires UniqueKeys(m)
    ensures Get(FilterValues(m, p), k) == if Get(m, k).Some? && p(Get(m, k).value) then Get(m, k) else None
  {
    if |m| > 0 {
      var init := m[..|m| - 1];
      var e := m[|m| - 1];
      assert m == init + [e];
      FilterValuesGet(init, p, k);
      FindSnoc(init, e, k);
      FindSpec(init, k);
      var f := FilterValues(init, p);
      if p(e.1) {
        FindSnoc(f, e, k);
        if e.0 == k {
          FilterValuesAll(init, p);
          FindSpec(f, k);
          assert Find(f, k).None? by {
            forall j | 0 <= j < |f| ensures f[j].0 != k {
              var x :| 0 <= x < |init| && init[x] == f[j];
              assert m[x].0 != m[|m| - 1].0;
            }
          }
        }
      }
    }
  }

  /** Every present value has a property all the steps' values have. */
  lemma SomesAll<T>(xs: seq<Option<T>>, p: T -> bool)
    requires forall j :: 0 <= j < |xs| && xs[j].Some? ==> p(xs[j].value)
    ensures forall i :: 0 <= i < |Somes(xs)| ==> p(Somes(xs)[i])
  {
    var ix := SomeIndices(xs);
    forall i | 0 <= i < |Somes(xs)| ensures p(Somes(xs)[i]) {
      assert xs[ix[i]] == Some(Somes(xs)[i]);
    }
  }

  /** With every step present, the values are the steps' values, in order. */
  lemma {:induction false} SomesAllPresent<T>(xs: seq<Option<T>>)
    requires forall j :: 0 <= j < |xs| ==> xs[j].Some?
    ensures |Somes(xs)| == |xs|
    ensures forall i :: 0 <= i < |xs| ==> Somes(xs)[i] == xs[i].value
  {
    if |xs| > 0 {
      SomesAllPresent(xs[..|xs| - 1]);
    }
  }
}

=== FILE: pipeline.dfy ===
/** The pure helpers of the automation pipeline (`automation_pipeline.py`):
    the recursive merge of the user configuration into the defaults, the
    directory-name sanitizer, the search for the subscription in the
    extracted data, and the choice of the output folder's name. */
module Pipeline {
  import opened Optionals
  import opened Strings
  import opened OrderedMaps

  // --------------------------------------------------------- configuration

  /** A value of the JSON configuration file. */
  datatype Json =
    | Null
    | Bool(b: bool)
    | Num(n: int)
    | Str(s: string)
    | Arr(items: seq<Json>)
    | Obj(fields: OMap<string, Json>)

  /** The value `_merge_config` leaves under a user key: two dicts merge,
      anything else is replaced by the user's value. */
  function MergedValue(current: Option<Json>, user: Json): Json
    decreases user, 1, 0
  {
    if current.Some? && current.value.Obj? && user.Obj? then Obj(MergeFrom(current.value.fields, user, 0))
    else user
  }

  /** The loop of `_merge_config` from the `i`-th user entry on, applied to
      `default` in place. */
  function MergeFrom(default: OMap<string, Json>, user: Json, i: nat): OMap<string, Json>
    requires user.Obj? && i <= |user.fields|
    decreases user, 0, |user.fields| - i
  {
    if i == |user.fields| then default
    else
      var k := user.fields[i].0;
      assert user.fields[i] in user.fields;
      MergeFrom(Set(default, k, MergedValue(Get(default, k), user.fields[i].1)), user, i + 1)
  }

  /** `_merge_config(default, user)` */
  function MergeConfig(default: OMap<string, Json>, user: OMap<string, Json>): OMap<string, Json> {
    MergeFrom(default, Obj(user), 0)
  }

  /** A key no remaining user entry names keeps its value. */
  lemma {:induction false} MergeFromOther(default: OMap<string, Json>, user: Json, i: nat, k: string)
    requires user.Obj? && i <= |user.fields|
    requires forall j :: i <= j < |user.fields| ==> user.fields[j].0 != k
    ensures Get(MergeFrom(default, user, i), k) == Get(default, k)
    decreases |user.fields| - i
  {
    if i < |user.fields| {
      var e := user.fields[i];
      var d := Set(default, e.0, MergedValue(Get(default, e.0), e.1));
      SetGet(default, e.0, MergedValue(Get(default, e.0), e.1), k);
      MergeFromOther(d, user, i + 1, k);
    }
  }

  /** With distinct user keys, each remaining user key ends up holding its
      merged value. */
  lemma {:induction false} MergeFromHit(default: OMap<string, Json>, user: Json, i: nat, j: nat)
    requires user.Obj? && UniqueKeys(user.fields) && i <= j < |user.fields|
    ensures Get(MergeFrom(default, user, i), user.fields[j].0) ==
      Some(MergedValue(Get(default, user.fields[j].0), user.fields[j].1))
    decreases j - i
  {
    var e := user.fields[i];
    var k := user.fields[j].0;
    var d := Set(default, e.0, MergedValue(Get(default, e.0), e.1));
    SetGet(default, e.0, MergedValue(Get(default, e.0), e.1), k);
    if i == j {
      MergeFromOther(d, user, i + 1, k);
    } else {
      assert e.0 != k;
      MergeFromHit(d, user, i + 1, j);
    }
  }

  /** A key is in the result exactly when it was in the defaults or a
      remaining user entry names it. */
  lemma {:induction false} MergeFromHasKey(default: OMap<string, Json>, user: Json, i: nat, k: string)
    requires user.Obj? && i <= |user.fields|
    ensures HasKey(MergeFrom(default, user, i), k) <==>
      HasKey(default, k) || exists j :: i <= j < |user.fields| && user.fields[j].0 == k
    decreases |user.fields| - i
  {
    if i < |user.fields| {
      var e := user.fields[i];
      var d := Set(default, e.0, MergedValue(Get(default, e.0), e.1));
      SetGet(default, e.0, MergedValue(Get(default, e.0), e.1), k);
      MergeFromHasKey(d, user, i + 1, k);
      if HasKey(MergeFrom(default, user, i), k) && !HasKey(default, k) {
        if e.0 != k {
          var j :| i + 1 <= j < |user.fields| && user.fields[j].0 == k;
        }
      }
    }
  }

  /** The default keys keep their order; new user keys come after them. */
  lemma {:induction false} MergeFromKeys(default: OMap<string, Json>, user: Json, i: nat)
    requires user.Obj? && i <= |user.fields|
    ensures |default| <= |MergeFrom(default, user, i)|
    ensures Keys(MergeFrom(default, user, i))[..|default|] == Keys(default)
    decreases |user.fields| - i
  {
    if i < |user.fields| {
      var e := user.fields[i];
      var d := Set(default, e.0, MergedValue(Get(default, e.0), e.1));
      SetKeys(default, e.0, MergedValue(Get(default, e.0), e.1));
      MergeFromKeys(d, user, i + 1);
      assert |Keys(d)| == |d|;
      assert Keys(d)[..|default|] == Keys(default);
    }
  }

  /** `_merge_config`: every user key ends up in the configuration, a key only
      the defaults have keeps its value, the default keys keep their order,
      and with distinct user keys each one holds the user's value, or the
      merge of two dicts. */
  lemma MergeConfigSpec(default: OMap<string, Json>, user: OMap<string, Json>)
    ensures forall k :: k in Keys(user) ==> HasKey(MergeConfig(default, user), k)
    ensures forall k :: k !in Keys(user) ==> Get(MergeConfig(default, user), k) == Get(default, k)
    ensures |default| <= |MergeConfig(default, user)|
    ensures Keys(MergeConfig(default, user))[..|default|] == Keys(default)
    ensures UniqueKeys(user) ==> forall j :: 0 <= j < |user| ==>
      Get(MergeConfig(default, user), user[j].0) == Some(MergedValue(Get(default, user[j].0), user[j].1))
  {
    var u := Obj(user);
    forall k | k in Keys(user) ensures HasKey(MergeConfig(default, user), k) {
      var j :| 0 <= j < |user| && Keys(user)[j] == k;
      MergeFromHasKey(default, u, 0, k);
    }
    forall k | k !in Keys(user) ensures Get(MergeConfig(default, user), k) == Get(default, k) {
      assert forall j :: 0 <= j < |user| ==> Keys(user)[j] == user[j].0;
      MergeFromOther(default, u, 0, k);
    }
    MergeFromKeys(default, u, 0);
    if UniqueKeys(user) {
      forall j | 0 <= j < |user|
        ensures Get(MergeConfig(default, user), user[j].0) == Some(MergedValue(Get(default, user[j].0), user[j].1))
      {
        MergeFromHit(default, u, 0, j);
      }
    }
  }

  /** Merging into empty defaults gives back the user's configuration (whose
      keys, as loaded from JSON, are distinct). */
  lemma MergeIntoNothing(user: OMap<string, Json>)
    requires UniqueKeys(user)
    ensures MergeConfig([], user) == user
  {
    MergePrefix(user, 0);
  }

  lemma {:induction false} MergePrefix(user: OMap<string, Json>, i: nat)
    requires UniqueKeys(user) && i <= |user|
    ensures MergeFrom(user[..i], Obj(user), i) == user
    decreases |user| - i
  {
    if i < |user| {
      var k := user[i].0;
      var m := user[..i];
      FindSpec(m, k);
      assert forall j :: 0 <= j < |m| ==> m[j].0 != k;
      assert Get(m, k) == None;
      assert Set(m, k, user[i].1) == user[..i + 1];
      MergePrefix(user, i + 1);
    } else {
      assert user[..i] == user;
    }
  }

  /** Merging no user configuration leaves the defaults as they are. */
  lemma MergeNothing(default: OMap<string, Json>)
    ensures MergeConfig(default, []) == default
  {
  }

  // ----------------------------------------------------- directory names

  predicate IsDirNameChar(c: char) { IsWord(c) || c == '-' }

  function DirNameChar(c: char): (r: char)
    ensures IsDirNameChar(r)
  {
    if IsDirNameChar(c) then c else '_'
  }

  /** The names `_sanitize_directory_name` returns: `\w` and `-` only, no
      `__`, no `_` at either end, 1 to 50 characters. */
  predicate IsCleanDirName(s: string) {
    && 0 < |s| <= 50
    && AllChars(s, IsDirNameChar)
    && NoDouble(s, '_')
    && s[0] != '_' && s[|s| - 1] != '_'
  }

  const UnknownDirName := "unknown"

  lemma UnknownIsClean()
    ensures IsCleanDirName(UnknownDirName)
  {
    assert forall i :: 0 <= i < |UnknownDirName| ==> IsLowerLetter(UnknownDirName[i]);
  }

  /** The steps before the length rule: trim, replace other characters by
      `_`, collapse `_` runs, trim `_`. */
  function DirNameCore(name: string): string {
    StripChar(CollapseRuns(MapSeq(Strip(name), DirNameChar), '_'), '_')
  }

  lemma DirNameCoreShape(name: string)
    ensures var e := DirNameCore(name);
      && AllChars(e, IsDirNameChar) && NoDouble(e, '_')
      && (e == [] || (e[0] != '_' && e[|e| - 1] != '_'))
  {
    var c := MapSeq(Strip(name), DirNameChar);
    var d := CollapseRuns(c, '_');
    CollapseRunsKeeps(c, '_', IsDirNameChar);
    StripCharKeeps(d, '_', '_', IsDirNameChar);
  }

  /** Cutting a well-shaped name to 50 characters and dropping trailing
      underscores leaves a clean name. */
  lemma TruncateDirName(e: string)
    requires |e| > 50 && AllChars(e, IsDirNameChar) && NoDouble(e, '_') && e[0] != '_'
    ensures IsCleanDirName(RStripChar(e[..50], '_'))
  {
    var t := RStripChar(e[..50], '_');
    assert t == e[..|t|];
    SliceKeeps(e, 0, |t|, '_', IsDirNameChar);
  }

  /** `_sanitize_directory_name` */
  function SanitizeDirectoryName(name: string): (r: string)
    ensures IsCleanDirName(r)
    ensures name == "" ==> r == UnknownDirName
  {
    UnknownIsClean();
    if name == "" then UnknownDirName
    else
      var e := DirNameCore(name);
      DirNameCoreShape(name);
      if |e| > 50 then
        TruncateDirName(e);
        var t := RStripChar(e[..50], '_');
        if t == "" then UnknownDirName else t
      else if e == "" then UnknownDirName
      else e
  }

  lemma DirNameCoreOfEmpty()
    ensures DirNameCore("") == ""
  {
    assert Strip("") == "";
    assert MapSeq("", DirNameChar) == "";
  }

  /** A non-empty core of at most 50 characters is the result. */
  lemma SanitizeDirectoryNameShortCore(name: string)
    ensures var e := DirNameCore(name);
      name != "" && e != "" && |e| <= 50 ==> SanitizeDirectoryName(name) == e
  {
  }

  /** A longer core is cut to its first 50 characters, losing at most one
      trailing underscore since the core has no `__`. */
  lemma SanitizeDirectoryNameLongCore(name: string)
    ensures var e := DirNameCore(name); var r := SanitizeDirectoryName(name);
      |e| > 50 ==> r == e[..|r|] && |r| >= 49
  {
    var e := DirNameCore(name);
    if name == "" {
      DirNameCoreOfEmpty();
    } else if |e| > 50 {
      DirNameCoreShape(name);
      CutDirNameCore(e);
    }
  }

  lemma CutDirNameCore(e: string)
    requires |e| > 50 && AllChars(e, IsDirNameChar) && NoDouble(e, '_') && e[0] != '_'
    ensures var t := RStripChar(e[..50], '_'); t == e[..|t|] && |t| >= 49
  {
    SliceKeeps(e, 0, 50, '_', IsDirNameChar);
    RStripCharSingle(e[..50], '_');
  }

  /** Each step before the length rule leaves a clean name as it is. */
  lemma DirNameCoreFixed(s: string)
    requires IsCleanDirName(s)
    ensures DirNameCore(s) == s
  {
    StripNoop(s);
    assert MapSeq(s, DirNameChar) == s;
    CollapseRunsNoop(s, '_');
    StripCharNoop(s, '_');
  }

  /** A name is left as it is exactly when it is already clean. */
  lemma SanitizeDirectoryNameKeepsClean(name: string)
    ensures SanitizeDirectoryName(name) == name <==> IsCleanDirName(name)
  {
    if IsCleanDirName(name) {
      DirNameCoreFixed(name);
    }
  }

  /** Sanitizing twice is sanitizing once. */
  lemma SanitizeDirectoryNameIdempotent(name: string)
    ensures SanitizeDirectoryName(SanitizeDirectoryName(name)) == SanitizeDirectoryName(name)
  {
    DirNameCoreFixed(SanitizeDirectoryName(name));
  }

  // --------------------------------------------------------- subscription

  /** The parts of the loaded JSON data the subscription search reads, each
      already the `{}` or `[]` a missing part stands for:
      `build_environment.key_value_pairs`, `sheets.Resources.key_value_pairs`,
      the `key_value_pairs` of every `comprehensive_data` sheet in order, and
      `vm_instances`. */
  datatype LoadedData = LoadedData(
    buildEnvironmentPairs: OMap<string, string>,
    resourcesPairs: OMap<string, string>,
    sheetPairs: seq<OMap<string, string>>,
    vmInstances: seq<OMap<string, string>>)

  const SubscriptionKeywords: seq<string> := ["subscription", "Subscription", "SUBSCRIPTION"]

  /** A key naming the subscription with a value that is not blank. */
  predicate IsSubscriptionEntry(e: (string, string)) {
    ContainsAny(e.0, SubscriptionKeywords) && Strip(e.1) != ""
  }

  /** The maps in the order the search visits them. */
  function SearchOrder(d: LoadedData): (srcs: seq<OMap<string, string>>)
    ensures |srcs| == 2 + |d.sheetPairs| + |d.vmInstances|
  {
    [d.buildEnvironmentPairs, d.resourcesPairs] + d.sheetPairs + d.vmInstances
  }

  /** The trimmed value of the first subscription entry of one map. */
  function SubscriptionIn(m: OMap<string, string>): (r: Option<string>)
    ensures r.Some? ==> r.value != ""
  {
    match FirstIndex(m, IsSubscriptionEntry)
    case Some(i) => Some(Strip(m[i].1))
    case None => None
  }

  /** The first map that has a subscription entry decides. */
  function SearchMaps(srcs: seq<OMap<string, string>>): Option<string> {
    if |srcs| == 0 then None
    else if SubscriptionIn(srcs[0]).Some? then SubscriptionIn(srcs[0])
    else SearchMaps(srcs[1..])
  }

  /** Entry `e` of map `s` is a subscription entry and the first one in
      search order. */
  predicate FirstSubscriptionAt(srcs: seq<OMap<string, string>>, s: int, e: int) {
    && 0 <= s < |srcs| && 0 <= e < |srcs[s]|
    && IsSubscriptionEntry(srcs[s][e])
    && (forall t, f :: 0 <= t < s && 0 <= f < |srcs[t]| ==> !IsSubscriptionEntry(srcs[t][f]))
    && (forall f :: 0 <= f < e ==> !IsSubscriptionEntry(srcs[s][f]))
  }

  lemma SubscriptionInSpec(m: OMap<string, string>)
    ensures SubscriptionIn(m).None? <==> forall f :: 0 <= f < |m| ==> !IsSubscriptionEntry(m[f])
    ensures SubscriptionIn(m).Some? ==> exists e :: (
      && 0 <= e < |m| && IsSubscriptionEntry(m[e])
      && (forall f :: 0 <= f < e ==> !IsSubscriptionEntry(m[f]))
      && SubscriptionIn(m).value == Strip(m[e].1))
  {
    FirstIndexSpec(m, IsSubscriptionEntry);
  }

  /** No subscription is found exactly when no map has a subscription
      entry; otherwise the result is the trimmed value of the first one in
      search order. */
  lemma SearchMapsSpec(srcs: seq<OMap<string, string>>)
    ensures SearchMaps(srcs).None? <==>
      forall t, f :: 0 <= t < |srcs| && 0 <= f < |srcs[t]| ==> !IsSubscriptionEntry(srcs[t][f])
    ensures SearchMaps(srcs).Some? ==> exists s, e :: (
      && FirstSubscriptionAt(srcs, s, e)
      && SearchMaps(srcs).value == Strip(srcs[s][e].1))
  {
    SearchMapsNone(srcs);
    if SearchMaps(srcs).Some? {
      var s, e := SearchMapsFirst(srcs);
    }
  }

  lemma {:induction false} SearchMapsNone(srcs: seq<OMap<string, string>>)
    ensures SearchMaps(srcs).None? <==>
      forall t, f :: 0 <= t < |srcs| && 0 <= f < |srcs[t]| ==> !IsSubscriptionEntry(srcs[t][f])
  {
    if |srcs| > 0 {
      SubscriptionInSpec(srcs[0]);
      var tail := srcs[1..];
      SearchMapsNone(tail);
      if SubscriptionIn(srcs[0]).None? && SearchMaps(tail).None? {
        forall t, f | 0 <= t < |srcs| && 0 <= f < |srcs[t]| ensures !IsSubscriptionEntry(srcs[t][f]) {
          if t > 0 {
            assert srcs[t] == tail[t - 1];
          }
        }
      }
      if SearchMaps(tail).Some? {
        var t, f :| 0 <= t < |tail| && 0 <= f < |tail[t]| && IsSubscriptionEntry(tail[t][f]);
        assert srcs[t + 1] == tail[t];
      }
    }
  }

  /** Where the search stops: the first subscription entry in search order. */
  lemma {:induction false} SearchMapsFirst(srcs: seq<OMap<string, string>>) returns (s: int, e: int)
    requires SearchMaps(srcs).Some?
    ensures FirstSubscriptionAt(srcs, s, e) && SearchMaps(srcs).value == Strip(srcs[s][e].1)
  {
    SubscriptionInSpec(srcs[0]);
    if SubscriptionIn(srcs[0]).Some? {
      s := 0;
      e :| (
        && 0 <= e < |srcs[0]| && IsSubscriptionEntry(srcs[0][e])
        && (forall f :: 0 <= f < e ==> !IsSubscriptionEntry(srcs[0][f]))
        && SubscriptionIn(srcs[0]).value == Strip(srcs[0][e].1));
    } else {
      var tail := srcs[1..];
      var s', e' := SearchMapsFirst(tail);
      s, e := s' + 1, e';
      assert srcs[s] == tail[s'];
      forall t, f | 0 <= t < s && 0 <= f < |srcs[t]| ensures !IsSubscriptionEntry(srcs[t][f]) {
        if t > 0 {
          assert srcs[t] == tail[t - 1];
        }
      }
    }
  }

  /** `_extract_subscription_from_json` after the JSON is loaded: the
      nested loops over the maps in search order and their entries. */
  method ExtractSubscription(d: LoadedData) returns (r: Option<string>)
    ensures r == SearchMaps(SearchOrder(d))
    ensures r.Some? ==> r.value != "" && r.value == Strip(r.value)
  {
    var srcs := SearchOrder(d);
    var s := 0;
    while s < |srcs|
      invariant 0 <= s <= |srcs|
      invariant SearchMaps(srcs) == SearchMaps(srcs[s..])
    {
      var m := srcs[s];
      var e := 0;
      while e < |m|
        invariant 0 <= e <= |m|
        invariant forall f :: 0 <= f < e ==> !IsSubscriptionEntry(m[f])
      {
        if IsSubscriptionEntry(m[e]) {
          SearchMapsHit(srcs[s..], e);
          r := Some(Strip(m[e].1));
          StripTwice(m[e].1);
          return;
        }
        e := e + 1;
      }
      SearchMapsSkip(srcs[s..]);
      assert srcs[s..][1..] == srcs[s + 1..];
      s := s + 1;
    }
    r := None;
  }

  /** A map whose entry `e` is its first subscription entry stops the
      search there. */
  lemma SearchMapsHit(srcs: seq<OMap<string, string>>, e: nat)
    requires |srcs| > 0 && e < |srcs[0]| && IsSubscriptionEntry(srcs[0][e])
    requires forall f :: 0 <= f < e ==> !IsSubscriptionEntry(srcs[0][f])
    ensures SearchMaps(srcs) == Some(Strip(srcs[0][e].1))
  {
    FirstAt(srcs[0], IsSubscriptionEntry, e);
  }

  /** A map without a subscription entry passes the search on. */
  lemma SearchMapsSkip(srcs: seq<OMap<string, string>>)
    requires |srcs| > 0 && forall f :: 0 <= f < |srcs[0]| ==> !IsSubscriptionEntry(srcs[0][f])
    ensures SearchMaps(srcs) == SearchMaps(srcs[1..])
  {
    FirstIndexSpec(srcs[0], IsSubscriptionEntry);
  }

  /** A trimmed string trims to itself. */
  lemma StripTwice(s: string)
    ensures Strip(Strip(s)) == Strip(s)
  {
    StripShape(s);
    StripNoop(Strip(s));
  }

  // --------------------------------------------------------- output folder

  /** `os.path.join(a, b)` on POSIX paths. */
  function PathJoin(a: string, b: string): string {
    if |b| > 0 && b[0] == '/' then b
    else if a == "" || a[|a| - 1] == '/' then a + b
    else a + "/" + b
  }

  /** The position of the last `c` in `s`. */
  function LastIndexOf(s: string, c: char): (r: Option<nat>)
    ensures r.Some? ==> r.value < |s| && s[r.value] == c
    ensures r.Some? ==> forall i :: r.value < i < |s| ==> s[i] != c
    ensures r.None? ==> forall i :: 0 <= i < |s| ==> s[i] != c
  {
    if |s| == 0 then None
    else if s[|s| - 1] == c then Some(|s| - 1)
    else LastIndexOf(s[..|s| - 1], c)
  }

  /** `os.path.basename`: what follows the last `/`. */
  function BaseName(path: string): (r: string)
    ensures '/' !in r
    ensures |r| <= |path| && path == path[..|path| - |r|] + r
    ensures |r| < |path| ==> path[|path| - |r| - 1] == '/'
  {
    match LastIndexOf(path, '/')
    case Some(i) => path[i + 1..]
    case None => path
  }

  /** `os.path.splitext(name)[0]`: the name without its last extension; a
      dot with only dots before it starts no extension. */
  function StemOf(name: string): (r: string)
    ensures |r| <= |name| && r == name[..|r|]
    ensures |r| < |name| ==> name[|r|] == '.' && '.' !in name[|r| + 1..]
    ensures |r| < |name| ==> exists j :: 0 <= j < |r| && name[j] != '.'
    ensures |r| < |name| <==> exists i, j :: 0 <= j < i < |name| && name[j] != '.' && name[i] == '.'
  {
    match LastIndexOf(name, '.')
    case Some(i) => if exists j :: 0 <= j < i && name[j] != '.' then name[..i] else name
    case None => name
  }

  /** A pre-parsed `str.format` pattern: literal text and `{name}` fields. */
  datatype Piece = Literal(text: string) | Field(name: string)

  /** `pattern.format(**bindings)`: a field nobody binds raises `KeyError`. */
  function Format(pattern: seq<Piece>, bindings: OMap<string, string>): (r: Result<string>)
    ensures r.Error? <==> exists i :: 0 <= i < |pattern| && pattern[i].Field? && !HasKey(bindings, pattern[i].name)
  {
    if |pattern| == 0 then Ok("")
    else
      var head := match pattern[0]
        case Literal(t) => Ok(t)
        case Field(n) => if HasKey(bindings, n) then Ok(Get(bindings, n).value) else Error("KeyError: " + n);
      var rest := Format(pattern[1..], bindings);
      if head.Error? then head
      else if rest.Error? then rest
      else
        assert forall i :: 1 <= i < |pattern| ==> pattern[i] == pattern[1..][i - 1];
        Ok(head.value + rest.value)
  }

  /** `'{subscription}_{timestamp}'` */
  const SubscriptionPattern: seq<Piece> := [Field("subscription"), Literal("_"), Field("timestamp")]

  /** `'{excel_filename}_{timestamp}'` */
  const FilenamePattern: seq<Piece> := [Field("excel_filename"), Literal("_"), Field("timestamp")]

  /** The `output` settings the choice reads, with the defaults of `.get`
      already applied. */
  datatype OutputSettings = OutputSettings(
    terraformDir: string,
    dynamicFolderNaming: bool,
    folderNamingPattern: seq<Piece>,
    fallbackFolderNaming: seq<Piece>)

  /** `_create_dynamic_output_directory`: the subscription is the search
      result (`None` when the JSON could not be loaded) and the timestamp
      `datetime.now().strftime('%Y%m%d_%H%M%S')` is a parameter. */
  function OutputDirectory(cfg: OutputSettings, subscription: Option<string>, excelFile: string, timestamp: string): Result<string> {
    var base := StemOf(BaseName(excelFile));
    if !cfg.dynamicFolderNaming then
      Ok(PathJoin(cfg.terraformDir, base + "_terraform"))
    else
      var name :=
        if subscription.Some? && subscription.value != "" then
          Format(cfg.folderNamingPattern, [("subscription", SanitizeDirectoryName(subscription.value)), ("timestamp", timestamp)])
        else
          Format(cfg.fallbackFolderNaming, [("excel_filename", SanitizeDirectoryName(base)), ("timestamp", timestamp)]);
      match name
      case Ok(n) => Ok(PathJoin(cfg.terraformDir, n))
      case Error(m) => Error(m)
  }

  predicate IsTimestampChar(c: char) { IsDigit(c) || c == '_' }

  /** With dynamic naming off, the folder is `<terraform_dir>/<stem>_terraform`
      whatever the data and the clock say. */
  lemma OutputDirectoryLegacy(cfg: OutputSettings, sub: Option<string>, sub': Option<string>, excelFile: string, ts: string, ts': string)
    requires !cfg.dynamicFolderNaming
    ensures OutputDirectory(cfg, sub, excelFile, ts) == OutputDirectory(cfg, sub', excelFile, ts')
    ensures OutputDirectory(cfg, sub, excelFile, ts) == Ok(PathJoin(cfg.terraformDir, StemOf(BaseName(excelFile)) + "_terraform"))
  {
  }

  /** A two-field pattern with both fields bound fills them in. */
  lemma FormatTwoFields(f: string, g: string, sep: string, a: string, b: string)
    requires f != g
    ensures Format([Field(f), Literal(sep), Field(g)], [(f, a), (g, b)]) == Ok(a + sep + b)
  {
    var bs := [(f, a), (g, b)];
    assert Get(bs, f) == Some(a);
    assert bs[1..] == [(g, b)] && Find(bs[1..], g) == Some(0);
    assert Get(bs, g) == Some(b);
    var p := [Field(f), Literal(sep), Field(g)];
    assert p[1..][1..] == [Field(g)];
    assert p[1..][1..][1..] == [];
    assert Format(p[1..][1..], bs) == Ok(b + "");
    assert Format(p[1..], bs) == Ok(sep + (b + ""));
    assert a + (sep + (b + "")) == a + sep + b;
  }

  /** A sanitized name followed by `_` and a timestamp is one directory
      name, with no `/` in it. */
  lemma NoSlash(name: string, ts: string)
    requires IsCleanDirName(name) && AllChars(ts, IsTimestampChar)
    ensures '/' !in name + "_" + ts
  {
    var last := name + "_" + ts;
    forall i | 0 <= i < |last| ensures last[i] != '/' {
      if i < |name| {
        assert IsDirNameChar(name[i]);
      } else if i > |name| {
        assert IsTimestampChar(ts[i - |name| - 1]);
      }
    }
  }

  /** With the default patterns and a subscription, the folder is
      `<terraform_dir>/<sanitized subscription>_<timestamp>`; without one, it
      is `<terraform_dir>/<sanitized stem>_<timestamp>`. In both cases the
      last component is a single directory name. */
  lemma OutputDirectoryDefaults(dir: string, sub: Option<string>, excelFile: string, ts: string)
    requires AllChars(ts, IsTimestampChar)
    ensures var cfg := OutputSettings(dir, true, SubscriptionPattern, FilenamePattern);
      var name := if sub.Some? && sub.value != "" then SanitizeDirectoryName(sub.value) else SanitizeDirectoryName(StemOf(BaseName(excelFile)));
      && OutputDirectory(cfg, sub, excelFile, ts) == Ok(PathJoin(dir, name + "_" + ts))
      && '/' !in name + "_" + ts
  {
    var name := if sub.Some? && sub.value != "" then SanitizeDirectoryName(sub.value) else SanitizeDirectoryName(StemOf(BaseName(excelFile)));
    if sub.Some? && sub.value != "" {
      FormatTwoFields("subscription", "timestamp", "_", name, ts);
    } else {
      FormatTwoFields("excel_filename", "timestamp", "_", name, ts);
    }
    NoSlash(name, ts);
  }

  /** The folder joined onto a directory without a trailing `/` sits directly
      under it. */
  lemma PathJoinUnder(dir: string, name: string)
    requires dir != "" && dir[|dir| - 1] != '/' && name != "" && name[0] != '/'
    ensures PathJoin(dir, name) == dir + "/" + name
  {
  }
}

=== FILE: record_synthesizer.dfy ===
/** The pure part of `get_terraform_ready_data` and
    `_create_vm_instances_from_config` (`data_accessor.py`): the records the
    generators consume, synthesised from the stored extraction. */
module RecordSynthesizer {
  import opened Optionals
  import opened Strings
  import opened OrderedMaps
  import opened TableInference
  import opened FieldResolver

  // --------------------------------------------------------- project info

  /** Lower-case search key -> project field, in the order they are tried. */
  const ProjectMapping: seq<(string, string)> := [
    ("project name", "project_name"),
    ("abbreviated app name", "application_name"),
    ("application description", "app_description"),
    ("cag architect", "architect"),
    ("server owner", "server_owner"),
    ("application owner", "app_owner"),
    ("business owner", "business_owner"),
    ("service now ticket", "service_now_ticket"),
    ("application name", "cmdb_app_name"),
    ("environment", "environment"),
    ("choose node size", "vm_size"),
    ("os image", "os_image"),
    ("os", "os_image"),
    ("role", "role"),
    ("patch optin", "patch_optin")
  ]

  predicate IsProjectField(f: string) {
    exists j :: 0 <= j < |ProjectMapping| && ProjectMapping[j].1 == f
  }

  /** The first search key contained in the lower-cased field name. */
  function ProjectTarget(key: string): Option<(string, string)> {
    First(ProjectMapping, (m: (string, string)) => Contains(Lower(key), m.0))
  }

  function ProjectStep(e: (string, string)): Option<(string, string)> {
    match ProjectTarget(e.0)
    case Some(m) => Some((m.1, e.1))
    case None => None
  }

  function ProjectSteps(actual: Record): (xs: seq<Option<(string, string)>>)
    ensures |xs| == |actual|
  {
    seq(|actual|, i requires 0 <= i < |actual| => ProjectStep(actual[i]))
  }

  /** `terraform_data['project_info']` */
  function ProjectInfo(actual: Record): Record {
    Update([], Somes(ProjectSteps(actual)))
  }

  /** A field name is mapped by the first search key it contains, in the
      order of the mapping, and not at all when it contains none. */
  lemma ProjectTargetSpec(key: string)
    ensures var r := FirstIndex(ProjectMapping, (m: (string, string)) => Contains(Lower(key), m.0));
      && (r.None? <==> forall j :: 0 <= j < |ProjectMapping| ==> !Contains(Lower(key), ProjectMapping[j].0))
      && (r.Some? ==>
            && ProjectTarget(key) == Some(ProjectMapping[r.value]) && Contains(Lower(key), ProjectMapping[r.value].0)
            && forall j :: 0 <= j < r.value ==> !Contains(Lower(key), ProjectMapping[j].0))
  {
    FirstIndexSpec(ProjectMapping, (m: (string, string)) => Contains(Lower(key), m.0));
  }

  /** Only the fifteen project fields are set, each to some actual value. */
  lemma ProjectInfoFields(actual: Record)
    ensures var info := ProjectInfo(actual);
      forall i :: 0 <= i < |info| ==> IsProjectField(info[i].0) && exists j :: 0 <= j < |actual| && actual[j].1 == info[i].1
  {
    var xs := ProjectSteps(actual);
    forall j | 0 <= j < |xs| && xs[j].Some?
      ensures IsProjectField(xs[j].value.0) && exists a :: 0 <= a < |actual| && actual[a].1 == xs[j].value.1
    {
      var m := ProjectTarget(actual[j].0).value;
      var k :| 0 <= k < |ProjectMapping| && ProjectMapping[k] == m;
    }
    UpdateSomesAll(xs, (e: (string, string)) => IsProjectField(e.0) && exists a :: 0 <= a < |actual| && actual[a].1 == e.1);
  }

  /** The last actual value mapped to a project field is the one kept. */
  lemma ProjectInfoLastWins(actual: Record, j: nat, field: string)
    requires j < |actual|
    ensures ProjectStep(actual[j]) == Some((field, actual[j].1))
      && (forall x :: j < x < |actual| ==> ProjectStep(actual[x]).None? || ProjectStep(actual[x]).value.0 != field)
      ==> Get(ProjectInfo(actual), field) == Some(actual[j].1)
  {
    if ProjectStep(actual[j]) == Some((field, actual[j].1))
      && forall x :: j < x < |actual| ==> ProjectStep(actual[x]).None? || ProjectStep(actual[x]).value.0 != field
    {
      UpdateSomesGet(ProjectSteps(actual), j, field, actual[j].1);
    }
  }

  // ------------------------------------------------------- VM detection

  const VmKeywords: seq<string> :=
    ["hostname", "vm", "server", "machine", "instance", "node", "compute", "sku", "recommended sku"]

  const VmDataKeywords: seq<string> := ["owner", "recommended", "os", "disk", "image"]

  /** Some header mentions a VM keyword. */
  predicate HasVmHeader(t: Table) {
    exists h :: 0 <= h < |t.headers| && ContainsAny(Lower(t.headers[h]), VmKeywords)
  }

  /** Some field of the first row mentions a VM data keyword. */
  predicate HasVmData(t: Table) {
    |t.data| > 0 && exists i :: 0 <= i < |t.data[0]| && ContainsAny(Lower(t.data[0][i].0), VmDataKeywords)
  }

  /** A Resources table read as a VM table. */
  predicate IsVmTable(t: Table) {
    (HasVmHeader(t) || HasVmData(t)) && |t.headers| >= 5 && |t.data| > 0
  }

  /** The entries of a row whose value is not blank. */
  function NonBlankSteps(row: Record): (xs: seq<Option<(string, string)>>)
    ensures |xs| == |row|
  {
    seq(|row|, i requires 0 <= i < |row| => if Strip(row[i].1) != "" then Some(row[i]) else None)
  }

  /** `{k: v for k, v in row.items() if v and str(v).strip()}` as a sequence
      of assignments. */
  function NonBlank(row: Record): Record {
    Update([], Somes(NonBlankSteps(row)))
  }

  /** Every kept entry is an entry of the row with a non-blank value. */
  lemma NonBlankShape(row: Record)
    ensures forall i :: 0 <= i < |NonBlank(row)| ==> NonBlank(row)[i] in row && Strip(NonBlank(row)[i].1) != ""
  {
    UpdateSomesAll(NonBlankSteps(row), (e: (string, string)) => e in row && Strip(e.1) != "");
  }

  /** With distinct keys, a non-blank entry is kept as it is and a key with
      no non-blank entry is dropped. */
  lemma NonBlankGet(row: Record, k: string)
    requires UniqueKeys(row)
    ensures Get(NonBlank(row), k) == match Get(row, k)
      case Some(v) => if Strip(v) != "" then Some(v) else None
      case None => None
  {
    var xs := NonBlankSteps(row);
    FindSpec(row, k);
    match Find(row, k)
    case Some(i) =>
      forall x | i < x < |xs| ensures xs[x].None? || xs[x].value.0 != k {
        assert row[x].0 != row[i].0;
      }
      if Strip(row[i].1) != "" {
        UpdateSomesGet(xs, i, k, row[i].1);
      } else {
        forall x | 0 <= x < |xs| ensures xs[x].None? || xs[x].value.0 != k {
          if x != i {
            assert row[x].0 != row[i].0;
          }
        }
        UpdateSomesNone(xs, k);
      }
    case None =>
      UpdateSomesNone(xs, k);
  }

  /** The records with at least 3 entries, in order. */
  function AtLeastThree(vs: seq<Record>): seq<Record> {
    if |vs| == 0 then []
    else AtLeastThree(vs[..|vs| - 1]) + (if |vs[|vs| - 1]| >= 3 then [vs[|vs| - 1]] else [])
  }

  lemma {:induction false} AtLeastThreeMember(vs: seq<Record>, v: Record)
    ensures v in AtLeastThree(vs) <==> v in vs && |v| >= 3
  {
    if |vs| > 0 {
      var init := vs[..|vs| - 1];
      AtLeastThreeMember(init, v);
      assert vs == init + [vs[|vs| - 1]];
    }
  }

  /** The VM rows of one table: the non-blank part of each row, kept when it
      has at least 3 entries. */
  function RichRows(rows: seq<Record>): seq<Record> {
    AtLeastThree(NonBlankRows(rows))
  }

  function NonBlankRows(rows: seq<Record>): (vs: seq<Record>)
    ensures |vs| == |rows|
    ensures forall i :: 0 <= i < |rows| ==> vs[i] == NonBlank(rows[i])
  {
    seq(|rows|, i requires 0 <= i < |rows| => NonBlank(rows[i]))
  }

  lemma RichRowsMember(rows: seq<Record>, v: Record)
    ensures v in RichRows(rows) <==> exists j :: 0 <= j < |rows| && v == NonBlank(rows[j]) && |v| >= 3
  {
    var vs := NonBlankRows(rows);
    AtLeastThreeMember(vs, v);
    if v in vs {
      var j :| 0 <= j < |vs| && vs[j] == v;
      assert v == NonBlank(rows[j]);
    }
    if j :| 0 <= j < |rows| && v == NonBlank(rows[j]) && |v| >= 3 {
      assert vs[j] == v;
    }
  }

  function VmRowsOf(t: Table): seq<Record> {
    if IsVmTable(t) then RichRows(t.data) else []
  }

  /** A table contributes the rich rows of its data exactly when it is a VM
      table. */
  lemma VmRowsOfMember(t: Table, v: Record)
    ensures v in VmRowsOf(t) <==> IsVmTable(t) && exists j :: 0 <= j < |t.data| && v == NonBlank(t.data[j]) && |v| >= 3
  {
    RichRowsMember(t.data, v);
  }

  function VmRowsPerTable(tables: seq<Table>): (xss: seq<seq<Record>>)
    ensures |xss| == |tables|
    ensures forall i :: 0 <= i < |tables| ==> xss[i] == VmRowsOf(tables[i])
  {
    seq(|tables|, i requires 0 <= i < |tables| => VmRowsOf(tables[i]))
  }

  /** The VM instances read from the Resources tables, table by table. */
  function VmInstances(tables: seq<Table>): seq<Record> {
    Concat(VmRowsPerTable(tables))
  }

  /** An instance comes from one of the tables, as described by
      `VmRowsOfMember`, and every row of every table that qualifies there is
      an instance. */
  lemma VmInstancesMember(tables: seq<Table>, v: Record)
    ensures v in VmInstances(tables) <==> exists i :: 0 <= i < |tables| && v in VmRowsOf(tables[i])
  {
    ConcatMember(VmRowsPerTable(tables), v);
  }

  // ----------------------------------------------------- VM fallback

  const CountSubjects: seq<string> := ["vm", "server", "instance"]
  const CountWords: seq<string> := ["count", "number", "total"]

  predicate IsCountKey(key: string) {
    ContainsAny(Lower(key), CountSubjects) && ContainsAny(Lower(key), CountWords)
  }

  /** A count field whose value `int()` accepts. */
  predicate IsCountEntry(e: (string, string)) {
    IsCountKey(e.0) && ParseInt(e.1).Some?
  }

  /** The requested VM count: the first count field whose value parses, or 2. */
  function VmCount(actual: Record): int {
    match FirstIndex(actual, IsCountEntry)
    case Some(i) => ParseInt(actual[i].1).value
    case None => 2
  }

  /** The count is 2 when no count field parses, and otherwise the value of
      the first one that does; fields that do not parse are passed over. */
  lemma VmCountSpec(actual: Record)
    ensures FirstIndex(actual, IsCountEntry).None? <==> forall i :: 0 <= i < |actual| ==> !IsCountEntry(actual[i])
    ensures FirstIndex(actual, IsCountEntry).None? ==> VmCount(actual) == 2
    ensures FirstIndex(actual, IsCountEntry).Some? ==>
      var i := FirstIndex(actual, IsCountEntry).value;
      && IsCountKey(actual[i].0) && Some(VmCount(actual)) == ParseInt(actual[i].1)
      && forall j :: 0 <= j < i ==> !IsCountEntry(actual[j])
  {
    FirstIndexSpec(actual, IsCountEntry);
  }

  /** The keys every synthesised instance has, in order. */
  const FallbackKeys: seq<string> := [
    "Hostname", "Recommended SKU", "OS Image*", "Environment", "Server Owner",
    "Application Owner", "Business Owner", "Project Name", "Application Name",
    "Service Now Ticket", "Role", "Patch Optin", "Private IP Address Allocation",
    "OS disk size", "OS disk type", "Data disk sizes", "Data disk type"
  ]

  function AppName(actual: Record): string {
    GetOr(actual, "Abbreviated App Name", "myapp")
  }

  /** `f"{app_name}-{i+1:02d}"` */
  function FallbackHostname(app: string, i: nat): string {
    app + "-" + ZeroPad(i + 1, 2)
  }

  /** The values of the `i`-th synthesised instance, key by key: the actual
      value of the matching field or its default. */
  function FallbackValues(actual: Record, i: nat): (vs: seq<string>)
    ensures |vs| == |FallbackKeys|
  {
    var app := AppName(actual);
    [
      FallbackHostname(app, i),
      GetOr(actual, "Choose Node Size", "Standard_D2s_v3"),
      GetOr(actual, "OS", "Ubuntu 22.04 LTS"),
      GetOr(actual, "Environment", "dev"),
      GetOr(actual, "Server Owner", "TBD"),
      GetOr(actual, "Application Owner", "TBD"),
      GetOr(actual, "Business Owner", "TBD"),
      GetOr(actual, "Project Name", "project1"),
      app,
      GetOr(actual, "Service Now Ticket", "TBD"),
      GetOr(actual, "Role", "web-server"),
      GetOr(actual, "Patch Optin", "yes"),
      GetOr(actual, "Private IP Address Allocation", "Dynamic"),
      GetOr(actual, "OS disk size", "30"),
      GetOr(actual, "OS disk type", "Premium_LRS"),
      GetOr(actual, "Data disk sizes", ""),
      GetOr(actual, "Data disk type", "Premium_LRS")
    ]
  }

  /** The `i`-th synthesised instance. */
  function FallbackVm(actual: Record, i: nat): Record {
    Zip(FallbackKeys, FallbackValues(actual, i))
  }

  /** `_create_vm_instances_from_config`: `range(vm_count)` instances. */
  function FallbackVms(actual: Record): (vms: seq<Record>)
    ensures |vms| == if VmCount(actual) > 0 then VmCount(actual) else 0
  {
    var n := VmCount(actual);
    seq(if n > 0 then n else 0, i requires 0 <= i => FallbackVm(actual, i))
  }

  /** Every synthesised instance has the same seventeen keys and its own
      host name: `<app>-01`, `<app>-02`, ... are pairwise different. */
  lemma FallbackVmsShape(actual: Record)
    ensures forall i :: 0 <= i < |FallbackVms(actual)| ==> Keys(FallbackVms(actual)[i]) == FallbackKeys
    ensures forall i :: 0 <= i < |FallbackVms(actual)| ==>
      Get(FallbackVms(actual)[i], "Hostname") == Some(FallbackHostname(AppName(actual), i))
    ensures forall i, j :: 0 <= i < j < |FallbackVms(actual)| ==>
      Get(FallbackVms(actual)[i], "Hostname") != Get(FallbackVms(actual)[j], "Hostname")
  {
    var vms := FallbackVms(actual);
    var app := AppName(actual);
    forall i | 0 <= i < |vms|
      ensures Keys(vms[i]) == FallbackKeys
      ensures Get(vms[i], "Hostname") == Some(FallbackHostname(app, i))
    {
      ZipKeys(FallbackKeys, FallbackValues(actual, i));
      ZipGetFirst(FallbackKeys, FallbackValues(actual, i));
    }
    forall i, j | 0 <= i < j < |vms|
      ensures Get(vms[i], "Hostname") != Get(vms[j], "Hostname")
    {
      ZeroPadInjective(i + 1, j + 1, 2);
      var a := FallbackHostname(app, i);
      var b := FallbackHostname(app, j);
      assert a[|app| + 1..] == ZeroPad(i + 1, 2);
      assert b[|app| + 1..] == ZeroPad(j + 1, 2);
    }
  }

  /** Two host names, once the application name is given; the count comes
      from the first count field that parses. */
  lemma FallbackVmsDefault(actual: Record)
    requires forall i :: 0 <= i < |actual| ==> !IsCountEntry(actual[i])
    ensures |FallbackVms(actual)| == 2
  {
    VmCountSpec(actual);
  }

  // ----------------------------------------------- rows, NSG, options

  /** The non-empty rows, in order. */
  function NonEmpty(rows: seq<Record>): seq<Record> {
    if |rows| == 0 then []
    else NonEmpty(rows[..|rows| - 1]) + (if |rows[|rows| - 1]| > 0 then [rows[|rows| - 1]] else [])
  }

  lemma {:induction false} NonEmptyMember(rows: seq<Record>, r: Record)
    ensures r in NonEmpty(rows) <==> r in rows && |r| > 0
  {
    if |rows| > 0 {
      var init := rows[..|rows| - 1];
      NonEmptyMember(init, r);
      assert rows == init + [rows[|rows| - 1]];
    }
  }

  /** Nothing is dropped when no row is empty. */
  lemma {:induction false} NonEmptyNoop(rows: seq<Record>)
    requires forall i :: 0 <= i < |rows| ==> |rows[i]| > 0
    ensures NonEmpty(rows) == rows
  {
    if |rows| > 0 {
      NonEmptyNoop(rows[..|rows| - 1]);
    }
  }

  function NonEmptyPerTable(tables: seq<Table>): (xss: seq<seq<Record>>)
    ensures |xss| == |tables|
    ensures forall i :: 0 <= i < |tables| ==> xss[i] == NonEmpty(tables[i].data)
  {
    seq(|tables|, i requires 0 <= i < |tables| => NonEmpty(tables[i].data))
  }

  function DataPerTable(tables: seq<Table>): (xss: seq<seq<Record>>)
    ensures |xss| == |tables|
    ensures forall i :: 0 <= i < |tables| ==> xss[i] == tables[i].data
  {
    seq(|tables|, i requires 0 <= i < |tables| => tables[i].data)
  }

  /** Every non-empty row of every table, table by table: the collection
      used for `security_groups` and for `resource_options`. */
  function TableRowsNonEmpty(tables: seq<Table>): seq<Record> {
    Concat(NonEmptyPerTable(tables))
  }

  /** A collected rule is a non-empty row of one of the tables, and every
      such row is collected. */
  lemma TableRowsNonEmptyMember(tables: seq<Table>, r: Record)
    ensures r in TableRowsNonEmpty(tables) <==> |r| > 0 && exists i :: 0 <= i < |tables| && r in tables[i].data
  {
    ConcatMember(NonEmptyPerTable(tables), r);
    forall i | 0 <= i < |tables| {
      NonEmptyMember(tables[i].data, r);
    }
  }

  /** Without empty rows the collection is the plain concatenation. */
  lemma TableRowsNonEmptyAll(tables: seq<Table>)
    requires forall i, j :: 0 <= i < |tables| && 0 <= j < |tables[i].data| ==> |tables[i].data[j]| > 0
    ensures TableRowsNonEmpty(tables) == Concat(DataPerTable(tables))
  {
    forall i | 0 <= i < |tables| ensures NonEmptyPerTable(tables)[i] == DataPerTable(tables)[i] {
      NonEmptyNoop(tables[i].data);
    }
    assert NonEmptyPerTable(tables) == DataPerTable(tables);
  }

  // ----------------------------------------- gateway and registry config

  /** Non-blank table fields, the last one winning, overwritten by the
      sheet's key/value pairs (`apgw_data.update(kv)`). */
  function CombineConfig(tables: seq<Table>, kv: Record): Record {
    Update(NonBlank(Concat(TableRows(tables))), kv)
  }

  /** The key/value pairs win; a key they lack reads as the last non-blank
      table field of that name. */
  lemma CombineConfigGet(tables: seq<Table>, kv: Record, k: string)
    requires UniqueKeys(kv)
    ensures HasKey(kv, k) ==> Get(CombineConfig(tables, kv), k) == Get(kv, k)
    ensures !HasKey(kv, k) ==> Get(CombineConfig(tables, kv), k) == Get(NonBlank(Concat(TableRows(tables))), k)
  {
    UpdateGet(NonBlank(Concat(TableRows(tables))), kv, k);
    if HasKey(kv, k) {
      var i := Find(kv, k).value;
      LastWriteUnique(kv, i);
    } else {
      FindSpec(kv, k);
      assert k !in Keys(kv);
    }
  }

  // --------------------------------------------------- naming patterns

  /** The six categories, in the order the `if`/`elif` chain tests them. */
  const NamingCategories: seq<string> := [
    "Resource_Group", "Subnet", "Network_Security_Group",
    "Application_Gateway", "Azure_Container_Registry", "Storage_Account"
  ]

  /** The first category the field name contains (case-sensitive). */
  function Category(key: string): Option<string> {
    First(NamingCategories, (c: string) => Contains(key, c))
  }

  function NamingStep(e: (string, string)): Option<(string, string)> {
    if Strip(e.1) != "" then
      match Category(e.0)
      case Some(c) => Some((c, e.1))
      case None => None
    else None
  }

  function NamingSteps(entries: Record): (xs: seq<Option<(string, string)>>)
    ensures |xs| == |entries|
  {
    MapSeq(entries, NamingStep)
  }

  /** `naming_patterns`: the fields of the Resource Options rows, then its
      key/value pairs, each written under its category. */
  function NamingPatterns(options: seq<Record>, kv: Record): Record {
    Update([], Somes(NamingSteps(Concat(options) + kv)))
  }

  /** Only the six categories appear, each with a non-blank value. */
  lemma NamingPatternsShape(options: seq<Record>, kv: Record)
    ensures var np := NamingPatterns(options, kv);
      forall i :: 0 <= i < |np| ==> np[i].0 in NamingCategories && Strip(np[i].1) != ""
  {
    UpdateSomesAll(NamingSteps(Concat(options) + kv), (e: (string, string)) => e.0 in NamingCategories && Strip(e.1) != "");
  }

  /** A key/value pair overrides every table field of the same category:
      the last pair of a category gives its pattern. */
  lemma NamingPatternsKvWins(options: seq<Record>, kv: Record, j: nat, c: string)
    requires j < |kv| && NamingStep(kv[j]) == Some((c, kv[j].1))
    requires forall x :: j < x < |kv| ==> NamingStep(kv[x]).None? || NamingStep(kv[x]).value.0 != c
    ensures Get(NamingPatterns(options, kv), c) == Some(kv[j].1)
  {
    MapSeqAppend(Concat(options), kv, NamingStep);
    UpdateSomesGetSuffix(NamingSteps(Concat(options)), NamingSteps(kv), j, c, kv[j].1);
  }

  /** A category the key/value pairs never name keeps the last table field
      that named it. */
  lemma NamingPatternsFromRows(options: seq<Record>, kv: Record, j: nat, c: string)
    requires j < |Concat(options)| && NamingStep(Concat(options)[j]) == Some((c, Concat(options)[j].1))
    requires forall x :: j < x < |Concat(options)| ==> NamingStep(Concat(options)[x]).None? || NamingStep(Concat(options)[x]).value.0 != c
    requires forall x :: 0 <= x < |kv| ==> NamingStep(kv[x]).None? || NamingStep(kv[x]).value.0 != c
    ensures Get(NamingPatterns(options, kv), c) == Some(Concat(options)[j].1)
  {
    var rows := Concat(options);
    var entries := rows + kv;
    var xs := NamingSteps(entries);
    forall x | j < x < |xs| ensures xs[x].None? || xs[x].value.0 != c {
      if x < |rows| {
        assert entries[x] == rows[x];
      } else {
        assert entries[x] == kv[x - |rows|];
      }
    }
    assert entries[j] == rows[j];
    UpdateSomesGet(xs, j, c, rows[j].1);
  }

  // ------------------------------------------------------------ assembly

  /** `terraform_data['build_environment']` */
  datatype BuildEnvironment = BuildEnvironment(keyValuePairs: Record, rawKeyValuePairs: Record, tables: seq<Table>)

  /** The dictionary `get_terraform_ready_data` returns; `networking` is
      always empty and is not represented. */
  datatype TerraformData = TerraformData(
    projectInfo: Record,
    vmInstances: seq<Record>,
    securityGroups: seq<Record>,
    applicationGateway: Record,
    containerRegistry: Record,
    resourceOptions: seq<Record>,
    buildEnvironment: BuildEnvironment,
    namingPatterns: Record,
    comprehensiveData: Sheets)

  /** `get_terraform_ready_data` */
  function TerraformReady(sheets: Sheets): TerraformData {
    var actual := ActualValues(sheets, "Resources", 1);
    var vms := VmInstances(SheetOf(sheets, "Resources").tables);
    var options := TableRowsNonEmpty(SheetOf(sheets, "Resource Options").tables);
    TerraformData(
      ProjectInfo(actual),
      if |vms| > 0 then vms else FallbackVms(actual),
      TableRowsNonEmpty(SheetOf(sheets, "NSG").tables),
      CombineConfig(SheetOf(sheets, "APGW").tables, SheetOf(sheets, "APGW").keyValuePairs),
      CombineConfig(SheetOf(sheets, "ACR NRS").tables, SheetOf(sheets, "ACR NRS").keyValuePairs),
      options,
      BuildEnvironment(ActualValues(sheets, "Build_ENV", 2), SheetOf(sheets, "Build_ENV").keyValuePairs,
        SheetOf(sheets, "Build_ENV").tables),
      NamingPatterns(options, SheetOf(sheets, "Resource Options").keyValuePairs),
      sheets)
  }

  /** The VM list is never empty unless the fallback is asked for no
      instances: it is the table VMs when there are any, else the
      synthesised ones. */
  lemma TerraformReadyVms(sheets: Sheets)
    ensures var d := TerraformReady(sheets);
      var vms := VmInstances(SheetOf(sheets, "Resources").tables);
      var actual := ActualValues(sheets, "Resources", 1);
      && (|vms| > 0 ==> d.vmInstances == vms)
      && (|vms| == 0 ==> |d.vmInstances| == if VmCount(actual) > 0 then VmCount(actual) else 0)
      && (|d.vmInstances| == 0 <==> |vms| == 0 && VmCount(actual) <= 0)
  {
  }
}

=== FILE: sorted_strings.dfy ===
/** Python's ordering of `str` values (code point by code point, a proper
    prefix first) and the duplicate-free sorted list `sorted(set(...))`
    builds, grown one insertion at a time. */
module SortedStrings {

  /** `a < b` on strings. */
  predicate Below(a: string, b: string)
    decreases |a|
  {
    if |a| == 0 then |b| > 0
    else if |b| == 0 then false
    else if a[0] != b[0] then a[0] < b[0]
    else Below(a[1..], b[1..])
  }

  lemma {:induction false} BelowIrreflexive(a: string)
    ensures !Below(a, a)
    decreases |a|
  {
    if |a| > 0 {
      BelowIrreflexive(a[1..]);
    }
  }

  lemma {:induction false} BelowTransitive(a: string, b: string, c: string)
    requires Below(a, b) && Below(b, c)
    ensures Below(a, c)
    decreases |a|
  {
    if |a| > 0 && a[0] == b[0] && b[0] == c[0] {
      BelowTransitive(a[1..], b[1..], c[1..]);
    }
  }

  /** Two different strings are ordered one way or the other. */
  lemma {:induction false} BelowTotal(a: string, b: string)
    requires a != b
    ensures Below(a, b) || Below(b, a)
    decreases |a|
  {
    if |a| > 0 && |b| > 0 && a[0] == b[0] {
      assert a == [a[0]] + a[1..] && b == [b[0]] + b[1..];
      BelowTotal(a[1..], b[1..]);
    }
  }

  lemma BelowAsymmetric(a: string, b: string)
    requires Below(a, b)
    ensures !Below(b, a)
  {
    if Below(b, a) {
      BelowTransitive(a, b, a);
      BelowIrreflexive(a);
    }
  }

  /** Strictly increasing, hence without duplicates. */
  predicate Sorted(xs: seq<string>) {
    forall i, j :: 0 <= i < j < |xs| ==> Below(xs[i], xs[j])
  }

  /** Adds `x` to a sorted list at its place, unless it is already there. */
  function Insert(x: string, xs: seq<string>): seq<string> {
    if |xs| == 0 then [x]
    else if x == xs[0] then xs
    else if Below(x, xs[0]) then [x] + xs
    else [xs[0]] + Insert(x, xs[1..])
  }

  /** Insertion keeps the list sorted and adds exactly `x`. */
  lemma {:induction false} InsertSpec(x: string, xs: seq<string>)
    requires Sorted(xs)
    ensures Sorted(Insert(x, xs))
    ensures forall y :: y in Insert(x, xs) <==> y == x || y in xs
  {
    if |xs| > 0 && x != xs[0] {
      if Below(x, xs[0]) {
        var r := [x] + xs;
        forall i, j | 0 <= i < j < |r| ensures Below(r[i], r[j]) {
          if i == 0 && j > 1 {
            BelowTransitive(x, xs[0], xs[j - 1]);
          }
        }
      } else {
        BelowTotal(x, xs[0]);
        var tail := xs[1..];
        assert Sorted(tail);
        InsertSpec(x, tail);
        var ins := Insert(x, tail);
        var r := [xs[0]] + ins;
        forall k | 0 <= k < |ins| ensures Below(xs[0], ins[k]) {
          assert ins[k] in ins;
          if ins[k] != x {
            var m :| 0 <= m < |tail| && tail[m] == ins[k];
            assert xs[m + 1] == tail[m];
          }
        }
        forall i, j | 0 <= i < j < |r| ensures Below(r[i], r[j]) {
          if i > 0 {
            assert r[i] == ins[i - 1] && r[j] == ins[j - 1];
          }
        }
        assert xs == [xs[0]] + tail;
      }
    }
  }

  lemma SameMembersEmpty<T>(xs: seq<T>, ys: seq<T>)
    requires forall z :: z in xs <==> z in ys
    ensures |xs| == 0 <==> |ys| == 0
  {
    if |xs| > 0 {
      assert xs[0] in ys;
    }
    if |ys| > 0 {
      assert ys[0] in xs;
    }
  }

  /** A sorted list is determined by its elements. */
  lemma {:induction false} SortedUnique(xs: seq<string>, ys: seq<string>)
    requires Sorted(xs) && Sorted(ys)
    requires forall z :: z in xs <==> z in ys
    ensures xs == ys
  {
    SameMembersEmpty(xs, ys);
    if |xs| > 0 && |ys| > 0 {
      assert ys[0] in xs && xs[0] in ys;
      var i :| 0 <= i < |xs| && xs[i] == ys[0];
      var j :| 0 <= j < |ys| && ys[j] == xs[0];
      if i > 0 && j > 0 {
        BelowAsymmetric(xs[0], xs[i]);
        assert false;
      }
      var xt := xs[1..];
      var yt := ys[1..];
      forall z ensures z in xt <==> z in yt {
        if z in xt {
          var i :| 0 <= i < |xt| && xt[i] == z;
          assert Below(xs[0], xs[i + 1]);
          BelowIrreflexive(z);
          assert z in ys;
        }
        if z in yt {
          var i :| 0 <= i < |yt| && yt[i] == z;
          assert Below(ys[0], ys[i + 1]);
          BelowIrreflexive(z);
          assert z in xs;
        }
      }
      SortedUnique(xt, yt);
      assert xs == [xs[0]] + xt && ys == [ys[0]] + yt;
    }
  }
}

=== FILE: strings.dfy ===
/** The handful of Python `str` operations the pipeline is built from, on ASCII:
    `strip`, `lower`, `replace`, `split`, `join`, `in`, `startswith`, the
    `\d+` search, `int(...)` and zero-padded formatting of a count. */
module Strings {
  import opened Optionals
  import OrderedMaps

  /** `str.isspace()` on ASCII: the space, `\t \n \v \f \r` and the
      separators 0x1C..0x1F. */
  predicate IsSpace(c: char) {
    c == ' ' || ('\t' <= c <= '\r') || ('\U{1C}' <= c <= '\U{1F}')
  }

  predicate IsDigit(c: char) { '0' <= c <= '9' }

  predicate IsUpper(c: char) { 'A' <= c <= 'Z' }

  predicate IsLowerLetter(c: char) { 'a' <= c <= 'z' }

  /** `str.isalpha()` on ASCII. */
  predicate IsAlpha(c: char) { IsUpper(c) || IsLowerLetter(c) }

  /** The regular-expression class `\w` on ASCII. */
  predicate IsWord(c: char) { IsAlpha(c) || IsDigit(c) || c == '_' }

  predicate AllChars(s: string, p: char -> bool) {
    forall i :: 0 <= i < |s| ==> p(s[i])
  }

  predicate AllDigits(s: string) { forall i :: 0 <= i < |s| ==> IsDigit(s[i]) }

  predicate NoUpper(s: string) { forall i :: 0 <= i < |s| ==> !IsUpper(s[i]) }

  /** No two consecutive `c` characters. */
  predicate NoDouble(s: string, c: char) {
    forall i :: 0 <= i && i + 1 < |s| ==> !(s[i] == c && s[i + 1] == c)
  }

  /** `r` occurs in `s` at position `lo`. */
  predicate SliceAt(r: string, s: string, lo: int) {
    0 <= lo && lo + |r| <= |s| && r == s[lo..lo + |r|]
  }

  /** A slice of a string keeps every character-class and no-double property. */
  lemma SliceKeeps(s: string, lo: nat, hi: nat, c: char, p: char -> bool)
    requires lo <= hi <= |s|
    requires AllChars(s, p) && NoDouble(s, c)
    ensures AllChars(s[lo..hi], p) && NoDouble(s[lo..hi], c)
  {
    var t := s[lo..hi];
    forall i | 0 <= i && i + 1 < |t|
      ensures !(t[i] == c && t[i + 1] == c)
    {
      assert t[i] == s[lo + i] && t[i + 1] == s[lo + i + 1];
    }
  }

  // ---------------------------------------------------------------- stripping

  /** The number of blanks `s` starts with. */
  function LeadingBlanks(s: string): (n: nat)
    ensures n <= |s|
    ensures n == |s| || !IsSpace(s[n])
  {
    if |s| == 0 || !IsSpace(s[0]) then 0 else 1 + LeadingBlanks(s[1..])
  }

  lemma {:induction false} LeadingBlanksAreBlank(s: string, i: nat)
    requires i < LeadingBlanks(s)
    ensures IsSpace(s[i])
  {
    if i > 0 {
      LeadingBlanksAreBlank(s[1..], i - 1);
    }
  }

  /** The number of blanks `s` ends with. */
  function TrailingBlanks(s: string): (n: nat)
    ensures n <= |s|
    ensures n == |s| || !IsSpace(s[|s| - 1 - n])
  {
    if |s| == 0 || !IsSpace(s[|s| - 1]) then 0 else 1 + TrailingBlanks(s[..|s| - 1])
  }

  lemma {:induction false} TrailingBlanksAreBlank(s: string, i: nat)
    requires |s| - TrailingBlanks(s) <= i < |s|
    ensures IsSpace(s[i])
  {
    if i < |s| - 1 {
      TrailingBlanksAreBlank(s[..|s| - 1], i);
    }
  }

  /** `s.strip()`: the slice between the leading and the trailing blanks. */
  function Strip(s: string): (r: string)
    ensures |r| <= |s|
    ensures r == [] <==> LeadingBlanks(s) == |s|
  {
    var a := LeadingBlanks(s);
    if a == |s| then []
    else
      var b := TrailingBlanks(s);
      if |s| - b <= a then
        TrailingBlanksAreBlank(s, a);
        assert false;
        []
      else
        s[a..|s| - b]
  }

  /** `s.lstrip(c)` for a single character `c`. */
  function LStripChar(s: string, c: char): (r: string)
    ensures |r| <= |s| && r == s[|s| - |r|..]
    ensures forall i :: 0 <= i < |s| - |r| ==> s[i] == c
    ensures r == [] || r[0] != c
  {
    if |s| > 0 && s[0] == c then LStripChar(s[1..], c) else s
  }

  /** `s.rstrip(c)` for a single character `c`. */
  function RStripChar(s: string, c: char): (r: string)
    ensures |r| <= |s| && r == s[..|r|]
    ensures forall i :: |r| <= i < |s| ==> s[i] == c
    ensures r == [] || r[|r| - 1] != c
  {
    if |s| > 0 && s[|s| - 1] == c then RStripChar(s[..|s| - 1], c) else s
  }

  /** In a string with no doubled `c`, stripping trailing `c` removes at
      most one character. */
  lemma RStripCharSingle(s: string, c: char)
    requires NoDouble(s, c)
    ensures |RStripChar(s, c)| + 1 >= |s|
  {
  }

  /** `s.strip(c)` for a single character `c`. */
  function StripChar(s: string, c: char): (r: string)
    ensures r == [] || (r[0] != c && r[|r| - 1] != c)
    ensures exists lo :: SliceAt(r, s, lo)
  {
    var a := LStripChar(s, c);
    var r := RStripChar(a, c);
    assert SliceAt(r, s, |s| - |a|);
    r
  }

  /** Stripping a character keeps a character class and the no-double shape. */
  lemma StripCharKeeps(s: string, c: char, d: char, p: char -> bool)
    requires AllChars(s, p) && NoDouble(s, d)
    ensures AllChars(StripChar(s, c), p) && NoDouble(StripChar(s, c), d)
  {
    var r := StripChar(s, c);
    var lo :| SliceAt(r, s, lo);
    SliceKeeps(s, lo, lo + |r|, d, p);
  }

  /** A string made only of `c` strips to nothing. */
  lemma StripCharAll(s: string, c: char)
    requires forall i :: 0 <= i < |s| ==> s[i] == c
    ensures StripChar(s, c) == []
  {
    assert LStripChar(s, c) == [];
  }

  /** `strip()` leaves no blank at either end, and what it leaves is the
      slice of `s` that starts after the leading blanks. */
  lemma StripShape(s: string)
    ensures var r := Strip(s);
      && (r == [] || (!IsSpace(r[0]) && !IsSpace(r[|r| - 1])))
      && SliceAt(r, s, LeadingBlanks(s))
  {
    StripEnds(s);
    if LeadingBlanks(s) < |s| {
      StripSlice(s);
    }
  }

  lemma StripEnds(s: string)
    ensures var r := Strip(s);
      r == [] || (!IsSpace(r[0]) && !IsSpace(r[|r| - 1]))
  {
    var a := LeadingBlanks(s);
    if a < |s| {
      var b := TrailingBlanks(s);
      StripSlice(s);
      assert Strip(s)[0] == s[a];
      assert Strip(s)[|Strip(s)| - 1] == s[|s| - 1 - b];
    }
  }

  /** A non-empty `strip()` is the slice between the blank ends. */
  lemma StripSlice(s: string)
    requires LeadingBlanks(s) < |s|
    ensures LeadingBlanks(s) < |s| - TrailingBlanks(s)
    ensures Strip(s) == s[LeadingBlanks(s)..|s| - TrailingBlanks(s)]
  {
    BlankEndsApart(s);
  }

  lemma BlankEndsApart(s: string)
    requires LeadingBlanks(s) < |s|
    ensures LeadingBlanks(s) < |s| - TrailingBlanks(s)
  {
    var a := LeadingBlanks(s);
    if |s| - TrailingBlanks(s) <= a {
      TrailingBlanksAreBlank(s, a);
    }
  }

  /** A string with no blank at either end is its own `strip()`. */
  lemma StripNoop(s: string)
    requires s == [] || (!IsSpace(s[0]) && !IsSpace(s[|s| - 1]))
    ensures Strip(s) == s
  {
    if |s| > 0 {
      assert LeadingBlanks(s) == 0;
      assert TrailingBlanks(s) == 0;
    }
  }

  lemma StripCharNoop(s: string, c: char)
    requires s == [] || (s[0] != c && s[|s| - 1] != c)
    ensures StripChar(s, c) == s
  {
  }

  // ---------------------------------------------------------- char-wise maps

  /** Keeps the characters satisfying `p`, in order. */
  function Filter(s: string, p: char -> bool): (r: string)
    ensures |r| <= |s|
    ensures forall i :: 0 <= i < |r| ==> p(r[i])
    ensures forall i :: 0 <= i < |r| ==> r[i] in s
  {
    if |s| == 0 then []
    else if p(s[0]) then [s[0]] + Filter(s[1..], p)
    else Filter(s[1..], p)
  }

  lemma {:induction false} FilterAppend(a: string, b: string, p: char -> bool)
    ensures Filter(a + b, p) == Filter(a, p) + Filter(b, p)
  {
    if |a| > 0 {
      assert (a + b)[0] == a[0] && (a + b)[1..] == a[1..] + b;
      FilterAppend(a[1..], b, p);
    } else {
      assert a + b == b;
    }
  }

  lemma FilterNoop(s: string, p: char -> bool)
    requires forall i :: 0 <= i < |s| ==> p(s[i])
    ensures Filter(s, p) == s
  {
  }

  function LowerChar(c: char): (r: char)
    ensures !IsUpper(r)
  {
    if IsUpper(c) then (c as int + 32) as char else c
  }

  /** `s.lower()` on ASCII letters. */
  function Lower(s: string): (r: string)
    ensures |r| == |s| && NoUpper(r)
  {
    OrderedMaps.MapSeq(s, LowerChar)
  }

  lemma LowerNoop(s: string)
    requires NoUpper(s)
    ensures Lower(s) == s
  {
  }

  /** Lower-casing works character by character, so it distributes over
      concatenation. */
  lemma LowerAppend(a: string, b: string)
    ensures Lower(a + b) == Lower(a) + Lower(b)
  {
    assert forall i :: 0 <= i < |a + b| ==> Lower(a + b)[i] == (Lower(a) + Lower(b))[i];
  }

  /** Lower-casing neither adds nor removes a character that is not a letter. */
  lemma LowerKeeps(s: string, c: char)
    requires !IsAlpha(c)
    ensures c in Lower(s) <==> c in s
  {
    if c in s {
      var i :| 0 <= i < |s| && s[i] == c;
      assert Lower(s)[i] == c;
    }
    if c in Lower(s) {
      var i :| 0 <= i < |s| && Lower(s)[i] == c;
      assert s[i] == c;
    }
  }

  /** `s.replace(a, b)` for single characters. */
  function ReplaceChar(s: string, a: char, b: char): (r: string)
    ensures |r| == |s|
    ensures forall i :: 0 <= i < |s| ==> r[i] == if s[i] == a then b else s[i]
    ensures a != b ==> a !in r
  {
    OrderedMaps.MapSeq(s, x => if x == a then b else x)
  }

  lemma ReplaceCharNoop(s: string, a: char, b: char)
    requires a !in s
    ensures ReplaceChar(s, a, b) == s
  {
  }

  function NotChar(c: char): char -> bool {
    x => x != c
  }

  /** `s.replace(c, '')` */
  function RemoveChar(s: string, c: char): (r: string)
    ensures c !in r && |r| <= |s|
  {
    Filter(s, NotChar(c))
  }

  lemma RemoveCharNoop(s: string, c: char)
    requires c !in s
    ensures RemoveChar(s, c) == s
  {
    FilterNoop(s, NotChar(c));
  }

  /** Lower-casing and dropping blanks can be done in either order. */
  lemma {:induction false} LowerRemoveSpace(s: string)
    ensures Lower(RemoveChar(s, ' ')) == RemoveChar(Lower(s), ' ')
  {
    if |s| > 0 {
      var h, t := [s[0]], s[1..];
      assert s == h + t;
      LowerRemoveSpace(t);
      RemoveCharAppend(h, t, ' ');
      LowerAppend(h, t);
      LowerAppend(RemoveChar(h, ' '), RemoveChar(t, ' '));
      RemoveCharAppend(Lower(h), Lower(t), ' ');
      assert Lower(h) == [LowerChar(s[0])];
    }
  }

  /** Dropping a character twice is dropping it once. */
  lemma RemoveCharTwice(s: string, c: char)
    ensures RemoveChar(RemoveChar(s, c), c) == RemoveChar(s, c)
  {
    RemoveCharNoop(RemoveChar(s, c), c);
  }

  lemma RemoveCharAppend(a: string, b: string, c: char)
    ensures RemoveChar(a + b, c) == RemoveChar(a, c) + RemoveChar(b, c)
  {
    FilterAppend(a, b, NotChar(c));
  }

  /** `re.sub(c + '+', c, s)`: every run of `c` becomes a single `c`. */
  function CollapseRuns(s: string, c: char): (r: string)
    ensures |r| <= |s|
    ensures forall i :: 0 <= i < |r| ==> r[i] in s
    ensures NoDouble(r, c)
    ensures |s| > 0 ==> |r| > 0 && r[0] == s[0] && r[|r| - 1] == s[|s| - 1]
  {
    if |s| <= 1 then s
    else if s[0] == c && s[1] == c then CollapseRuns(s[1..], c)
    else [s[0]] + CollapseRuns(s[1..], c)
  }

  /** Collapsing runs keeps a character class. */
  lemma CollapseRunsKeeps(s: string, c: char, p: char -> bool)
    requires AllChars(s, p)
    ensures AllChars(CollapseRuns(s, c), p)
  {
    var r := CollapseRuns(s, c);
    forall i | 0 <= i < |r| ensures p(r[i]) {
      assert r[i] in s;
    }
  }

  lemma CollapseRunsNoop(s: string, c: char)
    requires NoDouble(s, c)
    ensures CollapseRuns(s, c) == s
  {
    if |s| > 1 {
      CollapseRunsNoop(s[1..], c);
    }
  }

  // --------------------------------------------------------------- substrings

  predicate IsPrefix(p: string, s: string) {
    |p| <= |s| && s[..|p|] == p
  }

  /** `s.startswith(p)` */
  predicate StartsWith(s: string, p: string) { IsPrefix(p, s) }

  /** Python's `needle in hay` on strings. */
  predicate Contains(hay: string, needle: string) {
    exists i :: 0 <= i <= |hay| && IsPrefix(needle, hay[i..])
  }

  /** `needle in hay` for some needle of the list (`any(k in hay for k in needles)`). */
  predicate ContainsAny(hay: string, needles: seq<string>) {
    exists j :: 0 <= j < |needles| && Contains(hay, needles[j])
  }

  lemma ContainsEmpty(hay: string)
    ensures Contains(hay, "")
  {
    assert IsPrefix("", hay[0..]);
  }

  /** A text without the first character of `needle` does not contain it. */
  lemma NotContains(hay: string, needle: string)
    requires |needle| > 0 && needle[0] !in hay
    ensures !Contains(hay, needle)
  {
  }

  /** `s.replace(pat, '')`: removes the non-overlapping occurrences of `pat`,
      scanning left to right. */
  function RemoveAll(s: string, pat: string): (r: string)
    requires |pat| > 0
    ensures |r| <= |s|
    decreases |s|
  {
    if |s| < |pat| then s
    else if s[..|pat|] == pat then RemoveAll(s[|pat|..], pat)
    else [s[0]] + RemoveAll(s[1..], pat)
  }

  /** Nothing is removed from a text that lacks the pattern's first
      character. */
  lemma {:induction false} RemoveAllMissing(s: string, pat: string)
    requires |pat| > 0 && pat[0] !in s
    ensures RemoveAll(s, pat) == s
    decreases |s|
  {
    if |s| >= |pat| {
      assert s[..|pat|][0] == s[0];
      RemoveAllMissing(s[1..], pat);
      assert s == [s[0]] + s[1..];
    }
  }

  // ------------------------------------------------------------ split / join

  /** `sep.join(parts)` */
  function Join(parts: seq<string>, sep: string): string {
    if |parts| == 0 then ""
    else if |parts| == 1 then parts[0]
    else parts[0] + sep + Join(parts[1..], sep)
  }

  /** Three parts joined. */
  lemma JoinThree(a: string, b: string, d: string, sep: string)
    ensures Join([a, b, d], sep) == a + sep + b + sep + d
  {
    assert [a, b, d][1..] == [b, d] && [b, d][1..] == [d];
    assert Join([d], sep) == d;
    assert Join([b, d], sep) == b + sep + d;
    assert Join([a, b, d], sep) == a + sep + Join([b, d], sep);
    assert a + sep + (b + sep + d) == a + sep + b + sep + d;
  }

  /** A join starts with its first part. */
  lemma JoinPrefix(parts: seq<string>, sep: string)
    requires |parts| > 0
    ensures IsPrefix(parts[0], Join(parts, sep))
  {
  }

  /** `f'"{s}"'` */
  function Quote(s: string): string { "\"" + s + "\"" }

  /** `[f'"{x}"' for x in items]` */
  function QuoteAll(items: seq<string>): (qs: seq<string>)
    ensures |qs| == |items|
    ensures forall i :: 0 <= i < |items| ==> qs[i] == Quote(items[i])
  {
    if |items| == 0 then [] else [Quote(items[0])] + QuoteAll(items[1..])
  }

  /** `s.count(c)` */
  function CountChar(s: string, c: char): nat {
    if |s| == 0 then 0 else (if s[0] == c then 1 else 0) + CountChar(s[1..], c)
  }

  lemma {:induction false} CountCharAppend(a: string, b: string, c: char)
    ensures CountChar(a + b, c) == CountChar(a, c) + CountChar(b, c)
  {
    if |a| > 0 {
      assert (a + b)[0] == a[0] && (a + b)[1..] == a[1..] + b;
      CountCharAppend(a[1..], b, c);
    } else {
      assert a + b == b;
    }
  }

  lemma {:induction false} CountCharAbsent(s: string, c: char)
    requires c !in s
    ensures CountChar(s, c) == 0
  {
    if |s| > 0 {
      CountCharAbsent(s[1..], c);
    }
  }

  /** Items free of double quotes, quoted and joined with a separator free
      of them, hold exactly two double quotes per item: one quoted text per
      item. */
  lemma {:induction false} QuotedJoinCount(items: seq<string>, sep: string)
    requires '"' !in sep
    requires forall i :: 0 <= i < |items| ==> '"' !in items[i]
    ensures CountChar(Join(QuoteAll(items), sep), '"') == 2 * |items|
  {
    if |items| > 0 {
      var q := Quote(items[0]);
      CountCharAbsent(items[0], '"');
      CountCharAppend("\"" + items[0], "\"", '"');
      CountCharAppend("\"", items[0], '"');
      assert CountChar(q, '"') == 2;
      if |items| > 1 {
        var rest := items[1..];
        assert QuoteAll(items)[1..] == QuoteAll(rest);
        QuotedJoinCount(rest, sep);
        CountCharAbsent(sep, '"');
        CountCharAppend(q + sep, Join(QuoteAll(rest), sep), '"');
        CountCharAppend(q, sep, '"');
      }
    }
  }

  /** `s.split(sep)` for a one-character separator. */
  function SplitOn(s: string, sep: char): (r: seq<string>)
    ensures |r| >= 1
  {
    if |s| == 0 then [""]
    else
      var rest := SplitOn(s[1..], sep);
      if s[0] == sep then [""] + rest
      else [[s[0]] + rest[0]] + rest[1..]
  }

  /** No part holds the separator, and there is one more part than there are
      separators in `s`. */
  lemma {:induction false} SplitOnParts(s: string, sep: char)
    ensures forall i :: 0 <= i < |SplitOn(s, sep)| ==> sep !in SplitOn(s, sep)[i]
    ensures |SplitOn(s, sep)| == multiset(s)[sep] + 1
  {
    if |s| > 0 {
      SplitOnParts(s[1..], sep);
      assert s == [s[0]] + s[1..];
      var rest := SplitOn(s[1..], sep);
      if s[0] != sep {
        var r := SplitOn(s, sep);
        forall i | 0 <= i < |r| ensures sep !in r[i] {
          if i > 0 {
            assert r[i] == rest[i];
          }
        }
      }
    }
  }

  /** Every character of every part comes from `s`. */
  lemma {:induction false} SplitOnChars(s: string, sep: char)
    ensures forall i, j :: 0 <= i < |SplitOn(s, sep)| && 0 <= j < |SplitOn(s, sep)[i]| ==> SplitOn(s, sep)[i][j] in s
  {
    if |s| > 0 {
      SplitOnChars(s[1..], sep);
      var rest := SplitOn(s[1..], sep);
      var r := SplitOn(s, sep);
      assert forall x :: x in s[1..] ==> x in s;
      if s[0] != sep {
        forall i, j | 0 <= i < |r| && 0 <= j < |r[i]| ensures r[i][j] in s {
          if i > 0 {
            assert r[i] == rest[i];
          } else if j > 0 {
            assert r[0][j] == rest[0][j - 1];
          }
        }
      } else {
        assert r == [""] + rest;
        forall i, j | 0 <= i < |r| && 0 <= j < |r[i]| ensures r[i][j] in s {
          assert r[i] == rest[i - 1];
        }
      }
    }
  }

  /** A text without the separator is its own only part. */
  lemma SplitOnNone(s: string, sep: char)
    requires sep !in s
    ensures SplitOn(s, sep) == [s]
  {
    SplitOnHead(s, "", sep);
    assert s + "" == s;
  }

  /** Splitting on `sep` and joining back with `sep` gives the input back. */
  lemma {:induction false} SplitOnJoin(s: string, sep: char)
    ensures Join(SplitOn(s, sep), [sep]) == s
  {
    if |s| > 0 {
      var rest := SplitOn(s[1..], sep);
      SplitOnJoin(s[1..], sep);
      if s[0] == sep {
        assert SplitOn(s, sep) == [""] + rest;
        assert s == [s[0]] + s[1..];
        assert Join(SplitOn(s, sep), [sep]) == [sep] + Join(rest, [sep]);
      } else {
        var r := SplitOn(s, sep);
        assert r == [[s[0]] + rest[0]] + rest[1..];
        if |rest| == 1 {
          assert r == [[s[0]] + rest[0]];
        } else {
          assert r[1..] == rest[1..];
          assert Join(r, [sep]) == [s[0]] + (rest[0] + [sep] + Join(rest[1..], [sep]));
        }
        assert s == [s[0]] + s[1..];
      }
    }
  }

  /** A separator-free head joins the first part of what follows it. */
  lemma {:induction false} SplitOnHead(a: string, t: string, sep: char)
    requires sep !in a
    ensures SplitOn(a + t, sep) == [a + SplitOn(t, sep)[0]] + SplitOn(t, sep)[1..]
    decreases |a|
  {
    if |a| > 0 {
      SplitOnHead(a[1..], t, sep);
      var r := SplitOn(t, sep);
      var rest := SplitOn(a[1..] + t, sep);
      assert (a + t)[1..] == a[1..] + t;
      assert (a + t)[0] == a[0] && a[0] != sep;
      assert rest[0] == a[1..] + r[0] && rest[1..] == r[1..];
      assert [a[0]] + rest[0] == a + r[0];
    } else {
      var r := SplitOn(t, sep);
      assert a + t == t && a + r[0] == r[0];
      assert [r[0]] + r[1..] == r;
    }
  }

  /** Joining separator-free parts and splitting again gives the parts. */
  lemma {:induction false} JoinSplitOn(parts: seq<string>, sep: char)
    requires |parts| > 0
    requires forall i :: 0 <= i < |parts| ==> sep !in parts[i]
    ensures SplitOn(Join(parts, [sep]), sep) == parts
  {
    if |parts| == 1 {
      SplitOnHead(parts[0], "", sep);
      assert parts[0] + "" == parts[0];
    } else {
      var rest := parts[1..];
      JoinSplitOn(rest, sep);
      var t := [sep] + Join(rest, [sep]);
      assert Join(parts, [sep]) == parts[0] + t;
      SplitOnHead(parts[0], t, sep);
      assert t[1..] == Join(rest, [sep]);
      assert SplitOn(t, sep) == [""] + rest;
      assert parts[0] + "" == parts[0];
      assert parts == [parts[0]] + rest;
    }
  }

  /** `s.split()`: the maximal runs of non-blank characters, in order. */
  function Words(s: string): (r: seq<string>)
    ensures |s| > 0 && !IsSpace(s[0]) ==> |r| > 0 && |r[0]| > 0 && r[0][0] == s[0]
  {
    if |s| == 0 then []
    else if IsSpace(s[0]) then Words(s[1..])
    else
      var rest := Words(s[1..]);
      if |s| > 1 && !IsSpace(s[1]) then [[s[0]] + rest[0]] + rest[1..]
      else [[s[0]]] + rest
  }

  /** Every word is non-empty, blank-free and made of the text's
      characters. */
  lemma {:induction false} WordsShape(s: string)
    ensures forall i :: 0 <= i < |Words(s)| ==> |Words(s)[i]| > 0
    ensures forall i, j | 0 <= i < |Words(s)| && 0 <= j < |Words(s)[i]| ::
      !IsSpace(Words(s)[i][j]) && Words(s)[i][j] in s
  {
    if |s| > 0 {
      WordsShape(s[1..]);
      var rest := Words(s[1..]);
      if !IsSpace(s[0]) && |s| > 1 && !IsSpace(s[1]) {
        var w := [s[0]] + rest[0];
        assert forall j | 0 < j < |w| :: w[j] == rest[0][j - 1];
      }
    }
  }

  /** Two blank-free words joined by one blank split back into the two. */
  lemma {:induction false} WordsPair(a: string, b: string)
    requires |a| > 0 && |b| > 0
    requires forall i :: 0 <= i < |a| ==> !IsSpace(a[i])
    requires forall i :: 0 <= i < |b| ==> !IsSpace(b[i])
    ensures Words(a + [' '] + b) == [a, b]
    decreases |a|
  {
    var t := a[1..] + [' '] + b;
    assert a + [' '] + b == [a[0]] + t;
    if |a| == 1 {
      assert t == [' '] + b && t[1..] == b;
      WordsBlankFree(b);
      WordsBreak(a[0], t);
      assert a == [a[0]];
    } else {
      WordsPair(a[1..], b);
      WordsJoin(a[0], t);
      assert a == [a[0]] + a[1..];
    }
  }

  lemma WordsBreak(c: char, t: string)
    requires !IsSpace(c) && |t| > 0 && IsSpace(t[0])
    ensures Words([c] + t) == [[c]] + Words(t[1..])
  {
    assert ([c] + t)[1..] == t;
  }

  lemma WordsJoin(c: char, t: string)
    requires !IsSpace(c) && |t| > 0 && !IsSpace(t[0])
    ensures Words([c] + t) == [[c] + Words(t)[0]] + Words(t)[1..]
  {
    assert ([c] + t)[1..] == t;
  }

  /** A blank-free, non-empty text is one word. */
  lemma {:induction false} WordsBlankFree(s: string)
    requires |s| > 0 && forall i :: 0 <= i < |s| ==> !IsSpace(s[i])
    ensures Words(s) == [s]
    decreases |s|
  {
    if |s| > 1 {
      WordsBlankFree(s[1..]);
      assert !IsSpace(s[0]) && !IsSpace(s[1]);
      assert Words(s) == [[s[0]] + s[1..]];
      assert s == [s[0]] + s[1..];
    } else {
      assert !IsSpace(s[0]) && Words(s[1..]) == [];
      assert s == [s[0]];
    }
  }

  // ------------------------------------------------------------------ numbers

  function DigitChar(d: nat): (c: char)
    requires d < 10
    ensures IsDigit(c)
  {
    ('0' as int + d) as char
  }

  function DigitValue(c: char): (d: nat)
    requires IsDigit(c)
    ensures d < 10 && DigitChar(d) == c
  {
    c as int - '0' as int
  }

  /** The number a run of decimal digits denotes (leading zeros allowed). */
  function DigitsValue(s: string): nat
    requires AllDigits(s)
  {
    if |s| == 0 then 0 else 10 * DigitsValue(s[..|s| - 1]) + DigitValue(s[|s| - 1])
  }

  /** `str(n)` for a non-negative integer. */
  function NatToString(n: nat): (s: string)
    ensures |s| > 0 && AllDigits(s)
    ensures |s| > 1 ==> s[0] != '0'
  {
    if n < 10 then [DigitChar(n)] else NatToString(n / 10) + [DigitChar(n % 10)]
  }

  /** Reading back the decimal text of `n` gives `n`. */
  lemma {:induction false} NatToStringValue(n: nat)
    ensures DigitsValue(NatToString(n)) == n
  {
    var s := NatToString(n);
    if n >= 10 {
      NatToStringValue(n / 10);
      assert s[..|s| - 1] == NatToString(n / 10);
    }
  }

  /** `f"{n:0{width}d}"`: the decimal text of `n`, left-padded with zeros. */
  function ZeroPad(n: nat, width: nat): (s: string)
    ensures AllDigits(s)
    ensures |s| == if |NatToString(n)| >= width then |NatToString(n)| else width
    ensures s[|s| - |NatToString(n)|..] == NatToString(n)
    ensures forall i :: 0 <= i < |s| - |NatToString(n)| ==> s[i] == '0'
  {
    var d := NatToString(n);
    if |d| >= width then d else seq(width - |d|, _ => '0') + d
  }

  /** Leading zeros do not change the number a digit run denotes. */
  lemma {:induction false} DigitsValueZeros(z: string, d: string)
    requires AllDigits(z) && AllDigits(d)
    requires forall i :: 0 <= i < |z| ==> z[i] == '0'
    ensures DigitsValue(z + d) == DigitsValue(d)
    decreases |z| + |d|
  {
    if |d| == 0 {
      assert z + d == z;
      if |z| > 0 {
        DigitsValueZeros(z[..|z| - 1], []);
        assert z[..|z| - 1] + [] == z[..|z| - 1];
      }
    } else {
      DigitsValueZeros(z, d[..|d| - 1]);
      assert (z + d)[..|z + d| - 1] == z + d[..|d| - 1];
    }
  }

  /** The padded text still denotes `n`. */
  lemma ZeroPadValue(n: nat, width: nat)
    ensures DigitsValue(ZeroPad(n, width)) == n
  {
    var d := NatToString(n);
    NatToStringValue(n);
    if |d| < width {
      DigitsValueZeros(seq(width - |d|, _ => '0'), d);
    }
  }

  /** Different numbers pad to different texts. */
  lemma ZeroPadInjective(m: nat, n: nat, width: nat)
    requires m != n
    ensures ZeroPad(m, width) != ZeroPad(n, width)
  {
    ZeroPadValue(m, width);
    ZeroPadValue(n, width);
  }

  /** The longest prefix of `s` made of digits. */
  function LeadingDigits(s: string): (r: string)
    ensures IsPrefix(r, s) && AllDigits(r)
    ensures |r| == |s| || !IsDigit(s[|r|])
  {
    if |s| > 0 && IsDigit(s[0]) then [s[0]] + LeadingDigits(s[1..]) else ""
  }

  /** A digit run followed by a non-digit (or nothing) is read whole. */
  lemma {:induction false} LeadingDigitsOf(d: string, t: string)
    requires AllDigits(d)
    requires t == [] || !IsDigit(t[0])
    ensures LeadingDigits(d + t) == d
  {
    if |d| > 0 {
      assert (d + t)[1..] == d[1..] + t;
      LeadingDigitsOf(d[1..], t);
      assert d == [d[0]] + d[1..];
    } else {
      assert d + t == t;
    }
  }

  /** Position of the first digit of `s`, if any. */
  function FirstDigitIndex(s: string): (r: Option<nat>)
    ensures r.None? <==> forall i :: 0 <= i < |s| ==> !IsDigit(s[i])
    ensures r.Some? ==> r.value < |s| && IsDigit(s[r.value])
    ensures r.Some? ==> forall i :: 0 <= i < r.value ==> !IsDigit(s[i])
  {
    if |s| == 0 then None
    else if IsDigit(s[0]) then Some(0)
    else match FirstDigitIndex(s[1..])
      case None => None
      case Some(i) => Some(i + 1)
  }

  /** `re.search(r'(\d+)', s).group(1)`: the leftmost run of digits, taken whole. */
  function FirstDigitRun(s: string): (r: Option<string>)
    ensures r.None? <==> forall i :: 0 <= i < |s| ==> !IsDigit(s[i])
    ensures r.Some? ==> |r.value| > 0 && AllDigits(r.value)
  {
    match FirstDigitIndex(s)
    case None => None
    case Some(i) => Some(LeadingDigits(s[i..]))
  }

  /** A text that starts with a digit run yields that run. */
  lemma FirstDigitRunOf(d: string, t: string)
    requires |d| > 0 && AllDigits(d)
    requires t == [] || !IsDigit(t[0])
    ensures FirstDigitRun(d + t) == Some(d)
  {
    assert (d + t)[0] == d[0];
    assert (d + t)[0..] == d + t;
    LeadingDigitsOf(d, t);
  }

  /** The body Python's `int()` accepts after the sign: digits, with single
      underscores allowed between digits. */
  predicate IsDigitGroup(b: string) {
    && |b| > 0 && IsDigit(b[0]) && IsDigit(b[|b| - 1])
    && (forall i :: 0 <= i < |b| ==> IsDigit(b[i]) || b[i] == '_')
    && NoDouble(b, '_')
  }

  /** `int(s)` for a string: surrounding blanks, an optional sign and a
      digit group; `None` where Python raises `ValueError`. */
  function ParseInt(s: string): Option<int> {
    var t := Strip(s);
    var negative := |t| > 0 && t[0] == '-';
    var body := if |t| > 0 && (t[0] == '+' || t[0] == '-') then t[1..] else t;
    if IsDigitGroup(body) then
      var magnitude: int := DigitsValue(Filter(body, IsDigit));
      Some(if negative then -magnitude else magnitude)
    else None
  }

  /** `int(str(n)) == n`: the decimal text of a count parses back to it. */
  lemma ParseIntOfNat(n: nat)
    ensures ParseInt(NatToString(n)) == Some(n)
  {
    var d := NatToString(n);
    assert !IsSpace(d[0]) && !IsSpace(d[|d| - 1]);
    StripNoop(d);
    assert Strip(d) == d;
    assert d[0] != '+' && d[0] != '-';
    assert IsDigitGroup(d);
    FilterNoop(d, IsDigit);
    NatToStringValue(n);
  }

  /** Blank text is not a number. */
  lemma ParseIntBlank(s: string)
    requires forall i :: 0 <= i < |s| ==> IsSpace(s[i])
    ensures ParseInt(s) == None
  {
  }
}

=== FILE: table_inference.dfy ===
/** Table and key/value detection of the comprehensive extractor
    (`comprehensive_excel_extractor.py`), and the per-sheet record it stores. */
module TableInference {
  import opened Optionals
  import opened Strings
  import opened OrderedMaps
  import opened Grid

  /** One data row: header to trimmed cell text, holding populated cells only. */
  type Record = OMap<string, string>

  datatype Table = Table(headerRowIndex: nat, headers: seq<string>, data: seq<Record>, rowCount: nat)

  /** Only rows above this one are header candidates. */
  const HeaderScanRows: nat := 20
  /** A header candidate has at least this many filled cells. */
  const MinHeaderCells: nat := 3
  /** The data window after a header row. */
  const DataWindow: nat := 100

  function Min(a: int, b: int): int { if a <= b then a else b }

  // ------------------------------------------------------------ headers

  function HeaderName(g: Sheet, r: nat, c: nat): string {
    if Filled(g, r, c) then Text(g, r, c) else "Column_" + ColumnKey(c)
  }

  /** One header per column of the frame: the trimmed cell, or a
      `Column_<c>` placeholder for an empty one. */
  function Headers(g: Sheet, r: nat): (hs: seq<string>)
    ensures |hs| == Width(g)
  {
    seq(Width(g), c requires 0 <= c => HeaderName(g, r, c))
  }

  /** Every header is non-empty, and it is the cell's own text exactly when
      the cell is filled; an empty cell is named `Column_<c>`. */
  lemma HeadersShape(g: Sheet, r: nat)
    ensures var hs := Headers(g, r);
      forall c :: 0 <= c < |hs| ==> hs[c] != "" && (hs[c] == Text(g, r, c) <==> Filled(g, r, c))
    ensures var hs := Headers(g, r);
      forall c :: 0 <= c < |hs| && !Filled(g, r, c) ==> hs[c] == "Column_" + ColumnKey(c)
  {
  }

  // ---------------------------------------------------------- data rows

  /** `has_data` for row `d` under the given headers. */
  predicate HasData(g: Sheet, d: nat, headers: seq<string>) {
    FilledUpTo(g, d, |headers|) > 0
  }

  /** The `row_data` dictionary after the inner loop has seen the first `n`
      headers: each filled cell assigns its trimmed text to its header. */
  function RowDataUpTo(g: Sheet, d: nat, headers: seq<string>, n: nat): Record
    requires n <= |headers|
  {
    if n == 0 then []
    else
      var r := RowDataUpTo(g, d, headers, n - 1);
      if Filled(g, d, n - 1) then Set(r, headers[n - 1], Text(g, d, n - 1)) else r
  }

  /** The `row_data` dictionary of row `d`. */
  function RowData(g: Sheet, d: nat, headers: seq<string>): Record {
    RowDataUpTo(g, d, headers, |headers|)
  }

  /** How many rows from `from` on (up to `stop`, exclusive) the scan keeps:
      it stops at the window's end or at the first row without data. */
  function ScanCount(g: Sheet, from: nat, stop: nat, headers: seq<string>): (n: nat)
    requires from <= stop
    ensures from + n <= stop
    ensures from + n == stop || !HasData(g, from + n, headers)
    decreases stop - from
  {
    if from == stop || !HasData(g, from, headers) then 0
    else 1 + ScanCount(g, from + 1, stop, headers)
  }

  /** Every row the scan keeps has data. */
  lemma {:induction false} ScanCountData(g: Sheet, from: nat, stop: nat, headers: seq<string>)
    requires from <= stop
    ensures forall d :: from <= d < from + ScanCount(g, from, stop, headers) ==> HasData(g, d, headers)
    decreases stop - from
  {
    if from < stop && HasData(g, from, headers) {
      ScanCountData(g, from + 1, stop, headers);
    }
  }

  /** The records of rows `from` up to `stop` (exclusive). */
  function Rows(g: Sheet, from: nat, stop: nat, headers: seq<string>): (rs: seq<Record>)
    requires from <= stop
    ensures |rs| == stop - from
    decreases stop
  {
    if stop == from then [] else Rows(g, from, stop - 1, headers) + [RowData(g, stop - 1, headers)]
  }

  lemma RowsSnoc(g: Sheet, from: nat, stop: nat, headers: seq<string>)
    requires from <= stop
    ensures Rows(g, from, stop + 1, headers) == Rows(g, from, stop, headers) + [RowData(g, stop, headers)]
  {
  }

  lemma {:induction false} RowsIndex(g: Sheet, from: nat, stop: nat, headers: seq<string>, k: nat)
    requires from + k < stop
    ensures Rows(g, from, stop, headers)[k] == RowData(g, from + k, headers)
    decreases stop
  {
    if from + k + 1 < stop {
      RowsIndex(g, from, stop - 1, headers, k);
    }
  }

  /** Rows `from`, `from+1`, ... up to `stop` (exclusive), stopping before the
      first row with no data. */
  function ScanRows(g: Sheet, from: nat, stop: nat, headers: seq<string>): (rs: seq<Record>)
    requires from <= stop
  {
    Rows(g, from, from + ScanCount(g, from, stop, headers), headers)
  }

  /** The inner loop over the columns of one data row: builds `row_data`
      and `has_data` cell by cell. */
  method BuildRow(g: Sheet, d: nat, headers: seq<string>) returns (rowData: Record, hasData: bool)
    ensures rowData == RowData(g, d, headers)
    ensures hasData <==> HasData(g, d, headers)
  {
    rowData := [];
    hasData := false;
    var c := 0;
    while c < |headers|
      invariant 0 <= c <= |headers|
      invariant rowData == RowDataUpTo(g, d, headers, c)
      invariant hasData <==> FilledUpTo(g, d, c) > 0
    {
      var value := Text(g, d, c);
      if value != "" {
        rowData := Set(rowData, headers[c], value);
        hasData := true;
      }
      c := c + 1;
    }
  }

  /** The data-row loop of `_extract_tables`, with its `break`. */
  method ScanDataRows(g: Sheet, from: nat, stop: nat, headers: seq<string>) returns (rows: seq<Record>)
    requires from <= stop
    ensures rows == ScanRows(g, from, stop, headers)
  {
    rows := [];
    var d := from;
    while d < stop
      invariant from <= d <= stop
      invariant rows == Rows(g, from, d, headers)
      invariant ScanCount(g, from, stop, headers) == (d - from) + ScanCount(g, d, stop, headers)
    {
      var rowData, hasData := BuildRow(g, d, headers);
      if !hasData {
        break;
      }
      RowsSnoc(g, from, d, headers);
      rows := rows + [rowData];
      d := d + 1;
    }
    assert from + ScanCount(g, from, stop, headers) == d;
  }

  // ------------------------------------------------------------- tables

  /** The table whose header is row `r`, if that row is one. */
  function TableAt(g: Sheet, r: nat): Option<Table> {
    if r < |g| && FilledCount(g, r) >= MinHeaderCells then
      var hs := Headers(g, r);
      var data := ScanRows(g, r + 1, Min(r + DataWindow, |g|), hs);
      if |data| > 0 && |hs| >= 3 then Some(Table(r, hs, data, |data|)) else None
    else None
  }

  /** What the header loop finds at each of its rows. */
  function Candidates(g: Sheet): (cs: seq<Option<Table>>)
    ensures |cs| == Min(HeaderScanRows, |g|)
  {
    seq(Min(HeaderScanRows, |g|), r requires 0 <= r => TableAt(g, r))
  }

  /** `_extract_tables` */
  function ExtractTables(g: Sheet): seq<Table> {
    if IsEmptyFrame(g) then [] else Somes(Candidates(g))
  }

  /** Which tables `_extract_tables` reports: a table starts at row `x`
      exactly when `x` is one of the first 20 rows, holds at least three
      filled cells and is followed by at least one row with data; tables come
      in row order, overlaps included. */
  lemma ExtractTablesSpec(g: Sheet)
    ensures var ts := ExtractTables(g);
      && (forall i :: 0 <= i < |ts| ==> ts[i].headerRowIndex < HeaderScanRows && ts[i].headerRowIndex < |g|)
      && (forall i :: 0 <= i < |ts| ==> TableAt(g, ts[i].headerRowIndex) == Some(ts[i]))
      && (forall i, j :: 0 <= i < j < |ts| ==> ts[i].headerRowIndex < ts[j].headerRowIndex)
      && (forall x :: 0 <= x < HeaderScanRows && TableAt(g, x).Some? ==> exists i :: 0 <= i < |ts| && ts[i].headerRowIndex == x)
  {
    if !IsEmptyFrame(g) {
      var cs := Candidates(g);
      forall r | 0 <= r < |cs| && cs[r].Some?
        ensures cs[r].value.headerRowIndex == r
      {
        assert cs[r] == TableAt(g, r);
      }
      TablesByRow(cs);
      forall x | 0 <= x < HeaderScanRows && TableAt(g, x).Some?
        ensures x < |cs| && cs[x].Some?
      {
        assert x < |cs| && cs[x] == TableAt(g, x);
      }
    } else {
      forall x | 0 <= x < HeaderScanRows
        ensures TableAt(g, x).None?
      {
        if x < |g| {
          assert FilledCount(g, x) == 0;
        }
      }
    }
  }

  /** The tables a header loop finds, one candidate per row: each comes from
      its own row's candidate, they come in row order, and none is lost. */
  lemma TablesByRow(cs: seq<Option<Table>>)
    requires forall r :: 0 <= r < |cs| && cs[r].Some? ==> cs[r].value.headerRowIndex == r
    ensures var ts := Somes(cs);
      && (forall i :: 0 <= i < |ts| ==> ts[i].headerRowIndex < |cs| && cs[ts[i].headerRowIndex] == Some(ts[i]))
      && (forall i, j :: 0 <= i < j < |ts| ==> ts[i].headerRowIndex < ts[j].headerRowIndex)
      && (forall x :: 0 <= x < |cs| && cs[x].Some? ==> exists i :: 0 <= i < |ts| && ts[i].headerRowIndex == x)
  {
    var ts := Somes(cs);
    var ix := SomeIndices(cs);
    forall i | 0 <= i < |ts|
      ensures ts[i].headerRowIndex == ix[i]
    {
      assert cs[ix[i]] == Some(ts[i]);
    }
    forall x | 0 <= x < |cs| && cs[x].Some?
      ensures exists i :: 0 <= i < |ts| && ts[i].headerRowIndex == x
    {
      SomeIndicesComplete(cs, x);
      var i :| 0 <= i < |ix| && ix[i] == x;
      assert ts[i].headerRowIndex == x;
    }
  }

  /** What every reported table holds: a header row with at least three
      filled cells, one header per column, between 1 and 99 data rows taken
      from the rows directly below it, a row count equal to the number of
      rows, and a scan that ended at the window's end or at a row without
      data. */
  lemma TableAtShape(g: Sheet, x: nat)
    requires TableAt(g, x).Some?
    ensures var t := TableAt(g, x).value;
      && t.headerRowIndex == x && x < |g|
      && FilledCount(g, x) >= MinHeaderCells
      && |t.headers| == Width(g) >= MinHeaderCells
      && 1 <= |t.data| == t.rowCount < DataWindow
      && x + |t.data| < |g|
      && t.headers == Headers(g, x)
      && t.data == ScanRows(g, x + 1, Min(x + DataWindow, |g|), t.headers)
      && (forall d :: x < d <= x + |t.data| ==> HasData(g, d, t.headers))
      && (x + 1 + |t.data| == Min(x + DataWindow, |g|) || !HasData(g, x + 1 + |t.data|, t.headers))
  {
    TableAtUnfold(g, x);
    ScanFacts(g, x + 1, Min(x + DataWindow, |g|), Headers(g, x));
  }

  /** What the scan from `from` keeps: consecutive rows with data, each
      row's record in order, ended by the window or by a row without data. */
  lemma ScanFacts(g: Sheet, from: nat, stop: nat, hs: seq<string>)
    requires from <= stop
    ensures var n := ScanCount(g, from, stop, hs);
      var rows := ScanRows(g, from, stop, hs);
      && |rows| == n
      && (forall k :: 0 <= k < n ==> rows[k] == RowData(g, from + k, hs))
      && (forall d :: from <= d < from + n ==> HasData(g, d, hs))
      && (from + n == stop || !HasData(g, from + n, hs))
  {
    var n := ScanCount(g, from, stop, hs);
    var rows := Rows(g, from, from + n, hs);
    ScanCountData(g, from, stop, hs);
    forall k | 0 <= k < n
      ensures rows[k] == RowData(g, from + k, hs)
    {
      RowsIndex(g, from, from + n, hs, k);
    }
  }

  /** The parts of a table found at row `x`, named. */
  lemma TableAtUnfold(g: Sheet, x: nat)
    requires TableAt(g, x).Some?
    ensures x < |g| && FilledCount(g, x) >= MinHeaderCells && Width(g) >= MinHeaderCells
    ensures var hs := Headers(g, x);
      var stop := Min(x + DataWindow, |g|);
      var n := ScanCount(g, x + 1, stop, hs);
      && x + 1 <= stop
      && n >= 1
      && TableAt(g, x).value == Table(x, hs, Rows(g, x + 1, x + 1 + n, hs), n)
  {
  }

  /** A row without data never enters a table, nor does any row after it in
      the same window. */
  lemma EmptyRowEndsTable(g: Sheet, x: nat, d: nat)
    requires TableAt(g, x).Some?
    requires x < d && !HasData(g, d, Headers(g, x))
    ensures x + |TableAt(g, x).value.data| < d
  {
    TableAtShape(g, x);
  }

  /** What one stored entry of row `d` is: the header of a filled cell of
      that row mapped to the cell's trimmed, non-empty text. */
  predicate RowEntry(g: Sheet, d: nat, headers: seq<string>, e: (string, string)) {
    && e.1 != "" && !IsSpace(e.1[0]) && !IsSpace(e.1[|e.1| - 1])
    && exists c :: 0 <= c < |headers| && Filled(g, d, c) && e == (headers[c], Text(g, d, c))
  }

  /** The row built from the first `n` cells is non-empty exactly when one
      of them is filled, and each of its entries is a filled cell's. */
  lemma {:induction false} RowDataUpToShape(g: Sheet, d: nat, headers: seq<string>, n: nat)
    requires n <= |headers|
    ensures var row := RowDataUpTo(g, d, headers, n);
      && (|row| > 0 <==> FilledUpTo(g, d, n) > 0)
      && forall i :: 0 <= i < |row| ==> RowEntry(g, d, headers, row[i])
  {
    if n > 0 {
      RowDataUpToShape(g, d, headers, n - 1);
      var r := RowDataUpTo(g, d, headers, n - 1);
      if Filled(g, d, n - 1) {
        var e := (headers[n - 1], Text(g, d, n - 1));
        SetEntries(r, e.0, e.1);
        StripShape(Cell(g, d, n - 1));
        assert RowEntry(g, d, headers, e);
        var row := Set(r, e.0, e.1);
        forall i | 0 <= i < |row| ensures RowEntry(g, d, headers, row[i]) {
          if row[i] != e {
            var j :| 0 <= j < |r| && r[j] == row[i];
          }
        }
      }
    }
  }

  /** Every data row has at least one entry, and each is a header mapped to
      the trimmed text of a filled cell of that row. */
  lemma RowDataShape(g: Sheet, d: nat, headers: seq<string>)
    requires HasData(g, d, headers)
    ensures var row := RowData(g, d, headers);
      && |row| > 0
      && forall i :: 0 <= i < |row| ==> RowEntry(g, d, headers, row[i])
  {
    RowDataUpToShape(g, d, headers, |headers|);
  }

  // ------------------------------------------------------ key/value pairs

  /** The pair row `r` contributes, if it survives the filter. */
  function KvEntry(g: Sheet, r: nat): Option<(string, string)> {
    var key := Strip(RemoveChar(Text(g, r, 0), ':'));
    var value := Text(g, r, 1);
    if KvKept(key, value) then Some((key, value)) else None
  }

  /** Both sides non-empty and neither reads as `nan` or `none`. */
  predicate KvKept(key: string, value: string) {
    && key != "" && value != ""
    && Lower(key) != "nan" && Lower(key) != "none"
    && Lower(value) != "nan" && Lower(value) != "none"
  }

  /** The row-by-row steps of the loop. */
  function KvSteps(g: Sheet): (xs: seq<Option<(string, string)>>)
    ensures |xs| == |g|
  {
    seq(|g|, r requires 0 <= r < |g| => KvEntry(g, r))
  }

  /** `_extract_key_value_pairs` */
  function ExtractKeyValuePairs(g: Sheet): Record {
    if Width(g) < 2 then [] else Update([], Somes(KvSteps(g)))
  }

  /** There are no pairs exactly when the frame has fewer than two columns
      or no row survives the filter. */
  lemma KvEmpty(g: Sheet)
    ensures ExtractKeyValuePairs(g) == [] <==> Width(g) < 2 || forall r :: 0 <= r < |g| ==> KvEntry(g, r).None?
  {
    if Width(g) >= 2 {
      var xs := KvSteps(g);
      if r :| 0 <= r < |g| && KvEntry(g, r).Some? {
        assert xs[r] == KvEntry(g, r);
        UpdateSomesHasKey(xs, r);
      } else {
        UpdateSomesEmpty(xs);
      }
    }
  }

  /** On a frame with at least two columns, the key of every surviving row
      is stored. */
  lemma KvPresent(g: Sheet, r: nat)
    ensures Width(g) >= 2 && r < |g| && KvEntry(g, r).Some? ==>
      HasKey(ExtractKeyValuePairs(g), KvEntry(g, r).value.0)
  {
    if Width(g) >= 2 && r < |g| && KvEntry(g, r).Some? {
      var xs := KvSteps(g);
      assert xs[r] == KvEntry(g, r);
      UpdateSomesHasKey(xs, r);
    }
  }

  /** What a stored pair is: it passed the filter, and its key has no colon
      and no surrounding blanks. */
  predicate KvClean(e: (string, string)) {
    && KvKept(e.0, e.1)
    && ':' !in e.0
    && !IsSpace(e.0[0]) && !IsSpace(e.0[|e.0| - 1])
  }

  /** Every stored pair passed the filter: its key has no colon and no
      surrounding blanks, and neither side is empty, `nan` or `none`. */
  lemma KvSound(g: Sheet)
    ensures var kv := ExtractKeyValuePairs(g);
      forall i :: 0 <= i < |kv| ==> KvClean(kv[i])
  {
    var xs := KvSteps(g);
    forall r | 0 <= r < |xs| && xs[r].Some?
      ensures KvClean(xs[r].value)
    {
      KvEntryShape(g, r);
    }
    UpdateSomesAll(xs, KvClean);
  }

  lemma NoCharInStrip(raw: string, c: char)
    requires c !in raw
    ensures c !in Strip(raw)
  {
    var k := Strip(raw);
    StripShape(raw);
    var lo := LeadingBlanks(raw);
    forall i | 0 <= i < |k| ensures k[i] != c {
      assert k[i] == raw[lo + i];
    }
  }

  lemma KvEntryShape(g: Sheet, r: nat)
    ensures KvEntry(g, r).Some? ==> KvClean(KvEntry(g, r).value)
  {
    var raw := RemoveChar(Text(g, r, 0), ':');
    NoCharInStrip(raw, ':');
    StripShape(raw);
  }

  /** The last row wins: a key reads as the value of the last surviving row
      that carries it. */
  lemma KvLookup(g: Sheet, r: nat, k: string, v: string)
    requires Width(g) >= 2 && r < |g|
    requires KvEntry(g, r) == Some((k, v))
    requires forall x :: r < x < |g| ==> KvEntry(g, x).None? || KvEntry(g, x).value.0 != k
    ensures Get(ExtractKeyValuePairs(g), k) == Some(v)
  {
    var xs := KvSteps(g);
    SomesLastWrite(xs, r, k, v);
    UpdateGet([], Somes(xs), k);
  }

  /** No surviving row carries `k`, so it is absent. */
  lemma KvAbsent(g: Sheet, k: string)
    requires forall x :: 0 <= x < |g| ==> KvEntry(g, x).None? || KvEntry(g, x).value.0 != k
    ensures !HasKey(ExtractKeyValuePairs(g), k)
  {
    var xs := KvSteps(g);
    SomesNoKey(xs, k);
    UpdateHasKey([], Somes(xs), k);
  }

  // --------------------------------------------------------- sheet records

  /** What reading one sheet produced: a frame, or the message of the
      exception raised while reading it. */
  datatype ReadResult = Read(frame: Sheet) | ReadFailed(message: string)

  datatype Dimensions = NoDimensions | Dimensions(rows: nat, columns: nat)

  datatype SheetRecord = SheetRecord(
    name: string,
    error: Option<string>,
    rawData: seq<seq<(string, string)>>,
    tables: seq<Table>,
    keyValuePairs: Record,
    dimensions: Dimensions)

  /** The record `_extract_sheet_data` stores for one sheet. */
  function ExtractSheet(name: string, read: ReadResult): (s: SheetRecord)
    ensures s.name == name
    ensures read.ReadFailed? ==> s.error == Some(read.message) && s.tables == [] && s.keyValuePairs == [] && s.dimensions == Dimensions(0, 0)
    ensures read.Read? ==> s.error.None?
    ensures read.Read? && IsEmptyFrame(read.frame) ==> s.dimensions == NoDimensions && s.tables == [] && s.keyValuePairs == []
    ensures read.Read? && !IsEmptyFrame(read.frame) ==>
      s.dimensions == Dimensions(|read.frame|, Width(read.frame)) && s.tables == ExtractTables(read.frame)
  {
    match read
    case ReadFailed(msg) => SheetRecord(name, Some(msg), [], [], [], Dimensions(0, 0))
    case Read(g) =>
      if IsEmptyFrame(g) then SheetRecord(name, None, [], [], [], NoDimensions)
      else SheetRecord(name, None, RawRecords(g), ExtractTables(g), ExtractKeyValuePairs(g), Dimensions(|g|, Width(g)))
  }

  function SheetWrites(sheets: seq<(string, ReadResult)>): (w: seq<(string, SheetRecord)>)
    ensures |w| == |sheets|
    ensures forall i :: 0 <= i < |w| ==> w[i] == (sheets[i].0, ExtractSheet(sheets[i].0, sheets[i].1))
  {
    seq(|sheets|, i requires 0 <= i < |sheets| => (sheets[i].0, ExtractSheet(sheets[i].0, sheets[i].1)))
  }

  /** The `sheets` dictionary, in workbook order. */
  function ExtractSheets(sheets: seq<(string, ReadResult)>): OMap<string, SheetRecord> {
    Update([], SheetWrites(sheets))
  }

  /** Every sheet of the workbook gets the record of its own read, whatever
      happened to the others: a failing sheet does not stop the rest. A sheet
      whose read failed is recorded with its message, no tables, no pairs and
      0x0 dimensions; a sheet that was read carries no error. */
  lemma ExtractSheetsIndependent(sheets: seq<(string, ReadResult)>, i: nat)
    requires UniqueKeys(sheets) && i < |sheets|
    ensures Get(ExtractSheets(sheets), sheets[i].0) == Some(ExtractSheet(sheets[i].0, sheets[i].1))
    ensures var s := Get(ExtractSheets(sheets), sheets[i].0).value;
      && s.name == sheets[i].0
      && (sheets[i].1.ReadFailed? ==>
        s.error == Some(sheets[i].1.message) && s.tables == [] && s.keyValuePairs == [] && s.dimensions == Dimensions(0, 0))
      && (sheets[i].1.Read? ==> s.error.None?)
  {
    var w := SheetWrites(sheets);
    assert UniqueKeys(w);
    LastWriteUnique(w, i);
    UpdateGet([], w, sheets[i].0);
  }
}

=== FILE: terraform_json.dfy ===
/** The helpers of `terraform_json_generator.py` that turn the flat build
    record into Terraform variables: the environment, disk-size and role
    parsers, the tag sets, the networking summary, the per-VM configuration
    and the validator of the resulting document. */
module TerraformJson {
  import opened Optionals
  import opened Strings
  import opened OrderedMaps
  import opened TableInference
  import opened Config
  import opened SortedStrings

  // ---------------------------------------------------------- environments

  /** The alias table of `extract_primary_environment`. */
  const EnvAliases: OMap<string, string> := [
    ("development", "dev"),
    ("testing", "test"),
    ("staging", "stage"),
    ("production", "prod"),
    ("qa", "test"),
    ("uat", "uat")
  ]

  /** The first comma-separated token of the lower-cased text with every
      space removed. */
  function FirstToken(s: string): (r: string)
    ensures ' ' !in r && ',' !in r && NoUpper(r)
  {
    var t := RemoveChar(Lower(s), ' ');
    SplitOnParts(t, ',');
    SplitOnChars(t, ',');
    SplitOn(t, ',')[0]
  }

  /** `extract_primary_environment`: "dev" for an empty text, otherwise the
      first token, through the alias table. */
  function PrimaryEnvironment(s: string): (r: string)
    ensures s == "" ==> r == "dev"
  {
    if s == "" then "dev"
    else
      var t := FirstToken(s);
      GetOr(EnvAliases, t, t)
  }

  /** The names the aliases lead to. */
  const EnvTargets: seq<string> := ["dev", "test", "stage", "prod", "uat"]

  lemma AliasTargets(k: string, v: string)
    requires (k, v) in EnvAliases
    ensures v in EnvTargets
  {
  }

  lemma TargetPlain(v: string)
    requires v in EnvTargets
    ensures v != "" && ' ' !in v && ',' !in v && NoUpper(v)
  {
  }

  /** Every alias target reads as itself. */
  lemma TargetFixed(v: string)
    requires v in EnvTargets
    ensures GetOr(EnvAliases, v, v) == v
  {
    if v == "uat" {
      assert Find(EnvAliases, v) == Some(5);
    } else {
      assert forall j :: 0 <= j < |EnvAliases| ==> EnvAliases[j].0 != v;
      FindSpec(EnvAliases, v);
    }
  }

  lemma AliasTargetFixed(k: string, v: string)
    requires (k, v) in EnvAliases
    ensures GetOr(EnvAliases, v, v) == v
    ensures v != "" && ' ' !in v && ',' !in v && NoUpper(v)
  {
    AliasTargets(k, v);
    TargetPlain(v);
    TargetFixed(v);
  }

  /** The primary environment has no blank, no comma and no capital. */
  lemma PrimaryEnvironmentPlain(s: string)
    ensures var r := PrimaryEnvironment(s);
      ' ' !in r && ',' !in r && NoUpper(r)
  {
    if s != "" {
      var t := FirstToken(s);
      var g := Get(EnvAliases, t);
      if g.Some? {
        AliasTargetFixed(t, g.value);
      }
    }
  }

  /** Re-applying the parser to a non-empty primary environment gives it back. */
  lemma PrimaryEnvironmentIdempotent(s: string)
    ensures var r := PrimaryEnvironment(s);
      r != "" ==> PrimaryEnvironment(r) == r
  {
    var r := PrimaryEnvironment(s);
    if r != "" {
      PrimaryEnvironmentPlain(s);
      LowerNoop(r);
      RemoveCharNoop(r, ' ');
      SplitOnNone(r, ',');
      assert FirstToken(r) == r;
      if s == "" {
        assert r == "dev";
        assert GetOr(EnvAliases, "dev", "dev") == "dev";
      } else {
        var t := FirstToken(s);
        var g := Get(EnvAliases, t);
        if g.Some? {
          AliasTargetFixed(t, g.value);
        } else {
          assert r == t;
        }
      }
    }
  }

  /** A single lower-case token without blanks is looked up in the alias
      table: an alias gives its target, any other token is kept as it is. */
  lemma PrimaryAlias(t: string)
    requires t != "" && ' ' !in t && ',' !in t && NoUpper(t)
    ensures PrimaryEnvironment(t) == GetOr(EnvAliases, t, t)
  {
    LowerNoop(t);
    RemoveCharNoop(t, ' ');
    SplitOnNone(t, ',');
  }

  /** Capital letters make no difference to the primary environment. */
  lemma PrimaryEnvironmentCaseBlind(s: string)
    ensures PrimaryEnvironment(Lower(s)) == PrimaryEnvironment(s)
  {
    LowerNoop(Lower(s));
  }

  /** Blanks make no difference to the primary environment, unless the text
      is nothing but blanks. */
  lemma PrimaryEnvironmentBlankBlind(s: string)
    requires RemoveChar(s, ' ') != ""
    ensures PrimaryEnvironment(RemoveChar(s, ' ')) == PrimaryEnvironment(s)
  {
    LowerRemoveSpace(s);
    RemoveCharTwice(Lower(s), ' ');
  }

  /** Only the first comma-separated token decides the primary environment. */
  lemma PrimaryEnvironmentFirstToken(a: string, t: string)
    requires a != "" && ',' !in a
    ensures PrimaryEnvironment(a + "," + t) == PrimaryEnvironment(a)
  {
    LowerAppend(a + ",", t);
    LowerAppend(a, ",");
    assert Lower(",") == ",";
    var la := Lower(a);
    var y := RemoveChar(la, ' ');
    var z := RemoveChar(Lower(t), ' ');
    RemoveCharAppend(la + ",", Lower(t), ' ');
    RemoveCharAppend(la, ",", ' ');
    assert RemoveChar(",", ' ') == ",";
    assert RemoveChar(Lower(a + "," + t), ' ') == y + ("," + z);
    LowerKeeps(a, ',');
    assert ',' !in y;
    SplitOnHead(y, "," + z, ',');
    assert SplitOn("," + z, ',')[0] == "";
    assert y + "" == y;
    SplitOnNone(y, ',');
  }

  /** One entry of `parse_environments`: the stripped, lower-cased token, or
      nothing for a blank one. */
  function CleanTokens(parts: seq<string>): (r: seq<string>)
    ensures |r| <= |parts|
  {
    if |parts| == 0 then []
    else
      var e := Strip(parts[0]);
      (if e == "" then [] else [Lower(e)]) + CleanTokens(parts[1..])
  }

  /** `parse_environments` */
  function ParseEnvironments(s: string): (r: seq<string>)
    ensures s == "" ==> r == ["dev"]
  {
    if s == "" then ["dev"] else CleanTokens(SplitOn(s, ','))
  }

  /** What `parse_environments` yields: non-empty, comma-free, lower-case
      tokens with no blank at either end. */
  predicate IsEnvToken(e: string) {
    && e != "" && ',' !in e && NoUpper(e)
    && !IsSpace(e[0]) && !IsSpace(e[|e| - 1])
  }

  lemma {:induction false} CleanTokensShape(parts: seq<string>)
    requires forall i :: 0 <= i < |parts| ==> ',' !in parts[i]
    ensures forall i :: 0 <= i < |CleanTokens(parts)| ==> IsEnvToken(CleanTokens(parts)[i])
  {
    if |parts| > 0 {
      CleanTokensShape(parts[1..]);
      var e := Strip(parts[0]);
      if e != "" {
        StripEnds(parts[0]);
        StripShape(parts[0]);
        assert ',' !in e;
        LowerKeeps(e, ',');
        var l := Lower(e);
        assert l[0] == LowerChar(e[0]) && l[|l| - 1] == LowerChar(e[|e| - 1]);
        assert IsEnvToken(l);
      }
    }
  }

  /** Every environment parsed from a text is a clean token. */
  lemma ParseEnvironmentsShape(s: string)
    ensures forall i :: 0 <= i < |ParseEnvironments(s)| ==> IsEnvToken(ParseEnvironments(s)[i])
  {
    if s != "" {
      SplitOnParts(s, ',');
      CleanTokensShape(SplitOn(s, ','));
    } else {
      assert IsEnvToken("dev");
    }
  }

  lemma {:induction false} CleanTokensNoop(parts: seq<string>)
    requires forall i :: 0 <= i < |parts| ==> IsEnvToken(parts[i])
    ensures CleanTokens(parts) == parts
  {
    if |parts| > 0 {
      var p := parts[0];
      var rest := parts[1..];
      assert forall i :: 0 <= i < |rest| ==> IsEnvToken(rest[i]) by {
        forall i | 0 <= i < |rest| ensures IsEnvToken(rest[i]) {
          assert rest[i] == parts[i + 1];
        }
      }
      CleanTokensNoop(rest);
      EnvTokenClean(p);
      assert parts == [p] + rest;
    }
  }

  /** A clean token is its own stripped, lower-cased form. */
  lemma EnvTokenClean(p: string)
    requires IsEnvToken(p)
    ensures Strip(p) == p && Lower(p) == p
  {
    StripNoop(p);
    LowerNoop(p);
  }

  /** The joined text starts with the first part. */
  lemma JoinHead(parts: seq<string>, sep: string)
    requires |parts| > 0
    ensures |Join(parts, sep)| >= |parts[0]|
  {
  }

  /** Clean tokens joined with commas parse back to themselves. */
  lemma ParseEnvironmentsJoin(parts: seq<string>)
    requires |parts| > 0
    requires forall i :: 0 <= i < |parts| ==> IsEnvToken(parts[i])
    ensures ParseEnvironments(Join(parts, ",")) == parts
  {
    JoinHead(parts, ",");
    JoinSplitOn(parts, ',');
    CleanTokensNoop(parts);
  }

  // ------------------------------------------------------------- disk size

  /** `parse_disk_size`: the first run of digits, times 1024 when the text
      mentions "tb" in any case; nothing for a falsy text or one without a
      digit. */
  function ParseDiskSize(s: Option<string>): (r: Option<nat>)
    ensures r.None? <==> !Truthy(s) || forall i :: 0 <= i < |s.value| ==> !IsDigit(s.value[i])
  {
    if !Truthy(s) then None
    else match FirstDigitRun(s.value)
      case None => None
      case Some(d) =>
        var n := DigitsValue(d);
        Some(if Contains(Lower(s.value), "tb") then n * 1024 else n)
  }

  /** Lower-casing the unit " GB" after a number gives no "t". */
  lemma NoTeraInGb(d: string)
    requires AllDigits(d)
    ensures !Contains(Lower(d + " GB"), "tb")
  {
    var l := Lower(d + " GB");
    forall i | 0 <= i < |l| ensures l[i] != 't' {
      assert l[i] == LowerChar((d + " GB")[i]);
      if i < |d| {
        assert (d + " GB")[i] == d[i];
      }
    }
    NotContains(l, "tb");
  }

  /** A size written "<n> GB" reads as n gigabytes. */
  lemma ParseDiskSizeGb(n: nat)
    ensures ParseDiskSize(Some(NatToString(n) + " GB")) == Some(n)
  {
    var d := NatToString(n);
    FirstDigitRunOf(d, " GB");
    NatToStringValue(n);
    NoTeraInGb(d);
  }

  /** A size written "<n>TB" reads as n * 1024 gigabytes. */
  lemma ParseDiskSizeTb(n: nat)
    ensures ParseDiskSize(Some(NatToString(n) + "TB")) == Some(n * 1024)
  {
    var d := NatToString(n);
    FirstDigitRunOf(d, "TB");
    NatToStringValue(n);
    var l := Lower(d + "TB");
    LowerAppend(d, "TB");
    assert Lower("TB") == "tb";
    assert l[|d|..] == "tb";
    assert IsPrefix("tb", l[|d|..]);
  }

  // ----------------------------------------------------- keyword categories

  /** A category name and the substrings that select it. */
  type Rule = (string, seq<string>)

  /** The first category, in order, one of whose substrings occurs in the
      text: the `if any(...) elif any(...)` chains of the generator. */
  function Classify(text: string, rules: seq<Rule>): Option<string> {
    match FirstIndex(rules, (rule: Rule) => ContainsAny(text, rule.1))
    case Some(i) => Some(rules[i].0)
    case None => None
  }

  /** The category chosen is the first that matches, and there is none
      exactly when no category matches. */
  lemma ClassifySpec(text: string, rules: seq<Rule>)
    ensures Classify(text, rules).None? <==> forall i :: 0 <= i < |rules| ==> !ContainsAny(text, rules[i].1)
    ensures Classify(text, rules).Some? ==> exists i :: (
      && 0 <= i < |rules| && Classify(text, rules).value == rules[i].0
      && ContainsAny(text, rules[i].1)
      && forall j :: 0 <= j < i ==> !ContainsAny(text, rules[j].1))
  {
    FirstIndexSpec(rules, (rule: Rule) => ContainsAny(text, rule.1));
  }

  /** The role keywords of `infer_vm_role`, in priority order. */
  const RoleRules: seq<Rule> := [
    ("web", ["web", "www", "frontend", "ui"]),
    ("application", ["api", "app", "application", "backend"]),
    ("database", ["db", "database", "sql", "mysql", "postgres"]),
    ("cache", ["cache", "redis", "memcache"]),
    ("loadbalancer", ["lb", "loadbalancer", "proxy"])
  ]

  const Roles: seq<string> := ["web", "application", "database", "cache", "loadbalancer", "compute"]

  /** `infer_vm_role` */
  function InferVmRole(hostname: string): string {
    Classify(Lower(hostname), RoleRules).GetOr("compute")
  }

  /** The role is one of the six, the first matching category in priority
      order, and "compute" exactly when no category matches. */
  lemma InferVmRoleSpec(hostname: string)
    ensures InferVmRole(hostname) in Roles
    ensures InferVmRole(hostname) == "compute" <==>
      forall i :: 0 <= i < |RoleRules| ==> !ContainsAny(Lower(hostname), RoleRules[i].1)
    ensures forall i :: 0 <= i < |RoleRules| ==>
      (InferVmRole(hostname) == RoleRules[i].0 <==>
        ContainsAny(Lower(hostname), RoleRules[i].1) && forall j :: 0 <= j < i ==> !ContainsAny(Lower(hostname), RoleRules[j].1))
  {
    var h := Lower(hostname);
    ClassifySpec(h, RoleRules);
    var c := Classify(h, RoleRules);
    if c.Some? {
      var i :| (
        && 0 <= i < |RoleRules| && c.value == RoleRules[i].0
        && ContainsAny(h, RoleRules[i].1)
        && forall j :: 0 <= j < i ==> !ContainsAny(h, RoleRules[j].1));
      assert InferVmRole(hostname) == RoleRules[i].0;
    }
  }

  /** The hostname hints of `extract_vm_environment`, in priority order. */
  const HostEnvRules: seq<Rule> := [
    ("prod", ["prod", "production"]),
    ("dev", ["dev", "development"]),
    ("test", ["test", "qa", "testing"]),
    ("stage", ["stage", "staging"])
  ]

  /** The VM's own `Environment` field, trimmed and lower-cased. */
  function OwnEnvironment(vm: Record): string {
    Lower(Strip(GetOr(vm, "Environment", "")))
  }

  /** `extract_vm_environment`: the VM's own environment, else a hint in its
      hostname, else the primary environment of the build. */
  function VmEnvironment(vm: Record, global: Record): string {
    var own := OwnEnvironment(vm);
    if own != "" then own
    else match Classify(Lower(GetOr(vm, "Hostname", "")), HostEnvRules)
      case Some(e) => e
      case None => PrimaryEnvironment(GetOr(global, "environments", "dev"))
  }

  /** The sources are tried in order, and the first that gives something
      decides. */
  lemma VmEnvironmentSpec(vm: Record, global: Record)
    ensures OwnEnvironment(vm) != "" ==> VmEnvironment(vm, global) == OwnEnvironment(vm)
    ensures var h := Lower(GetOr(vm, "Hostname", ""));
      OwnEnvironment(vm) == "" && (exists i :: 0 <= i < |HostEnvRules| && ContainsAny(h, HostEnvRules[i].1)) ==>
        exists i :: (
          && 0 <= i < |HostEnvRules| && VmEnvironment(vm, global) == HostEnvRules[i].0
          && ContainsAny(h, HostEnvRules[i].1)
          && forall j :: 0 <= j < i ==> !ContainsAny(h, HostEnvRules[j].1))
    ensures var h := Lower(GetOr(vm, "Hostname", ""));
      OwnEnvironment(vm) == "" && (forall i :: 0 <= i < |HostEnvRules| ==> !ContainsAny(h, HostEnvRules[i].1)) ==>
        VmEnvironment(vm, global) == PrimaryEnvironment(GetOr(global, "environments", "dev"))
  {
    ClassifySpec(Lower(GetOr(vm, "Hostname", "")), HostEnvRules);
  }

  lemma HostEnvNames(text: string)
    ensures Classify(text, HostEnvRules).Some? ==> Classify(text, HostEnvRules).value in EnvTargets
  {
    ClassifySpec(text, HostEnvRules);
  }

  /** The VM environment is always lower-case. */
  lemma VmEnvironmentLower(vm: Record, global: Record)
    ensures NoUpper(VmEnvironment(vm, global))
  {
    PrimaryEnvironmentPlain(GetOr(global, "environments", "dev"));
    var h := Lower(GetOr(vm, "Hostname", ""));
    HostEnvNames(h);
    var c := Classify(h, HostEnvRules);
    if OwnEnvironment(vm) == "" && c.Some? {
      TargetPlain(c.value);
    }
  }

  // ------------------------------------------------------- resource group

  /** `generate_resource_group_name`: `rg-<normalised app>-<primary env>`. */
  function ResourceGroupName(data: Record): string {
    "rg-" + NormalizeResourceName(GetOr(data, "application_name", "default-app"))
      + "-" + PrimaryEnvironment(GetOr(data, "environments", "dev"))
  }

  /** A normal resource name has no blank, comma or capital. */
  lemma NormalNamePlain(s: string)
    requires IsNormalResourceName(s)
    ensures ' ' !in s && ',' !in s && NoUpper(s)
  {
    assert forall i :: 0 <= i < |s| ==> IsResourceNameChar(s[i]);
  }

  lemma NoUpperAppend(a: string, b: string)
    requires NoUpper(a) && NoUpper(b)
    ensures NoUpper(a + b)
  {
    assert forall i :: 0 <= i < |a + b| ==> (a + b)[i] == if i < |a| then a[i] else b[i - |a|];
  }

  /** The group name starts with "rg-", holds the normal form of the
      application name, and has no blank, comma or capital anywhere. */
  lemma ResourceGroupNameShape(data: Record)
    ensures var r := ResourceGroupName(data);
      var app := NormalizeResourceName(GetOr(data, "application_name", "default-app"));
      && StartsWith(r, "rg-") && r[3..3 + |app|] == app && IsNormalResourceName(app)
      && r[3 + |app|..] == "-" + PrimaryEnvironment(GetOr(data, "environments", "dev"))
      && ' ' !in r && ',' !in r && NoUpper(r)
  {
    var app := NormalizeResourceName(GetOr(data, "application_name", "default-app"));
    var env := PrimaryEnvironment(GetOr(data, "environments", "dev"));
    PrimaryEnvironmentPlain(GetOr(data, "environments", "dev"));
    GroupNameShape(app, env);
  }

  lemma GroupNameShape(app: string, env: string)
    requires IsNormalResourceName(app) && ' ' !in env && ',' !in env && NoUpper(env)
    ensures var r := "rg-" + app + "-" + env;
      && StartsWith(r, "rg-") && r[3..3 + |app|] == app && r[3 + |app|..] == "-" + env
      && ' ' !in r && ',' !in r && NoUpper(r)
  {
    NormalNamePlain(app);
    assert NoUpper("rg-") && NoUpper("-");
    NoUpperAppend("rg-", app);
    NoUpperAppend("rg-" + app, "-");
    NoUpperAppend("rg-" + app + "-", env);
    assert "rg-" + app + "-" + env == "rg-" + app + ("-" + env);
    Middle("rg-", app, "-" + env);
  }

  lemma Middle(a: string, b: string, c: string)
    ensures (a + b + c)[..|a|] == a && (a + b + c)[|a|..|a| + |b|] == b
  {
  }

  // ------------------------------------------------------------------- tags

  /** The dynamic tags of `generate_resource_tags`, in the order written. */
  const TagKeys: seq<string> := [
    "Project", "Application", "ApplicationTier", "Owner", "BusinessOwner",
    "Environment", "ServiceNowTicket", "GeneratedAt"
  ]

  /** Their values: a build-record field or its default, the primary
      environment, and the generation date (a parameter). */
  function TagValues(data: Record, today: string): (vs: seq<string>)
    ensures |vs| == |TagKeys|
  {
    [GetOr(data, "project_name", "Unknown"),
     GetOr(data, "application_name", "Unknown"),
     GetOr(data, "app_tier", "Bronze"),
     GetOr(data, "app_owner", "TBD"),
     GetOr(data, "business_owner", "TBD"),
     PrimaryEnvironment(GetOr(data, "environments", "dev")),
     GetOr(data, "service_now_ticket", "TBD"),
     today]
  }

  /** The writes `generate_resource_tags` makes over the default tags. */
  function TagWrites(data: Record, today: string): seq<(string, string)> {
    Zip(TagKeys, TagValues(data, today))
  }

  /** The tag values that survive the final filter. */
  predicate KeptTag(v: string) { v != "" && v != "TBD" }

  /** `generate_resource_tags` */
  function ResourceTags(data: Record, today: string): Record {
    FilterValues(Update(DefaultTags, TagWrites(data, today)), KeptTag)
  }

  lemma DefaultTagsUnique()
    ensures UniqueKeys(DefaultTags)
  {
  }

  lemma TagKeysDistinct()
    ensures forall i, j :: 0 <= i < j < |TagKeys| ==> TagKeys[i] != TagKeys[j]
  {
  }

  lemma TagWritesUnique(data: Record, today: string)
    ensures UniqueKeys(TagWrites(data, today))
    ensures Keys(TagWrites(data, today)) == TagKeys
  {
    TagKeysDistinct();
    ZipKeys(TagKeys, TagValues(data, today));
  }

  /** No resource tag is empty or "TBD". */
  lemma ResourceTagsClean(data: Record, today: string)
    ensures forall i :: 0 <= i < |ResourceTags(data, today)| ==> KeptTag(ResourceTags(data, today)[i].1)
  {
    FilterValuesAll(Update(DefaultTags, TagWrites(data, today)), KeptTag);
  }

  /** Each dynamic tag carries its value from the build record, or is absent
      when that value is empty or "TBD". */
  lemma ResourceTagsWritten(data: Record, today: string, i: nat)
    requires i < |TagWrites(data, today)|
    ensures var w := TagWrites(data, today)[i];
      Get(ResourceTags(data, today), w.0) == if KeptTag(w.1) then Some(w.1) else None
  {
    var writes := TagWrites(data, today);
    DefaultTagsUnique();
    TagWritesUnique(data, today);
    UpdateUnique(DefaultTags, writes);
    LastWriteUnique(writes, i);
    UpdateGet(DefaultTags, writes, writes[i].0);
    FilterValuesGet(Update(DefaultTags, writes), KeptTag, writes[i].0);
  }

  /** The default tags no write touches keep their values. */
  lemma ResourceTagsDefaults(data: Record, today: string, k: string)
    requires k !in Keys(TagWrites(data, today))
    ensures Get(ResourceTags(data, today), k) == Get(DefaultTags, k)
  {
    var writes := TagWrites(data, today);
    DefaultTagsUnique();
    UpdateUnique(DefaultTags, writes);
    UpdateGet(DefaultTags, writes, k);
    FilterValuesGet(Update(DefaultTags, writes), KeptTag, k);
    var g := Get(DefaultTags, k);
    if g.Some? {
      assert (k, g.value) in DefaultTags;
      DefaultTagsKept(k, g.value);
    }
  }

  lemma DefaultTagsKept(k: string, v: string)
    requires (k, v) in DefaultTags
    ensures KeptTag(v)
  {
  }

  /** `generate_vm_tags`: the resource tags with the VM's name, role and
      environment, and its subscription when it has one. */
  function VmTags(vm: Record, global: Record, hostname: string, today: string): Record {
    var base := Update(ResourceTags(global, today),
      [("Name", hostname), ("Role", InferVmRole(hostname)), ("Environment", VmEnvironment(vm, global))]);
    var sub := Get(vm, "Subscription Name");
    if Truthy(sub) then Set(base, "Subscription", sub.value) else base
  }

  /** The VM tags add or override Name, Role, Environment and (for a VM with a
      subscription) Subscription, and read as the resource tags elsewhere. */
  lemma VmTagsSpec(vm: Record, global: Record, hostname: string, today: string, k: string)
    ensures var sub := Get(vm, "Subscription Name");
      Get(VmTags(vm, global, hostname, today), k) ==
        if k == "Subscription" && Truthy(sub) then sub
        else if k == "Name" then Some(hostname)
        else if k == "Role" then Some(InferVmRole(hostname))
        else if k == "Environment" then Some(VmEnvironment(vm, global))
        else Get(ResourceTags(global, today), k)
  {
    var base := ResourceTags(global, today);
    var role := InferVmRole(hostname);
    var env := VmEnvironment(vm, global);
    VmTagWrites(base, hostname, role, env, k);
    var sub := Get(vm, "Subscription Name");
    if Truthy(sub) {
      SetGet(Update(base, [("Name", hostname), ("Role", role), ("Environment", env)]), "Subscription", sub.value, k);
    }
  }

  lemma VmTagWrites(base: Record, name: string, role: string, env: string, k: string)
    ensures Get(Update(base, [("Name", name), ("Role", role), ("Environment", env)]), k) ==
      if k == "Name" then Some(name)
      else if k == "Role" then Some(role)
      else if k == "Environment" then Some(env)
      else Get(base, k)
  {
    UpdateGet(base, [("Name", name), ("Role", role), ("Environment", env)], k);
  }

  // ------------------------------------------------------------- networking

  /** `sorted(set(vm[key] for vm in vms if vm.get(key)))`, built one VM at a
      time. */
  function Collect(vms: seq<Record>, key: string): seq<string> {
    if |vms| == 0 then []
    else
      var rest := Collect(vms[..|vms| - 1], key);
      var v := Get(vms[|vms| - 1], key);
      if Truthy(v) then Insert(v.value, rest) else rest
  }

  /** Some VM has the non-empty value `x` under `key`. */
  predicate SomeVmHas(vms: seq<Record>, key: string, x: string) {
    exists i :: 0 <= i < |vms| && Get(vms[i], key) == Some(x) && x != ""
  }

  /** The collected list is sorted without duplicates and holds exactly the
      non-empty values the VMs have under `key`. */
  lemma {:induction false} CollectSpec(vms: seq<Record>, key: string)
    ensures Sorted(Collect(vms, key))
    ensures forall x :: x in Collect(vms, key) <==> SomeVmHas(vms, key, x)
  {
    if |vms| > 0 {
      var init := vms[..|vms| - 1];
      CollectSpec(init, key);
      var rest := Collect(init, key);
      var v := Get(vms[|vms| - 1], key);
      if Truthy(v) {
        InsertSpec(v.value, rest);
      }
      forall x ensures x in Collect(vms, key) <==> SomeVmHas(vms, key, x) {
        if SomeVmHas(vms, key, x) {
          var i :| 0 <= i < |vms| && Get(vms[i], key) == Some(x) && x != "";
          if i < |vms| - 1 {
            assert init[i] == vms[i];
          }
        }
        if SomeVmHas(init, key, x) {
          var i :| 0 <= i < |init| && Get(init[i], key) == Some(x) && x != "";
          assert vms[i] == init[i];
        }
      }
    }
  }

  /** `sorted(set(...))` is the one sorted list with those members. */
  lemma CollectCanonical(vms: seq<Record>, key: string, xs: seq<string>)
    requires Sorted(xs)
    requires forall x :: x in xs <==> SomeVmHas(vms, key, x)
    ensures Collect(vms, key) == xs
  {
    CollectSpec(vms, key);
    SortedUnique(Collect(vms, key), xs);
  }

  datatype Networking = Networking(virtualNetworks: seq<string>, subnets: seq<string>, networkSecurityGroups: seq<string>)

  /** `extract_networking_config` */
  function NetworkingConfig(vms: seq<Record>): Networking {
    Networking(Collect(vms, "Virtual Network"), Collect(vms, "Subnet"), Collect(vms, "Network Security Group"))
  }

  /** Each list is sorted, free of duplicates, and holds exactly the values
      present on the VMs. */
  lemma NetworkingConfigSpec(vms: seq<Record>)
    ensures var n := NetworkingConfig(vms);
      && Sorted(n.virtualNetworks) && Sorted(n.subnets) && Sorted(n.networkSecurityGroups)
      && (forall x :: x in n.virtualNetworks <==> SomeVmHas(vms, "Virtual Network", x))
      && (forall x :: x in n.subnets <==> SomeVmHas(vms, "Subnet", x))
      && (forall x :: x in n.networkSecurityGroups <==> SomeVmHas(vms, "Network Security Group", x))
  {
    CollectSpec(vms, "Virtual Network");
    CollectSpec(vms, "Subnet");
    CollectSpec(vms, "Network Security Group");
  }

  // ------------------------------------------------------------ VM configs

  /** One entry of `virtual_machines`; an optional field is `None` where the
      generated dictionary leaves the key out. */
  datatype VmConfig = VmConfig(
    name: string,
    hostname: string,
    resourceGroup: string,
    vmSize: string,
    osImage: string,
    adminUsername: string,
    environment: string,
    location: string,
    subscriptionName: Option<string>,
    networkSecurityGroup: Option<string>,
    subnetName: Option<string>,
    virtualNetwork: Option<string>,
    availabilityZone: Option<string>,
    diskType: Option<string>,
    diskSizeGb: Option<nat>,
    tags: Record)

  /** `vm.get(key)`, kept only when truthy. */
  function OptionalField(vm: Record, key: string): (r: Option<string>)
    ensures r.Some? <==> Truthy(Get(vm, key))
    ensures r.Some? ==> Get(vm, key) == r
  {
    if Truthy(Get(vm, key)) then Get(vm, key) else None
  }

  /** `parse_disk_size(vm.get('Disk Size'))`, kept only when truthy (0 is not). */
  function OptionalDiskSize(vm: Record): (r: Option<nat>)
    ensures r.Some? ==> r.value > 0 && ParseDiskSize(Get(vm, "Disk Size")) == r
    ensures r.None? ==> ParseDiskSize(Get(vm, "Disk Size")) in {None, Some(0)}
  {
    var d := ParseDiskSize(Get(vm, "Disk Size"));
    if d.Some? && d.value != 0 then d else None
  }

  /** The skip rule: with `SKIP_EMPTY_VMS`, a VM whose hostname is blank. */
  predicate SkippedVm(vm: Record) {
    SkipEmptyVms && Strip(GetOr(vm, "Hostname", "")) == ""
  }

  /** The normalised hostname of the VM at position `i`, with `vm-<i+1>` for
      a VM without one. */
  function VmHostname(i: nat, vm: Record): string {
    NormalizeResourceName(GetOr(vm, "Hostname", "vm-" + NatToString(i + 1)))
  }

  /** The body of the loop of `process_vm_instances` for the VM at `i`. */
  function ProcessVm(i: nat, vm: Record, global: Record, today: string): (r: Option<VmConfig>)
    ensures r.None? <==> SkippedVm(vm)
  {
    if SkippedVm(vm) then None
    else
      var hostname := VmHostname(i, vm);
      Some(VmConfig(
        hostname,
        hostname,
        GetOr(vm, "App RG", ResourceGroupName(global)),
        GetOr(vm, "Recommended SKU", DefaultVmSize),
        GetOr(vm, "OS Image*", DefaultOsImage),
        GetOr(vm, "Admin Username", DefaultAdminUsername),
        VmEnvironment(vm, global),
        GetOr(vm, "Location", DefaultAzureRegion),
        OptionalField(vm, "Subscription Name"),
        OptionalField(vm, "Network Security Group"),
        OptionalField(vm, "Subnet"),
        OptionalField(vm, "Virtual Network"),
        OptionalField(vm, "Availability Zone"),
        OptionalField(vm, "Disk Type"),
        OptionalDiskSize(vm),
        VmTags(vm, global, hostname, today)))
  }

  function ProcessSteps(vms: seq<Record>, global: Record, today: string): (xs: seq<Option<VmConfig>>)
    ensures |xs| == |vms|
    ensures forall i :: 0 <= i < |vms| ==> xs[i] == ProcessVm(i, vms[i], global, today)
  {
    seq(|vms|, i requires 0 <= i < |vms| => ProcessVm(i, vms[i], global, today))
  }

  /** `process_vm_instances` */
  function ProcessVmInstances(vms: seq<Record>, global: Record, today: string): seq<VmConfig> {
    Somes(ProcessSteps(vms, global, today))
  }

  predicate IsPresent(o: Option<string>) { o.Some? ==> o.value != "" }

  /** What every generated VM entry satisfies: name and hostname agree and
      are normal resource names, optional fields are present only when
      non-empty, and a disk size only when positive. */
  predicate WellFormedVm(c: VmConfig) {
    && c.name == c.hostname && IsNormalResourceName(c.name)
    && IsPresent(c.subscriptionName) && IsPresent(c.networkSecurityGroup)
    && IsPresent(c.subnetName) && IsPresent(c.virtualNetwork)
    && IsPresent(c.availabilityZone) && IsPresent(c.diskType)
    && (c.diskSizeGb.Some? ==> c.diskSizeGb.value > 0)
  }

  /** A processed VM takes its name from its own hostname and its optional
      fields from its own row. */
  lemma ProcessVmSpec(i: nat, vm: Record, global: Record, today: string)
    requires !SkippedVm(vm)
    ensures var c := ProcessVm(i, vm, global, today).value;
      && WellFormedVm(c)
      && HasKey(vm, "Hostname") && c.name == NormalizeResourceName(Get(vm, "Hostname").value)
      && (c.subnetName.Some? ==> Get(vm, "Subnet") == c.subnetName)
      && (c.virtualNetwork.Some? ==> Get(vm, "Virtual Network") == c.virtualNetwork)
      && (c.networkSecurityGroup.Some? ==> Get(vm, "Network Security Group") == c.networkSecurityGroup)
  {
  }

  /** The optional keys of a kept VM's entry: each is there exactly when the
      row's own value is non-empty, and then it is that value; the disk size
      is there exactly when the row's size parses to a positive number. */
  lemma ProcessVmOptionalKeys(i: nat, vm: Record, global: Record, today: string)
    requires !SkippedVm(vm)
    ensures var c := ProcessVm(i, vm, global, today).value;
      && KeptWhenTruthy(c.subscriptionName, Get(vm, "Subscription Name"))
      && KeptWhenTruthy(c.networkSecurityGroup, Get(vm, "Network Security Group"))
      && KeptWhenTruthy(c.subnetName, Get(vm, "Subnet"))
      && KeptWhenTruthy(c.virtualNetwork, Get(vm, "Virtual Network"))
      && KeptWhenTruthy(c.availabilityZone, Get(vm, "Availability Zone"))
      && KeptWhenTruthy(c.diskType, Get(vm, "Disk Type"))
      && (c.diskSizeGb.Some? <==> exists n: nat :: n > 0 && ParseDiskSize(Get(vm, "Disk Size")) == Some(n))
      && (c.diskSizeGb.Some? ==> c.diskSizeGb == ParseDiskSize(Get(vm, "Disk Size")))
  {
  }

  /** An entry key present exactly when the row's value is a non-empty text,
      holding that text. */
  predicate KeptWhenTruthy(field: Option<string>, row: Option<string>) {
    && (field.Some? <==> row.Some? && row.value != "")
    && (field.Some? ==> field == row)
  }

  /** There are no more entries than rows, every entry is well formed, and
      no entry is produced exactly when every row is skipped. */
  lemma ProcessVmInstancesShape(vms: seq<Record>, global: Record, today: string)
    ensures var r := ProcessVmInstances(vms, global, today);
      && |r| <= |vms|
      && (forall j :: 0 <= j < |r| ==> WellFormedVm(r[j]))
      && (|r| == 0 <==> forall i :: 0 <= i < |vms| ==> SkippedVm(vms[i]))
  {
    var xs := ProcessSteps(vms, global, today);
    forall j | 0 <= j < |xs| && xs[j].Some? ensures WellFormedVm(xs[j].value) {
      ProcessVmSpec(j, vms[j], global, today);
    }
    SomesAll(xs, WellFormedVm);
    SomesEmpty(xs);
  }

  /** With no blank hostname, every row gives one entry, in order. */
  lemma ProcessVmInstancesAllNamed(vms: seq<Record>, global: Record, today: string)
    requires forall i :: 0 <= i < |vms| ==> !SkippedVm(vms[i])
    ensures var r := ProcessVmInstances(vms, global, today);
      && |r| == |vms|
      && forall i :: 0 <= i < |vms| ==> Some(r[i]) == ProcessVm(i, vms[i], global, today)
  {
    SomesAllPresent(ProcessSteps(vms, global, today));
  }

  // ------------------------------------------------------------- validation

  const RequiredJsonFields: seq<string> := ["project_name", "application_name", "virtual_machines"]

  /** The part of a generated document the validator reads: its top-level
      keys and its `virtual_machines` entries. */
  datatype JsonDoc = JsonDoc(keys: seq<string>, virtualMachines: seq<Record>)

  /** `json_data.get('virtual_machines', [])` */
  function DocVms(doc: JsonDoc): seq<Record> {
    if "virtual_machines" in doc.keys then doc.virtualMachines else []
  }

  function MissingFieldErrors(fields: seq<string>, keys: seq<string>): (errors: seq<string>)
    ensures |errors| <= |fields|
  {
    if |fields| == 0 then []
    else
      (if fields[0] in keys then [] else ["Missing required field: " + fields[0]])
        + MissingFieldErrors(fields[1..], keys)
  }

  /** The errors reported for the VM at position `i`. */
  function VmErrors(i: nat, vm: Record): (errors: seq<string>)
    ensures |errors| <= 2
  {
    (if Truthy(Get(vm, "name")) then [] else ["VM " + NatToString(i) + ": Missing name"])
      + (if Truthy(Get(vm, "vm_size")) then [] else ["VM " + NatToString(i) + ": Missing vm_size"])
  }

  function VmErrorLists(vms: seq<Record>): (xss: seq<seq<string>>)
    ensures |xss| == |vms|
    ensures forall i :: 0 <= i < |vms| ==> xss[i] == VmErrors(i, vms[i])
  {
    seq(|vms|, i requires 0 <= i < |vms| => VmErrors(i, vms[i]))
  }

  /** `validate_terraform_json` */
  function ValidateTerraformJson(doc: JsonDoc): seq<string> {
    MissingFieldErrors(RequiredJsonFields, doc.keys) + Concat(VmErrorLists(DocVms(doc)))
  }

  lemma {:induction false} MissingFieldErrorsEmpty(fields: seq<string>, keys: seq<string>)
    ensures MissingFieldErrors(fields, keys) == [] <==> forall f :: f in fields ==> f in keys
  {
    if |fields| > 0 {
      MissingFieldErrorsEmpty(fields[1..], keys);
      assert fields == [fields[0]] + fields[1..];
    }
  }

  /** A document is accepted exactly when it has every required field and
      every VM entry has a non-empty name and size. */
  lemma ValidateTerraformJsonSpec(doc: JsonDoc)
    ensures ValidateTerraformJson(doc) == [] <==>
      && (forall f :: f in RequiredJsonFields ==> f in doc.keys)
      && forall i :: 0 <= i < |doc.virtualMachines| ==>
        Truthy(Get(doc.virtualMachines[i], "name")) && Truthy(Get(doc.virtualMachines[i], "vm_size"))
  {
    MissingFieldErrorsEmpty(RequiredJsonFields, doc.keys);
    var vms := DocVms(doc);
    var xss := VmErrorLists(vms);
    ConcatEmpty(xss);
    assert "virtual_machines" in RequiredJsonFields;
    if "virtual_machines" in doc.keys {
      forall i | 0 <= i < |vms| ensures |xss[i]| == 0 <==> Truthy(Get(vms[i], "name")) && Truthy(Get(vms[i], "vm_size")) {
        assert xss[i] == VmErrors(i, vms[i]);
      }
    }
  }

  // --------------------------------------------------------------- document

  datatype ApplicationConfig = ApplicationConfig(
    description: string,
    tier: string,
    owner: string,
    businessOwner: string,
    serviceNowTicket: string,
    environments: seq<string>)

  /** The `metadata` block, which is always written: the generator version
      and the build record's names as they were read, without the clock
      reading and the source path. */
  datatype Metadata = Metadata(generatorVersion: string, projectName: string, applicationName: string)

  /** The variables document `create_terraform_json` writes. */
  datatype TerraformVariables = TerraformVariables(
    metadata: Metadata,
    projectName: string,
    applicationName: string,
    environment: string,
    location: string,
    resourceGroupName: string,
    applicationConfig: ApplicationConfig,
    virtualMachines: seq<VmConfig>,
    defaultTags: Record,
    networking: Networking)

  /** The assembly in `create_terraform_json` from the build record, its VM
      rows and the generation date. */
  function TerraformVariablesOf(data: Record, vms: seq<Record>, today: string): TerraformVariables {
    TerraformVariables(
      Metadata("1.0.0",
        GetOr(data, "project_name", "Unknown Project"),
        GetOr(data, "application_name", "Unknown Application")),
      NormalizeResourceName(GetOr(data, "project_name", "default-project")),
      NormalizeResourceName(GetOr(data, "application_name", "default-app")),
      PrimaryEnvironment(GetOr(data, "environments", "dev")),
      DefaultAzureRegion,
      ResourceGroupName(data),
      ApplicationConfig(
        GetOr(data, "app_description", "No description provided"),
        Lower(GetOr(data, "app_tier", "Bronze")),
        GetOr(data, "app_owner", "TBD"),
        GetOr(data, "business_owner", "TBD"),
        GetOr(data, "service_now_ticket", "TBD"),
        ParseEnvironments(GetOr(data, "environments", "dev"))),
      ProcessVmInstances(vms, data, today),
      ResourceTags(data, today),
      NetworkingConfig(vms))
  }

  /** The metadata keeps the names as read, and the top-level names are
      their normal forms; a missing name reads `Unknown ...` in the metadata
      while the top level falls back to the default project and
      application. */
  lemma MetadataNames(data: Record, vms: seq<Record>, today: string)
    ensures var v := TerraformVariablesOf(data, vms, today);
      && v.metadata.generatorVersion == "1.0.0"
      && (HasKey(data, "project_name") ==> v.projectName == NormalizeResourceName(v.metadata.projectName))
      && (!HasKey(data, "project_name") ==>
            v.metadata.projectName == "Unknown Project" && v.projectName == NormalizeResourceName("default-project"))
      && (HasKey(data, "application_name") ==> v.applicationName == NormalizeResourceName(v.metadata.applicationName))
      && (!HasKey(data, "application_name") ==>
            v.metadata.applicationName == "Unknown Application" && v.applicationName == NormalizeResourceName("default-app"))
  {
  }

  /** The top-level keys of the written document. */
  const DocumentKeys: seq<string> := [
    "metadata", "project_name", "application_name", "environment", "location",
    "resource_group_name", "application_config", "virtual_machines",
    "default_tags", "networking"
  ]

  /** `{key: value}` when the optional value is present. */
  function Entry(key: string, o: Option<string>): Record {
    if o.Some? then [(key, o.value)] else []
  }

  /** The text-valued fields of a VM entry, in the order the generator
      writes them. */
  function VmRecord(c: VmConfig): Record {
    [("name", c.name), ("hostname", c.hostname), ("resource_group", c.resourceGroup),
     ("vm_size", c.vmSize), ("os_image", c.osImage), ("admin_username", c.adminUsername),
     ("environment", c.environment), ("location", c.location)]
      + Entry("subscription_name", c.subscriptionName)
      + Entry("network_security_group", c.networkSecurityGroup)
      + Entry("subnet_name", c.subnetName)
      + Entry("virtual_network", c.virtualNetwork)
      + Entry("availability_zone", c.availabilityZone)
      + Entry("disk_type", c.diskType)
  }

  lemma VmRecordGet(c: VmConfig)
    ensures Get(VmRecord(c), "name") == Some(c.name)
    ensures Get(VmRecord(c), "vm_size") == Some(c.vmSize)
  {
    var m := VmRecord(c);
    assert m[0] == ("name", c.name) && m[3] == ("vm_size", c.vmSize);
    assert m[1].0 == "hostname" && m[2].0 == "resource_group";
    FindSpec(m, "vm_size");
  }

  function VmRecords(cs: seq<VmConfig>): (rs: seq<Record>)
    ensures |rs| == |cs|
    ensures forall i :: 0 <= i < |cs| ==> rs[i] == VmRecord(cs[i])
  {
    seq(|cs|, i requires 0 <= i < |cs| => VmRecord(cs[i]))
  }

  function DocumentOf(v: TerraformVariables): JsonDoc {
    JsonDoc(DocumentKeys, VmRecords(v.virtualMachines))
  }

  /** A document whose VM entries are well formed fails validation only
      through an empty VM size: names are never empty, and every required
      field is written. */
  lemma ValidateDocument(v: TerraformVariables)
    requires forall j :: 0 <= j < |v.virtualMachines| ==> WellFormedVm(v.virtualMachines[j])
    ensures ValidateTerraformJson(DocumentOf(v)) == [] <==>
      forall j :: 0 <= j < |v.virtualMachines| ==> v.virtualMachines[j].vmSize != ""
  {
    var doc := DocumentOf(v);
    ValidateTerraformJsonSpec(doc);
    assert forall f :: f in RequiredJsonFields ==> f in DocumentKeys;
    forall j | 0 <= j < |v.virtualMachines|
      ensures (Truthy(Get(doc.virtualMachines[j], "name")) && Truthy(Get(doc.virtualMachines[j], "vm_size")))
        <==> v.virtualMachines[j].vmSize != ""
    {
      VmRecordGet(v.virtualMachines[j]);
      assert WellFormedVm(v.virtualMachines[j]);
    }
  }

  /** So the document generated from any build record validates exactly
      when every generated VM has a size. */
  lemma ValidateGenerated(data: Record, vms: seq<Record>, today: string)
    ensures var v := TerraformVariablesOf(data, vms, today);
      ValidateTerraformJson(DocumentOf(v)) == [] <==>
        forall j :: 0 <= j < |v.virtualMachines| ==> v.virtualMachines[j].vmSize != ""
  {
    ProcessVmInstancesShape(vms, data, today);
    ValidateDocument(TerraformVariablesOf(data, vms, today));
  }
}
